=== FILE: README.md ===
# open-ptc-agent core, modelled in Dafny

open-ptc-agent is an agent that solves tasks by writing and running code in a remote
Daytona sandbox, reaching MCP servers through generated tool modules, and is driven from
a terminal CLI. This project models the core of that system and proves properties of the
model:

- **Configuration**: reading `config.yaml` and `llms.json` (`src/utils/config_loader.py`,
  `src/ptc_core/config.py`, `src/agent/config.py`). That covers required sections and
  fields, documented defaults, the LLM catalog lookup, the credential check and the
  keyword arguments of the LLM client.
- **The agent** (`src/agent/agent.py`, `src/agent/subagents/__init__.py`): which tools and
  sub-agents an agent gets, the servers its prompt describes, the recursion limit, and how
  the messages of a run become an execution result.
- **The prompt's MCP section** (`src/agent/prompts/formatter.py`): brief and detailed
  listings, with per-server overrides of the global mode.
- **The agent's tools**: reading, writing and editing files, glob, grep and Bash. Each
  tool guards paths against the allowed directories and talks to the sandbox through its
  methods.
- **The CLI**: slash-command routing, the `/files` tree and the model picker; tool-call
  display; the streaming state; the session state; persisted sessions and the
  configuration hash that invalidates them; choosing, reconnecting to and recording the
  sandbox of a session; and the prompt's key handling (triple Ctrl+C to exit, the bottom
  toolbar, Enter).

The sandbox, the language model and the agent framework are outside the model. The
sandbox is a record of functions (`Sandbox.Sandbox`). A call that raises returns `Err`
with the exception's text. What the model and the framework return is an input.

Values the source computes are Dafny functions. The objects the CLI updates in place are
classes whose methods state their whole new state:

- `CliState.SessionState`, `Streaming.StreamingState` and `Prompt.InputBuffer`;
- `Persistence.SessionStore`, which holds the session files as a map from agent name to
  file;
- `Lifecycle.SessionCache`, the session manager's cache.

Loops in the source (numbering the lines of a file, building the `/files` tree, reading
the picker's keys, appending a tool's listing) are methods with loop invariants. Each is
proved against a specification function.

Helper modules:

- `Text` holds Python's string operations as used here: `strip`, `split`, `join`,
  `replace`, `in`, `lower`, and `str()` of an integer.
- `Ordering` holds Python's string order and `sorted(..., key=...)` as a stable
  insertion sort.

## Model

| member | source | states |
|---|---|---|
| Formatter.ToolsWord | src/agent/prompts/formatter.py:146-147 | "tool" exactly for one tool, "tools" otherwise |
| Formatter.Lookup | src/agent/prompts/formatter.py:107 | a config is found exactly when the server name is a key, and it is that key's config |
| Formatter.HeaderLines | src/agent/prompts/formatter.py:150-158 | a server's header is one line, plus an "Instructions" line exactly when its config has a non-empty instruction |
| Formatter.BriefBlock | src/agent/prompts/formatter.py:135-165 | a brief block is the header lines, then the module path, the tool count with "tool"/"tools" and "available", the import line and the documentation path, in that order |
| Formatter.BriefBlockCountOnly | src/agent/prompts/formatter.py:146-163 | a brief block depends on the tools only through their number |
| Formatter.ParamText | src/agent/prompts/formatter.py:203-211 | a dict parameter reads `name: type` (type defaults to `any`); an optional one ends with ` = default` (default `None`) |
| Formatter.ParamsText | src/agent/prompts/formatter.py:198-213 | no parameters give nothing; a list shows its names and a dict its `name: type` entries, first entry first, one entry alone |
| Formatter.ToolLine | src/agent/prompts/formatter.py:195-224 | a signature line starts with `- name(params)` and ends with `: description` when there is one, else with `-> return_type` when there is one |
| Formatter.DetailedBlock | src/agent/prompts/formatter.py:168-226 | a detailed block is the header lines, the module path, "Available tools:", then one signature line per tool in order |
| Formatter.ServerMode | src/agent/prompts/formatter.py:109-112 | a server is detailed exactly when its own override says so, or it has none and the global mode is detailed |
| Formatter.ServerBlock | src/agent/prompts/formatter.py:109-117 | a server's own exposure mode picks its detailed or brief block; without one, the detailed block exactly when the global mode is "detailed"; at least three lines either way |
| Formatter.PerServerLines | src/agent/prompts/formatter.py:104-117 | the per-server listing is empty exactly when the tools-by-server list is empty, and has at least three lines per server |
| Formatter.WithGuidance | src/agent/prompts/formatter.py:119-132 | no lines give "No MCP servers configured."; otherwise the joined lines followed by the guidance, never the "no servers" message |
| Formatter.FormatPerServer | src/agent/prompts/formatter.py:87-132 | the "no servers" message exactly when there are no servers; otherwise the per-server lines joined, ending with the guidance |
| Formatter.BriefLines | src/agent/prompts/formatter.py:244-266 | the brief listing is empty exactly when the server map is |
| Formatter.FormatBrief | src/agent/prompts/formatter.py:229-282 | the "no servers" message exactly when there are no servers; otherwise the brief lines joined, ending with the guidance |
| Formatter.DetailedLines | src/agent/prompts/formatter.py:297-346 | the detailed listing is empty exactly when the server map is |
| Formatter.FormatDetailed | src/agent/prompts/formatter.py:284-352 | the "no servers" message with no servers; otherwise the detailed lines joined, with no guidance |
| Formatter.FormatToolSummary | src/agent/prompts/formatter.py:58-85 | with server configs the per-server summary; without, "detailed" gives the detailed summary and every other mode the brief one; no servers give the fixed message |
| Formatter.GlobalModeDispatch | src/agent/prompts/formatter.py:73-84 | without server configs, "detailed" gives the detailed summary and every other mode the brief one |
| Formatter.NoServersEverywhere | src/agent/prompts/formatter.py:119-120 | with no servers, all three paths answer "No MCP servers configured." |
| Formatter.GuidanceAppended | src/agent/prompts/formatter.py:122-132 | with servers, the per-server and brief summaries end with the signature-checking guidance |
| Formatter.PerServerAllBrief | src/agent/prompts/formatter.py:87-132 | with no detailed override and a non-detailed default, the per-server summary equals the brief summary |
| Formatter.PerServerAllDetailed | src/agent/prompts/formatter.py:87-132 | when every server is shown in detail, the per-server summary is the detailed summary followed by the guidance |
| Formatter.BuildMcpSection | src/agent/prompts/formatter.py:46-55 | the section is the template's head, the summary unchanged, then the template's tail |
| Formatter.BuildMcpSectionKeepsSummary | src/agent/prompts/formatter.py:46-55 | different summaries give different sections, and the section contains the summary |
| SlashCommands.NormalizePath | libs/ptc-cli/ptc_cli/commands/slash.py:59-63 | a path under `/home/daytona/` loses exactly that prefix; any other path is unchanged |
| SlashCommands.NormalizeUnderHome | libs/ptc-cli/ptc_cli/commands/slash.py:61-62 | only one prefix is removed |
| SlashCommands.KeepVisible | libs/ptc-cli/ptc_cli/commands/slash.py:120-124 | a path is kept exactly when it is not `code`, `tools` or `mcp_servers` or under one of them |
| SlashCommands.KeepVisibleAppend | libs/ptc-cli/ptc_cli/commands/slash.py:120-124 | the filter keeps the order of what it keeps |
| SlashCommands.FilesShown | libs/ptc-cli/ptc_cli/commands/slash.py:115-124 | `/files all` shows every normalised path in order; otherwise the shown list is the normalised paths with the excluded ones dropped (KeepVisible), so no excluded path is shown |
| SlashCommands.Insert | libs/ptc-cli/ptc_cli/commands/slash.py:78-81 | inserting a path never removes a child, and its first component becomes a child; the chains of names in the new tree are exactly the old ones and the prefixes of the inserted parts |
| SlashCommands.InsertWellFormed | libs/ptc-cli/ptc_cli/commands/slash.py:76-81 | no name occurs twice among siblings, at any level |
| SlashCommands.InsertIdempotent | libs/ptc-cli/ptc_cli/commands/slash.py:80-81 | inserting a path that is already there changes nothing (`setdefault`) |
| SlashCommands.TreeOf | libs/ptc-cli/ptc_cli/commands/slash.py:76-81 | the tree built from any list of paths is well formed, and a non-empty chain of names leads down it exactly when it is a leading run of the `/`-separated parts of one of the paths |
| SlashCommands.ReplaceChildPaths | libs/ptc-cli/ptc_cli/commands/slash.py:80-81 | descending into an existing child adds exactly the prefixes of the inserted parts |
| SlashCommands.AppendChildPaths | libs/ptc-cli/ptc_cli/commands/slash.py:80-81 | a child added by `setdefault` adds exactly the prefixes of the inserted parts |
| SlashCommands.ListedSnoc | libs/ptc-cli/ptc_cli/commands/slash.py:77-78 | the prefixes listed by a list of paths are those of its earlier paths and those of its last one |
| SlashCommands.RepeatedPathCollapses | libs/ptc-cli/ptc_cli/commands/slash.py:77-81 | a duplicate path adds nothing to the tree |
| SlashCommands.RenderOneLinePerNode | libs/ptc-cli/ptc_cli/commands/slash.py:86-95 | the tree view has one line per node |
| SlashCommands.TreeLinesIgnoreOrder | libs/ptc-cli/ptc_cli/commands/slash.py:77 | the order in which the files arrive does not change the tree view |
| SlashCommands.RenderTree | libs/ptc-cli/ptc_cli/commands/slash.py:66-98 | the loop that builds and renders the tree gives the tree lines of the sorted files |
| SlashCommands.RenderInto | libs/ptc-cli/ptc_cli/commands/slash.py:86-95 | `render_node` appends exactly the lines of the subtree |
| SlashCommands.InitialSelection | libs/ptc-cli/ptc_cli/commands/slash.py:238-243 | the picker starts on the current model's entry, else on the first |
| SlashCommands.Pick | libs/ptc-cli/ptc_cli/commands/slash.py:289-308 | a chosen index and the highlighted index always lie within the list |
| SlashCommands.DownPresses | libs/ptc-cli/ptc_cli/commands/slash.py:295-296 | k presses of Down move the selection k places forward, modulo the list length |
| SlashCommands.UpPresses | libs/ptc-cli/ptc_cli/commands/slash.py:297-298 | k presses of Up move it k places back, modulo the list length |
| SlashCommands.FullCircle | libs/ptc-cli/ptc_cli/commands/slash.py:295-296 | going round the whole list comes back to the start |
| SlashCommands.SelectionOf | libs/ptc-cli/ptc_cli/commands/slash.py:289-308 | a selected name is one of the models offered |
| SlashCommands.PromptModelSelection | libs/ptc-cli/ptc_cli/commands/slash.py:222-308 | the key loop returns what the key sequence selects from the initial entry; `None` for an empty list |
| SlashCommands.ModelCommand | libs/ptc-cli/ptc_cli/commands/slash.py:338-446 | the model is switched exactly when every precondition holds: a context, no active conversation, a non-empty catalog, a new name picked, and a switch that succeeds |
| SlashCommands.SplitFirst | libs/ptc-cli/ptc_cli/commands/slash.py:571 | `split(maxsplit=1)` gives nothing exactly for blank input; otherwise the first part is the leading whitespace-free token of the left-stripped text, and a second part, when present, is the left-stripped remainder, which is then not blank |
| SlashCommands.Basename | libs/ptc-cli/ptc_cli/commands/slash.py:573 | a path's name has no slash |
| SlashCommands.DownloadArgs | libs/ptc-cli/ptc_cli/commands/slash.py:571-573 | the sandbox path is empty exactly for blank arguments and otherwise is the first token of the stripped arguments; the local path is the left-stripped remainder, or the sandbox path's name when nothing follows it |
| SlashCommands.DownloadRoute | libs/ptc-cli/ptc_cli/commands/slash.py:570-574 | a command whose stripped, lowered form starts with `/download ` is routed to the download request built from the text after those ten characters |
| SlashCommands.DispatchDownload | libs/ptc-cli/ptc_cli/commands/slash.py:570-574 | no earlier branch takes a `/download ` command, so dispatch builds its download request |
| SlashCommands.Dispatch | libs/ptc-cli/ptc_cli/commands/slash.py:535-582 | exit exactly for `/exit` and `/q`; the model handler exactly for `/model`; `/files` and `/files ...` show everything exactly when "all" occurs in the lowered command |
| SlashCommands.Route | libs/ptc-cli/ptc_cli/commands/slash.py:531-582 | the command is stripped and lowered before dispatch: exit exactly for `/exit` and `/q` in any case and with surrounding blanks; the model handler exactly for `/model`; `/files` shows everything as soon as "all" occurs anywhere in the lowered command |
| SlashCommands.HandleCommand | libs/ptc-cli/ptc_cli/commands/slash.py:510-584 | "exit" exactly for the exit commands; `/model` returns the model handler's answer; everything else is "handled" |
| SlashCommands.DownloadSingleArgument | libs/ptc-cli/ptc_cli/commands/slash.py:571-573 | a single argument downloads to a local file named after the sandbox path |
| Rendering.Truncate | libs/ptc-cli/ptc_cli/display/rendering.py:31-32 | a string that fits is unchanged; a longer one keeps its first `max` characters and gains "..." |
| Rendering.TruncateIdempotent | libs/ptc-cli/ptc_cli/display/rendering.py:31-32 | truncating twice to the same limit is truncating once |
| Rendering.TruncateError | libs/ptc-cli/ptc_cli/display/rendering.py:37-49 | an error within the limit is unchanged, else cut at the limit with "..." |
| Rendering.ArgPart | libs/ptc-cli/ptc_cli/display/rendering.py:20-28 | a string argument is shown as `key=repr(truncated value)`, any other as `key=str(value)` |
| Rendering.ArgParts | libs/ptc-cli/ptc_cli/display/rendering.py:19-28 | one part per argument, in order |
| Rendering.FormatToolDisplay | libs/ptc-cli/ptc_cli/display/rendering.py:8-34 | `name(...)` around the truncated joined arguments; the display is never longer than the name plus the limit plus five |
| Rendering.ShortArgumentsShownInFull | libs/ptc-cli/ptc_cli/display/rendering.py:30-34 | joined arguments that fit appear in full |
| Rendering.TextParts | libs/ptc-cli/ptc_cli/display/rendering.py:78-83 | no text parts exactly when no block is a text dict or a string |
| Rendering.TextPartsAppend | libs/ptc-cli/ptc_cli/display/rendering.py:79-83 | the parts keep the blocks' order |
| Rendering.FormatToolMessageContent | libs/ptc-cli/ptc_cli/display/rendering.py:65-85 | a string comes back unchanged; a list gives `None` exactly when no block contributes, and otherwise its text parts joined by newlines; anything else gives `None` |
| Rendering.TextDictContributes | libs/ptc-cli/ptc_cli/display/rendering.py:80-81 | a text dict contributes its "text" entry, or "" without one, at its own place |
| Rendering.OtherBlocksIgnored | libs/ptc-cli/ptc_cli/display/rendering.py:79-83 | a dict of another type, and a value that is neither dict nor string, contribute nothing |
| Rendering.StringBlocksOnePerLine | libs/ptc-cli/ptc_cli/display/rendering.py:76-84 | a list of strings without newlines comes back one per line |
| Rendering.StringBlockParts | libs/ptc-cli/ptc_cli/display/rendering.py:82-83 | every string block is a part |
| ConfigLoader.DictKeys | src/utils/config_loader.py:78 | a parsed mapping's keys are its entries' keys, each once |
| ConfigLoader.ToMap | src/utils/config_loader.py:78 | a parsed mapping maps each key to the value of its last entry |
| ConfigLoader.LoadYamlFile | src/utils/config_loader.py:16-48 | a missing file is `FileNotFoundError`; a parse failure or empty (falsy) content is `ValueError`; otherwise the document is returned |
| ConfigLoader.MissingKeys | src/utils/config_loader.py:78 | the missing keys are exactly the required keys the mapping lacks |
| ConfigLoader.MissingKeysAppend | src/utils/config_loader.py:78 | the missing keys keep the order of the required list |
| ConfigLoader.ValidateRequiredSections | src/utils/config_loader.py:63-83 | passes exactly when every required section is present; the error lists the missing ones |
| ConfigLoader.Iterate | src/ptc_core/config.py:189 | `for x in v`: a list's items, a mapping's keys, a string's characters; `TypeError` exactly for a scalar |
| ConfigLoader.PyIn | src/utils/config_loader.py:78 | `key in v`: key membership for a mapping, element membership for a list, substring for a string; `TypeError` exactly for a scalar |
| ConfigLoader.Subscript | src/ptc_core/config.py:156 | `v[key]` succeeds exactly on a mapping holding the key, with that key's value; a mapping without it is `KeyError`, any other value `TypeError` |
| ConfigLoader.MissingIn | src/utils/config_loader.py:78 | the required names `in` reports absent, in order; `TypeError` exactly when there is a name to test and the value is a scalar |
| ConfigLoader.TopLevelSections | src/utils/config_loader.py:63-83 | accepted exactly when the document is a mapping holding every required section; a mapping lacking some lists them; a scalar is `TypeError`; a list or string fails with the sections `in` finds missing, or else with the `TypeError` of indexing it |
| ConfigLoader.ValidateSectionFields | src/utils/config_loader.py:86-105 | passes exactly when every required field is present; the error lists the missing ones |
| ConfigLoader.RequiredStr | src/ptc_core/config.py:63 | a required string field: its value when present as a string; otherwise a validation error naming that field |
| ConfigLoader.BoolFieldOr | src/ptc_core/config.py:167 | `get(key, default)`: an absent key gives the default |
| ConfigLoader.OptStrField | src/ptc_core/config.py:168 | `get(key)`: an absent key gives `None` |
| PtcConfig.DaytonaFromSection | src/ptc_core/config.py:155-170 | the API key is the environment's; snapshot settings default to enabled, no name, auto-create |
| PtcConfig.SecurityFromSection | src/ptc_core/config.py:172-183 | a security section is read only when all six required fields are present |
| PtcConfig.TransportFrom | src/ptc_core/config.py:68 | an absent transport is `stdio` |
| PtcConfig.ModeFrom | src/ptc_core/config.py:83 | a tool exposure mode is accepted exactly when it is "summary" or "detailed" |
| PtcConfig.OptModeFrom | src/ptc_core/config.py:73 | an absent per-server mode means no override |
| PtcConfig.ServerFromValue | src/ptc_core/config.py:61-73 | a server record needs a mapping with a string `name`, which it keeps; a missing `name` is a validation error for that field; `**` on anything else raises `TypeError` |
| PtcConfig.ServersFromValues | src/ptc_core/config.py:189 | one server record per entry, in order; a failure is the failure of one of the entries, of the first when it fails |
| PtcConfig.ServersFrom | src/ptc_core/config.py:189 | a list gives its entries' records; an empty mapping or string gives no servers; a non-empty one, or a scalar, raises `TypeError` |
| PtcConfig.McpFromSection | src/ptc_core/config.py:185-196 | the servers are those read from the `servers` value, whose failure is the section's; lazy loading defaults to on, cache duration to none and the exposure mode to summary |
| PtcConfig.LoggingFromSection | src/ptc_core/config.py:198-206 | a logging section is read only when level, format and file are present |
| PtcConfig.FilesystemFromSection | src/ptc_core/config.py:219-222 | the working directory is `/home/daytona` and path validation defaults to on |
| PtcConfig.CheckFilesystemFields | src/ptc_core/config.py:208-217 | passes exactly when `allowed_directories` is present |
| PtcConfig.Load | src/ptc_core/config.py:119-233 | a loaded config comes from a parsed mapping holding all five sections, with the Daytona key from the environment |
| PtcConfig.TopLevel | src/ptc_core/config.py:148-156 | the top-level mapping is returned only when the file parsed to a mapping holding all five sections; any other non-empty document gets the section check as `in` and `[]` apply it |
| PtcConfig.LoadSections | src/ptc_core/config.py:155-233 | the section-by-section reading sets the Daytona key from the environment and the default working directory |
| PtcConfig.Bulleted | src/ptc_core/config.py:249 | each missing key gets the bullet |
| PtcConfig.AsWrittenCredentialsMessage | src/agent/config.py:280-285 | as written: the header, one bullet, the names joined by bare newlines, then the footer; with one name it is the corrected message |
| PtcConfig.SingleCredentialMessagesAgree | src/ptc_core/config.py:246-251 | with one missing key the message as written and the corrected one coincide |
| PtcConfig.ValidateApiKeys | src/ptc_core/config.py:235-251 | fails exactly when the Daytona key is empty, naming `DAYTONA_API_KEY` |
| PtcConfig.FilesystemCheckAgrees | src/ptc_core/config.py:208-217 | the hand-written filesystem check says exactly what the shared field validator says |
| PtcConfig.LoadRejectsMissingSection | src/ptc_core/config.py:151-153 | a config lacking any of the five sections is rejected, naming the missing sections |
| PtcConfig.FilesystemWithoutDirectoriesRejected | src/ptc_core/config.py:210-217 | a filesystem section without `allowed_directories` is rejected by name |
| PtcConfig.ServerDefaults | src/ptc_core/config.py:61-73 | a server entry with only a name gets every documented default |
| PtcConfig.McpDefaults | src/ptc_core/config.py:76-83 | an MCP section with only its two required fields gets the documented defaults |
| AgentConfiguration.LlmDefinitionFrom | src/agent/config.py:41-51 | a definition keeps the entry's `model_id`, `provider`, `sdk` and `api_key_env`; a missing required field is a validation error naming a required field (`model_id` when that one is missing); a non-mapping raises `TypeError`; `use_previous_response_id` defaults to false |
| AgentConfiguration.CatalogFrom | src/agent/config.py:143-146 | each distinct name once, in first-seen order, with the definition of the last value written for it; it succeeds exactly when every such value defines an LLM, and a failure is the error of one of them |
| AgentConfiguration.DefinitionsOf | src/agent/config.py:143-146 | for the given names, succeeds exactly when each names a valid definition; the catalog maps exactly those names to their definitions; a failure is one name's error |
| AgentConfiguration.DefinitionsInOrder | src/agent/config.py:143-146 | the catalog lists the names in the given order, one entry each |
| AgentConfiguration.LlmName | src/agent/config.py:156-166 | the `llm` section is the name itself or a mapping with a `name`; anything else is rejected |
| AgentConfiguration.ResolveLlm | src/agent/config.py:169-176 | the name resolves exactly when it is a catalog key, to that entry; otherwise the error lists the available names |
| AgentConfiguration.CustomToolsFlag | src/agent/config.py:244-245 | without an `agent` section the custom filesystem tools are on |
| AgentConfiguration.LoadCatalog | src/agent/config.py:124-146 | a missing `llms.json` is `FileNotFoundError`; a document that `in` finds without `llms` is the `llms`-key `ValueError`; a scalar document, or a list or string that passes `in`, is `TypeError`; an `llms` entry that is not a mapping is `AttributeError`; a catalog comes only from a mapping's `llms` mapping |
| AgentConfiguration.Load | src/agent/config.py:90-262 | a loaded config has all six sections, its LLM name is the one the `llm` section gives, and its definition is the catalog's entry for that name |
| AgentConfiguration.SectionsReadAsCore | src/agent/config.py:235-236 | the agent's filesystem check agrees with the core's hand-written one |
| AgentConfiguration.MissingCredentials | src/agent/config.py:270-278 | nothing is missing exactly when both keys are set; the Daytona key is reported first |
| AgentConfiguration.ValidateApiKeys | src/agent/config.py:264-285 | fails exactly when a credential is missing, with the message listing the missing variables |
| AgentConfiguration.CredentialsMessageLines | src/agent/config.py:280-285 | the corrected message has one bulleted line per missing variable, between the header and the footer |
| AgentConfiguration.AsWrittenSecondKeyUnbulleted | src/agent/config.py:280-285 | as written, a second missing variable lands on its own line without the bullet |
| AgentConfiguration.AsWrittenDiffersForTwoKeys | src/agent/config.py:280-285 | for the Daytona and Anthropic keys both missing, the message as written differs from the corrected one |
| AgentConfiguration.ApiKeyParam | src/agent/config.py:333-340 | the key goes under `anthropic_api_key` exactly for anthropic, `openai_api_key` exactly for openai, else `api_key` |
| AgentConfiguration.GetLlmClient | src/agent/config.py:287-355 | succeeds exactly when the SDK string has a dot; module and class split at the last dot; the client gets the built keyword arguments |
| AgentConfiguration.ClientKwargs | src/agent/config.py:328-352 | the keyword arguments hold `model` and the API key under the provider's keyword |
| AgentConfiguration.KwargKeys | src/agent/config.py:328-352 | the client gets `model`, the provider's key keyword, every parameter and each optional keyword whose field is set, and nothing else |
| AgentConfiguration.BuildKwargs | src/agent/config.py:328-352 | adding the entries one by one gives exactly the keyword arguments of `ClientKwargs` |
| AgentConfiguration.ModelKwarg | src/agent/config.py:328-331 | `model` is the catalog's model id unless `parameters` overrides it |
| AgentConfiguration.ApiKeyKwarg | src/agent/config.py:333-340 | the API key sits under the provider's keyword whatever `parameters` holds |
| AgentConfiguration.OptionalKwargs | src/agent/config.py:342-352 | `base_url`, `output_version` and `use_previous_response_id` are set when truthy and otherwise come only from `parameters` |
| AgentConfiguration.ParametersPassThrough | src/agent/config.py:328-352 | every other parameter reaches the client untouched |
| AgentConfiguration.ToCoreConfig | src/agent/config.py:357-369 | the five shared sub-configurations are carried over unchanged |
| Sandbox.Guard | src/agent/tools/filesystem/file_ops.py:56-63 | a path passes exactly when validation is off or its normalised form is allowed; the denial names the path as given |
| Sandbox.GuardOffAllowsAll | src/agent/tools/filesystem/file_ops.py:60 | with validation off every path passes |
| Sandbox.LinesAsJoin | src/agent/tools/search/glob.py:86-88 | appending `f"{x}\n"` per item is joining with newlines plus a final newline |
| Sandbox.MapSeq | src/agent/tools/search/glob.py:83 | one shown item per item, in order |
| Sandbox.AppendShown | src/agent/tools/search/glob.py:86-88 | the listing loop appends exactly the shown items, one per line |
| Sandbox.ListingLines | src/agent/tools/search/glob.py:86-97 | after `rstrip`, a listing splits back into its header and its items |
| FileOps.SplitLines | src/agent/tools/filesystem/file_ops.py:77 | `splitlines` gives no line with a break in it, and nothing exactly for empty text |
| FileOps.SplitLinesOfLines | src/agent/tools/filesystem/file_ops.py:77 | lines written one per newline are read back unchanged |
| FileOps.Numbered | src/agent/tools/filesystem/file_ops.py:81-85 | line k is numbered `start + k` |
| FileOps.ArrowThenContent | src/agent/tools/filesystem/file_ops.py:84 | everything after the arrow is the line itself |
| FileOps.GutterWidth | src/agent/tools/filesystem/file_ops.py:84 | below a million the number takes exactly six columns |
| FileOps.NumberedLineHasNoNewline | src/agent/tools/filesystem/file_ops.py:84 | a numbered line holds no newline |
| FileOps.NumberLines | src/agent/tools/filesystem/file_ops.py:77-87 | the numbering loop gives the numbered lines |
| FileOps.OrDefault | src/agent/tools/filesystem/file_ops.py:67 | `x or default`: `None` and 0 both give the default |
| FileOps.ReadRequest | src/agent/tools/filesystem/file_ops.py:66-69 | a range is read exactly when an offset or a limit is given, from `offset or 1` for `limit or 2000` lines |
| FileOps.ReadFile | src/agent/tools/filesystem/file_ops.py:54-101 | a denied path is refused without a sandbox call; a missing file and a raising call are errors; otherwise the numbered lines |
| FileOps.ReadOutputLines | src/agent/tools/filesystem/file_ops.py:77-87 | the output splits back into exactly the numbered lines |
| FileOps.ReadBackLines | src/agent/tools/filesystem/file_ops.py:77-87 | reading back written lines gives each line after its number and the arrow |
| FileOps.Utf8Length | src/agent/tools/filesystem/file_ops.py:145 | a text takes between one and four bytes per character |
| FileOps.Utf8LengthAscii | src/agent/tools/filesystem/file_ops.py:145 | ASCII takes one byte per character |
| FileOps.Utf8LengthAppend | src/agent/tools/filesystem/file_ops.py:145 | byte counts add up over concatenation |
| FileOps.WriteFile | src/agent/tools/filesystem/file_ops.py:130-162 | a denied path is refused without a write; a successful write reports its byte count and virtual path; a failure is an error |
| FileOps.WriteOnlyAllowed | src/agent/tools/filesystem/file_ops.py:136-142 | a write happens exactly when the guard passes, and it writes the content given |
| FileOps.WriteReportsAsciiLength | src/agent/tools/filesystem/file_ops.py:144-153 | for ASCII content the reported byte count is the number of characters |
| FileOps.EditFile | src/agent/tools/filesystem/file_ops.py:216-249 | a denied path is refused without an edit; otherwise the sandbox's message, or an error when it reports no success |
| FileOps.EditFailureIsError | src/agent/tools/filesystem/file_ops.py:236-239 | a failed edit always reports an error |
| Grep.SearchPath | src/agent/tools/search/grep.py:111 | the search path is the given one, else "." |
| Grep.OptionsOf | src/agent/tools/search/grep.py:132-146 | every argument reaches the sandbox under its own option, with the normalised path |
| Text.SplitAtMost | src/agent/tools/search/grep.py:167 | `split(":", 2)` gives at least one part, and two once there is a colon |
| Text.JoinSplitAtMost | src/agent/tools/search/grep.py:167-170 | joining the parts with the separator gives the entry back |
| Grep.ShowEntry | src/agent/tools/search/grep.py:166-171 | only the path before the first colon is virtualised and the rest of the entry is kept; an entry without a colon, or not a string, is shown as it came |
| Grep.GrepOutput | src/agent/tools/search/grep.py:151-199 | a failing search in the selected mode gives "ERROR: Failed to grep content: ..."; an empty answer gives "No matches found" with the pattern and the search path as given |
| Grep.SearchCall | src/agent/tools/search/grep.py:125-149 | the sandbox is searched exactly when the guard passes |
| Grep.Grep | src/agent/tools/search/grep.py:109-199 | a denied path is refused without a call; otherwise the sandbox is searched with the given options and its answer formatted per mode |
| Grep.EmptyAnswerIsNoMatches | src/agent/tools/search/grep.py:151-153 | an empty answer gives "No matches found" in every mode |
| Grep.FailureIsError | src/agent/tools/search/grep.py:190-199 | a failing search is reported as an error in every mode |
| Grep.FilesListing | src/agent/tools/search/grep.py:156-160 | in files mode the output is the header and one virtual path per line |
| Grep.ContentListing | src/agent/tools/search/grep.py:161-171 | in content mode a blank line follows the header, then one line per entry in order |
| Glob.GlobOutput | src/agent/tools/search/glob.py:75-97 | a failing glob is an error and an empty one "No files matching" |
| Glob.GlobFiles | src/agent/tools/search/glob.py:62-102 | a denied path is refused without a call; otherwise the sandbox's matches are listed |
| Glob.GlobListing | src/agent/tools/search/glob.py:83-97 | the output is the header and one virtual path per line |
| Bash.TimeoutSeconds | src/agent/tools/bash/execute.py:100 | no timeout or 0 gives 120 seconds; otherwise the milliseconds divided by 1000 |
| Bash.WholeSecondsTimeout | src/agent/tools/bash/execute.py:100 | whole seconds convert exactly, and 120000 ms is the default |
| Bash.Request | src/agent/tools/bash/execute.py:103-108 | the command, directory and background flag are passed through, with the converted timeout |
| Bash.CombinedOutput | src/agent/tools/bash/execute.py:111-117 | stdout, then stderr on a new line when both are non-empty; either alone otherwise |
| Bash.FailureMessage | src/agent/tools/bash/execute.py:136-146 | a failure starts with "ERROR: Command failed (exit code N)" and a newline, N being -1 when missing, and ends with stderr or "Command execution failed" when stderr is missing |
| Bash.RunBash | src/agent/tools/bash/execute.py:100-156 | one call with the request; the combined output, "Command completed successfully" when empty, or the failure with its exit code |
| Bash.OutcomeShapes | src/agent/tools/bash/execute.py:110-146 | a successful command never yields empty output; a failed one always starts with "ERROR: Command failed (exit code N)" and a newline |
| Bash.StreamsRecoverable | src/agent/tools/bash/execute.py:114-117 | stdout without a newline can be separated again from stderr |
| Subagents.FilterKwargs | src/agent/subagents/__init__.py:57-58 | exactly the arguments the sub-agent accepts are kept |
| Subagents.FilterKwargsAppend | src/agent/subagents/__init__.py:58 | the filter keeps the arguments' order |
| Subagents.CreateSubagentByName | src/agent/subagents/__init__.py:50-69 | fails exactly for an unknown name or a stateful one without both dependencies; otherwise the named factory with the filtered arguments |
| Subagents.UnknownNameListsRegistry | src/agent/subagents/__init__.py:50-52 | the unknown-name error names every registered sub-agent |
| Subagents.CreateSubagentsFromNames | src/agent/subagents/__init__.py:89-92 | succeeds exactly when every name does, one sub-agent per name in order; otherwise the first failure's error |
| Subagents.StatelessWithoutDependencies | src/agent/subagents/__init__.py:61-69 | research sub-agents need no sandbox or registry |
| Subagents.GeneralNeedsDependencies | src/agent/subagents/__init__.py:61-65 | asking for "general" without both dependencies fails |
| Agent.ServerConfigsOf | src/agent/agent.py:103 | only enabled servers are passed, each under its own name; every enabled name is there, and it maps to the last enabled server with that name |
| Agent.DisabledServerLeftOut | src/agent/agent.py:103 | a disabled server never reaches the formatter |
| Agent.ToolSummary | src/agent/agent.py:86-108 | no servers give the fixed message; with no server enabled the global mode alone decides; with one enabled, the per-server summary over the enabled servers' configs |
| Agent.NoEnabledServerUsesGlobalMode | src/agent/agent.py:103-108 | with no server enabled, the global exposure mode alone decides the listing |
| Agent.CreateTools | src/agent/agent.py:135-152 | code execution and Bash always; read, write, edit, glob and grep exactly when the custom filesystem tools are on |
| Agent.SubagentNames | src/agent/agent.py:170-171 | "research" alone when no names are given |
| Agent.SubagentEntries | src/agent/agent.py:181-182 | the created sub-agents in order, then the additional ones in order |
| Agent.AgentSubagents | src/agent/agent.py:170-183 | a creation failure is passed on; otherwise no list exactly when nothing is created or added, else the created sub-agents in name order followed by the additional ones |
| Agent.DefaultSubagentIsResearch | src/agent/agent.py:170-180 | by default the agent has exactly the research sub-agent, given its iteration limit |
| Agent.RecursionLimit | src/agent/agent.py:245 | `max(max_retries * 5, 15)` |
| Agent.OfKind | src/agent/agent.py:297-299 | the messages of one type, and none exactly when no message has it |
| Agent.OfKindAppend | src/agent/agent.py:297-299 | the filter keeps the messages' order |
| Agent.NonEmpty | src/agent/agent.py:343 | exactly the non-empty file names are kept |
| Agent.NonEmptyCounts | src/agent/agent.py:343 | each non-empty name is kept as often as it occurs; only the empty names are dropped |
| Agent.NonEmptyAppend | src/agent/agent.py:343 | filtering keeps the order: the kept names of two lists joined are those of the first, then of the second |
| Agent.CreatedFiles | src/agent/agent.py:338-345 | no listing gives no files; otherwise exactly the non-empty names, with only the empty ones dropped |
| Agent.Observation | src/agent/agent.py:320-324 | a tool message's content, or its `str()` text when it has none |
| Agent.Succeeded | src/agent/agent.py:327 | "SUCCESS" anywhere makes a success, as does the absence of "ERROR"; an observation beginning with "ERROR" and without "SUCCESS" fails |
| Agent.StepResult | src/agent/agent.py:328-356 | success exactly when the observation counts as successful: then it is stdout (without "SUCCESS"), else stderr (without "ERROR"); the result files are kept and the id is `agent_step_<n>` |
| Agent.ParseAgentResult | src/agent/agent.py:270-356 | no messages fails with "Agent returned no messages"; no tool messages succeeds with the last AI message or "No execution"; otherwise the last tool message's observation decides success, stdout and stderr, the id counts the tool messages and the non-empty result files are kept |
| Agent.KindsResult | src/agent/agent.py:297-356 | without tool messages, a success with the last AI message's text; with them, the step result of the last tool message |
| Agent.LaterNonToolMessagesIgnored | src/agent/agent.py:320 | messages after the last tool message do not change the result |
| Agent.ErrorOutputFails | src/agent/agent.py:328 | an observation beginning with "ERROR" and without "SUCCESS" fails |
| Agent.UnmarkedOutputSucceeds | src/agent/agent.py:328-332 | an observation with neither marker succeeds with itself, stripped, as stdout |
| Agent.ExecuteTask | src/agent/agent.py:222-268 | the run uses the recursion limit; a raising run gives "Agent execution error" with id `agent_error` |
| Ordering.SortBy | libs/ptc-cli/ptc_cli/agent/persistence.py:146 | `sorted` by key gives a sorted permutation |
| Ordering.SortPermutation | libs/ptc-cli/ptc_cli/agent/persistence.py:146 | with distinct keys, permutations sort alike |
| Persistence.LoadDecision | libs/ptc-cli/ptc_cli/agent/persistence.py:18-55 | no file: nothing, nothing deleted; unparseable JSON: deleted; a missing or empty sandbox id or hash: nothing, kept; otherwise no `last_used`: the record, kept; a malformed `last_used`: deleted; a valid one: deleted exactly when older than 24 hours, and the record returned exactly when not |
| Persistence.LoadedSessionIsRecent | libs/ptc-cli/ptc_cli/agent/persistence.py:39-48 | a loaded session was last used at most 24 hours ago, or has no `last_used` |
| Persistence.SavedRecord | libs/ptc-cli/ptc_cli/agent/persistence.py:58-76 | the saved record holds the id, the hash and `now` as both timestamps, and loads back at once when id and hash are non-empty |
| Persistence.SaveThenLoad | libs/ptc-cli/ptc_cli/agent/persistence.py:58-76 | a saved record loads back exactly while at most 24 hours old |
| Persistence.AfterLoad | libs/ptc-cli/ptc_cli/agent/persistence.py:18-55 | loading leaves the files alone or removes the agent's file, and removes it exactly when the load decision deletes it |
| Persistence.NothingStaysNothing | libs/ptc-cli/ptc_cli/agent/persistence.py:27-53 | a session that does not load will not load later either |
| Persistence.SessionStore.Load | libs/ptc-cli/ptc_cli/agent/persistence.py:18-55 | returns the load decision's session; the file is deleted exactly when the decision says so |
| Persistence.SessionStore.Save | libs/ptc-cli/ptc_cli/agent/persistence.py:58-76 | the agent's file holds the new record and nothing else changes |
| Persistence.SessionStore.UpdateLastUsed | libs/ptc-cli/ptc_cli/agent/persistence.py:79-95 | a parsed record gets a new `last_used`; anything else is left alone |
| Persistence.SessionStore.Delete | libs/ptc-cli/ptc_cli/agent/persistence.py:98-110 | the agent's file is gone and nothing else changes |
| Persistence.DeleteTwice | libs/ptc-cli/ptc_cli/agent/persistence.py:98-110 | deleting twice is deleting once |
| Persistence.RefreshedSessionLoads | libs/ptc-cli/ptc_cli/agent/persistence.py:79-95 | a refreshed session loads for another 24 hours |
| Persistence.ServersData | libs/ptc-cli/ptc_cli/agent/persistence.py:130-139 | one hashed entry per server, in order |
| Persistence.CanonicalData | libs/ptc-cli/ptc_cli/agent/persistence.py:141-147 | the servers are sorted by name and are a permutation of the config's |
| Persistence.SessionConfigHash | libs/ptc-cli/ptc_cli/agent/persistence.py:113-150 | the first eight characters of the digest |
| Persistence.ServersDataPermutation | libs/ptc-cli/ptc_cli/agent/persistence.py:130-139 | the same servers in another order give the same hashed entries, as a multiset |
| Persistence.HashIgnoresServerOrder | libs/ptc-cli/ptc_cli/agent/persistence.py:146 | reordering servers with distinct names leaves the hash unchanged |
| Persistence.HashIgnoresOtherFields | libs/ptc-cli/ptc_cli/agent/persistence.py:127-150 | only the four Daytona fields and each server's name, enabled flag, transport, command and arguments affect the hash |
| Lifecycle.SessionCache.GetSession | libs/ptc-cli/ptc_cli/agent/lifecycle.py:72 | a cached session is returned as is; otherwise a new one is cached |
| Lifecycle.SessionCache.Evict | libs/ptc-cli/ptc_cli/agent/lifecycle.py:87 | the agent's session leaves the cache |
| Lifecycle.CreateSessionSandbox | libs/ptc-cli/ptc_cli/agent/lifecycle.py:51-99 | the session files, reuse and sandbox follow the session plan; the agent's session is cached under it and nothing else in the cache changes; without a reconnect an existing session is reused and a new one counts one creation; a reconnect that fails evicts and recreates the session |
| Lifecycle.ChooseSandbox | libs/ptc-cli/ptc_cli/agent/lifecycle.py:51-67 | the explicit id, else the persisted id made for this configuration, is chosen; a record for another configuration is deleted |
| Lifecycle.Connect | libs/ptc-cli/ptc_cli/agent/lifecycle.py:71-99 | a reconnecting sandbox is reused and refreshed; a failing one is deleted with its cached session, and the session is created anew (one or two creations); a fresh sandbox is saved when sessions persist; the cache changes only at the agent's entry |
| Lifecycle.ExplicitIdOverrides | libs/ptc-cli/ptc_cli/agent/lifecycle.py:55-57 | an explicit sandbox id is the one reconnected to, whatever is persisted |
| Lifecycle.PersistedIdNeedsMatchingHash | libs/ptc-cli/ptc_cli/agent/lifecycle.py:58-64 | without an explicit id, a sandbox is reused only when its record loads with the current hash |
| Lifecycle.HashMismatchDeletes | libs/ptc-cli/ptc_cli/agent/lifecycle.py:65-67 | a record made for another configuration is never reused, and is replaced by at most the fresh sandbox's record |
| Lifecycle.FailedReconnectStartsFresh | libs/ptc-cli/ptc_cli/agent/lifecycle.py:82-90 | a failed reconnect falls back to a fresh sandbox, recorded exactly when sessions persist and it has an id |
| Lifecycle.OtherAgentsUntouched | libs/ptc-cli/ptc_cli/agent/lifecycle.py:51-99 | only the starting agent's file is touched |
| Lifecycle.NoPersistenceNoWrites | libs/ptc-cli/ptc_cli/agent/lifecycle.py:96-99 | without persistence the agent's file is at most deleted |
| Lifecycle.NextStartFindsSandbox | libs/ptc-cli/ptc_cli/agent/lifecycle.py:74-99 | with persistence, the next start finds the sandbox now in use, with this hash |
| Streaming.StreamingState.constructor | libs/ptc-cli/ptc_cli/streaming/state.py:15-29 | the spinner runs, nothing is pending, nothing has been said |
| Streaming.StreamingState.StopSpinner | libs/ptc-cli/ptc_cli/streaming/state.py:40-44 | the spinner is off afterwards, stopped only if it was running |
| Streaming.StreamingState.StartSpinner | libs/ptc-cli/ptc_cli/streaming/state.py:46-50 | the spinner is on afterwards, started only if it was off |
| Streaming.StreamingState.UpdateSpinner | libs/ptc-cli/ptc_cli/streaming/state.py:52-58 | a new status message whether or not the spinner runs |
| Streaming.StreamingState.AppendText | libs/ptc-cli/ptc_cli/streaming/state.py:75-81 | the text is appended to the pending text |
| Streaming.StreamingState.FlushText | libs/ptc-cli/ptc_cli/streaming/state.py:60-73 | only a final flush of non-blank text shows anything; the marker is printed once per answer |
| Streaming.StreamingState.ShowText | libs/ptc-cli/ptc_cli/streaming/state.py:68-73 | the spinner is stopped, the marker precedes the first answer only, and the text is shown and the buffer emptied |
| Streaming.FlushedMarkedOnce | libs/ptc-cli/ptc_cli/streaming/state.py:68-72 | after a final flush the marker has been printed exactly once |
| Streaming.FlushTwice | libs/ptc-cli/ptc_cli/streaming/state.py:66-71 | however often the answer is flushed, the marker appears at most once |
| CliState.SessionState.constructor | libs/ptc-cli/ptc_cli/core/state.py:10-42 | the flags as given; nothing reused, no hint, no Ctrl+C counted |
| CliState.SessionState.ToggleAutoApprove | libs/ptc-cli/ptc_cli/core/state.py:44-47 | the flag is negated, nothing else changes, the new value is returned |
| CliState.SessionState.TogglePlanMode | libs/ptc-cli/ptc_cli/core/state.py:49-56 | the flag is negated, nothing else changes, the new value is returned |
| CliState.SessionState.ResetThread | libs/ptc-cli/ptc_cli/core/state.py:58-65 | a new thread id and nothing else |
| CliState.TogglePlanModeTwice | libs/ptc-cli/ptc_cli/input/prompt.py:166-171 | pressing Shift+Tab twice leaves the session as it was |
| Prompt.CtrlC | libs/ptc-cli/ptc_cli/input/prompt.py:111-163 | with input, the input is cleared and the count forgotten; without, the press is counted and the app exits on the third |
| Prompt.ForgetPresses | libs/ptc-cli/ptc_cli/input/prompt.py:118-125 | the count, the hint and the timer go; nothing else changes |
| Prompt.CountPress | libs/ptc-cli/ptc_cli/input/prompt.py:127-161 | the count restarts after the window, the hint runs three seconds, and the app exits at three presses |
| Prompt.ClearHint | libs/ptc-cli/ptc_cli/input/prompt.py:151-159 | once the window has closed the hint and the count are cleared; before, nothing changes |
| Prompt.PressKeepsHintValid | libs/ptc-cli/ptc_cli/input/prompt.py:130-145 | a press that does not exit leaves a counted press with an open window |
| Prompt.PressesCountStreak | libs/ptc-cli/ptc_cli/input/prompt.py:130-135 | the count after a series of presses is the number of trailing presses each within three seconds of the previous |
| Prompt.TriplePressExits | libs/ptc-cli/ptc_cli/input/prompt.py:141-145 | one or two presses never exit; three exit exactly when each follows the previous within the window |
| Prompt.ClearingDoesNotChangeNextPress | libs/ptc-cli/ptc_cli/input/prompt.py:151-158 | expiring the hint never changes what the next press does |
| Prompt.Toolbar | libs/ptc-cli/ptc_cli/input/prompt.py:34-84 | the toolbar parts, with expired hints dropped from the state |
| Prompt.ModeParts | libs/ptc-cli/ptc_cli/input/prompt.py:34-57 | the bash-mode badge exactly when the input starts with "!", then the label for the current plan mode |
| Prompt.EscHint | libs/ptc-cli/ptc_cli/input/prompt.py:59-67 | the revision hint shows while its time has not come and is dropped once it has |
| Prompt.ExitHintPart | libs/ptc-cli/ptc_cli/input/prompt.py:69-82 | the exit hint shows while its window is open and a press is counted; otherwise hint and count are cleared |
| Prompt.ToolbarShowsPlanMode | libs/ptc-cli/ptc_cli/input/prompt.py:49-57 | the toolbar always reports plan mode, on or off |
| Prompt.ExitHintCountsDown | libs/ptc-cli/ptc_cli/input/prompt.py:73-79 | while the hint shows it says how many more presses exit |
| Prompt.Enter | libs/ptc-cli/ptc_cli/input/prompt.py:174-201 | Enter submits exactly when no menu is open and the input is not blank; with a menu it applies a completion or closes the menu |
| Prompt.BlankNeverSubmitted | libs/ptc-cli/ptc_cli/input/prompt.py:197-201 | blank input is never submitted |

## Left out

- The sandbox, the MCP registry, the language model and the agent framework are not part of this model. Their answers are inputs: oracle fields of `Sandbox.Sandbox`, message lists and result-file lists.
- Sandbox path normalisation, validation and virtualisation are total functions. Their own behaviour is not modelled.
- Logging, the CLI's console output and colours, the spinner's animation and the Rich/Markdown rendering are left out. The streaming state records what it prints as a list of events.
- The `async` and thread hand-off structure (`asyncio.to_thread`, `await`) is not modelled: each call is one step.
- Bash.TimeoutSeconds: the float division `timeout / 1000` is an exact `real`; rounding is not modelled.
- Grep.Grep: the sandbox's answer is assumed to have the shape the output mode asks for; a mismatching answer, which raises in the source, is not modelled.
- FileOps.Utf8Length: lone surrogates, which Python refuses to encode, are not modelled.
- Agent.ParseAgentResult: a tool message without a `content` attribute is modelled through its `str()` text; an AI message without content is not modelled.
- Agent.ExecuteTask: `duration`, `files_modified` and `code_hash` always hold their constants and are not modelled. The system prompt, the backend and the checkpoint saver are left out, as is `agent.md`, which is not part of this model.
- Persistence.LoadDecision: a file holding JSON that is not an object raises `AttributeError`/`TypeError`, which is not caught in the source; it is not modelled. Keys other than the four known ones are not kept.
- Persistence.LoadDecision: times are whole seconds in UTC. Naive timestamps are read as UTC, as in the source. Sub-second ages are not modelled.
- Persistence.SessionConfigHash: SHA-256 and the JSON serialisation are one given digest function of the canonical data.
- Persistence.HashIgnoresServerOrder: proved only for servers with distinct names. With a repeated name Python's stable `sorted` keeps those servers in input order, so the hash can depend on it. Ordering.SortBy states that its result is sorted and a permutation, not that it is stable.
- Lifecycle.CreateSessionSandbox: whether `session.initialize()` reconnects, and the id of a fresh sandbox, are inputs. A failing fresh `initialize()`, which raises out of the function, is not modelled.
- Lifecycle.CreateSessionSandbox: with an explicit sandbox id and persistence on, the source refreshes whatever record the agent has rather than recording the explicit id. The model does the same.
- CliState.SessionState.ResetThread: the random UUID is given by the caller.
- Prompt.Toolbar: the source reads the clock separately for each hint. The model reads it once per toolbar call.
- Prompt.Enter: the effect of applying a completion on the buffer text, `complete_next`'s movement, Alt+Enter, Ctrl+E and backspace bindings are not modelled.
- SlashCommands.PromptModelSelection: the numeric-input fallback without a raw terminal, the terminal's raw mode and the redraw are not modelled.
- `/view`, `/copy` and `/download`: their handlers are left out; they need the clipboard, local files, image viewers and the sandbox's bytes. Only their routing and argument splitting are modelled. The same holds for `/help`, `/tokens` and the sandbox clean-up of `/clear`.
- SlashCommands.Basename and Text.Lower: `Path.name` is modelled for `/`-separated paths. Lowering and stripping are modelled for ASCII letters and ASCII whitespace.
- SlashCommands.RenderTree: the nested dicts that `setdefault` shares are modelled as a tree value rebuilt on each insertion. Aliasing is not modelled.
- Rendering.FormatToolDisplay: the length limits are CLI constants that are not part of this model, so they are parameters. Python's `repr` is a parameter too.
- AgentConfiguration.ValidateApiKeys: raises the corrected message, one bullet per missing variable (see Findings). The source's own message is AgentConfiguration.AsWrittenCredentialsMessage; the two agree when one variable is missing (PtcConfig.SingleCredentialMessagesAgree) and differ when both are (AgentConfiguration.AsWrittenDiffersForTwoKeys).
- ConfigLoader.AsSection: a section value inside the document (`daytona`, `security`, `mcp`, `logging`, `filesystem`) that is not a mapping is rejected with `TypeError`. In the source `validate_section_fields` first applies `in` to it, so a list or string section can fail with the missing-fields `ValueError` or later with `AttributeError`; these error kinds are not distinguished. The top-level document and `llms.json` are modelled with Python's `in` and `[]` (ConfigLoader.TopLevelSections, AgentConfiguration.LoadCatalog).
- Rendering.FormatToolMessageContent: a dict block's `text` is a string or absent (Rendering.Block). A present non-string `text`, on which the source's `"\n".join` raises `TypeError` (rendering.py:81-84), cannot be expressed.
- AgentConfiguration.LlmName: a mapping whose `name` is not a string (`llm: {name: 5}`) is rejected as a field of the wrong type. The source passes the value on and raises the "LLM '5' not found" `ValueError` in the catalog lookup.
- AgentConfiguration.Load: pydantic's coercion of YAML values (for example an integer given as a string, or an integral float such as `3.0` for an integer field) is not modelled: a field of the wrong type is rejected.
- ConfigLoader.Value: a YAML or JSON floating-point number is an exact `real`; IEEE rounding, `inf` and `nan` are not modelled.
- AgentConfiguration.GetLlmClient: importing the SDK module and looking up its class are not modelled. The result names the module, the class and the keyword arguments.
- `.env` loading and the default file locations are not modelled: the environment is a map and files are given by their state.

## Findings

| source | as written | input that shows it | evidently intended | confidence | as-written member | corrected member |
|---|---|---|---|---|---|---|
| src/agent/config.py:280-285 | the missing variables are joined with a bare newline after a single `"  - "`, so only the first gets the bullet | `DAYTONA_API_KEY` and `ANTHROPIC_API_KEY` both unset: the third line of the message is `ANTHROPIC_API_KEY` without `"  - "` | one `"  - "` line per missing variable | not executed | AgentConfiguration.AsWrittenDiffersForTwoKeys | AgentConfiguration.CredentialsMessageLines |

`AgentConfiguration.ValidateApiKeys` reports the corrected message. In `src/ptc_core/config.py:246-251` at most one variable can be missing, and there the two messages coincide (`PtcConfig.SingleCredentialMessagesAgree`).

=== FILE: agent.dfy ===
/** The agent and its executor (`src/agent/agent.py`): the tools and sub-agents an agent is
    built with, the servers its tool summary covers, the recursion limit of a run, and how
    the messages a run returns become an execution result. The language model, the agent
    framework and the sandbox's file listing are not part of this model; what they return
    is given as input. */
module Agent {
  import opened Text
  import opened PtcConfig
  import Formatter
  import Subagents

  // ---------------------------------------------------------------------------
  // PTCAgent

  /** `{s.name: s for s in servers if s.enabled}`: the enabled servers by name; of two
      enabled servers with one name, the later one is kept. */
  function ServerConfigsOf(servers: seq<MCPServerConfig>): (m: Formatter.ServerConfigs)
    ensures forall name :: name in m ==> m[name].enabled && m[name].name == name
    ensures forall k :: 0 <= k < |servers| && servers[k].enabled ==> servers[k].name in m
    ensures forall name :: name in m ==> exists k :: 0 <= k < |servers| && servers[k] == m[name]
    ensures forall k :: 0 <= k < |servers| && servers[k].enabled && LastEnabledNamed(servers, k) ==>
              m[servers[k].name] == servers[k]
  {
    if servers == [] then map[]
    else
      var init := servers[..|servers| - 1];
      var last := servers[|servers| - 1];
      var m := ServerConfigsOf(init);
      assert forall k :: 0 <= k < |init| ==> init[k] == servers[k];
      assert forall k :: 0 <= k < |init| && LastEnabledNamed(servers, k) ==> LastEnabledNamed(init, k);
      if last.enabled then m[last.name := last] else m
  }

  /** No enabled server after position `k` has the name of `servers[k]`. */
  predicate LastEnabledNamed(servers: seq<MCPServerConfig>, k: int)
    requires 0 <= k < |servers|
  {
    forall j :: k < j < |servers| && servers[j].enabled ==> servers[j].name != servers[k].name
  }

  /** A disabled server never reaches the formatter, unless an enabled one has its name. */
  lemma DisabledServerLeftOut(servers: seq<MCPServerConfig>, name: string)
    requires forall k :: 0 <= k < |servers| && servers[k].name == name ==> !servers[k].enabled
    ensures name !in ServerConfigsOf(servers)
  {
  }

  /** The tool summary the agent's prompt carries (`_get_tool_summary`). */
  function ToolSummary(toolsByServer: Formatter.ToolsByServer, mcp: MCPConfig): (r: string)
    ensures toolsByServer == [] ==> r == Formatter.NoServersMessage
    ensures (forall k :: 0 <= k < |mcp.servers| ==> !mcp.servers[k].enabled) ==>
      r == Formatter.FormatToolSummary(toolsByServer, mcp.toolExposureMode.Name(), map[])
    ensures (exists k :: 0 <= k < |mcp.servers| && mcp.servers[k].enabled) ==>
      r == Formatter.FormatPerServer(toolsByServer, ServerConfigsOf(mcp.servers), mcp.toolExposureMode.Name())
  {
    Formatter.FormatToolSummary(toolsByServer, mcp.toolExposureMode.Name(), ServerConfigsOf(mcp.servers))
  }

  /** With no server enabled, the global exposure mode alone decides the listing. */
  lemma NoEnabledServerUsesGlobalMode(toolsByServer: Formatter.ToolsByServer, mcp: MCPConfig)
    requires forall k :: 0 <= k < |mcp.servers| ==> !mcp.servers[k].enabled
    ensures mcp.toolExposureMode == Detailed ==>
      ToolSummary(toolsByServer, mcp) == Formatter.FormatDetailed(toolsByServer, map[])
    ensures mcp.toolExposureMode == Summary ==>
      ToolSummary(toolsByServer, mcp) == Formatter.FormatBrief(toolsByServer, map[])
  {
    Formatter.GlobalModeDispatch(toolsByServer, mcp.toolExposureMode.Name());
  }

  /** The tools an agent is given. */
  datatype Tool = ExecuteCode | BashTool | ReadFileTool | WriteFileTool | EditFileTool | GlobTool | GrepTool

  const BaseTools: seq<Tool> := [ExecuteCode, BashTool]
  const FilesystemTools: seq<Tool> := [ReadFileTool, WriteFileTool, EditFileTool, GlobTool, GrepTool]

  /** The `tools` list of `create_agent`: the two base tools, extended with the five
      filesystem and search tools when the configuration asks for the custom ones. */
  method CreateTools(useCustomFilesystemTools: bool) returns (tools: seq<Tool>)
    ensures |tools| == if useCustomFilesystemTools then 7 else 2
    ensures tools[..2] == BaseTools
    ensures useCustomFilesystemTools ==> tools[2..] == FilesystemTools
    ensures GrepTool in tools <==> useCustomFilesystemTools
  {
    tools := BaseTools;
    if useCustomFilesystemTools {
      tools := tools + FilesystemTools;
    }
  }

  /** The sub-agent names `create_agent` uses: "research" alone when none are given. */
  function SubagentNames(names: Option<seq<string>>): (r: seq<string>)
    ensures names.None? ==> r == ["research"]
    ensures names.Some? ==> r == names.value
  {
    names.GetOr(["research"])
  }

  /** A sub-agent of the agent: one created from the registry, or one of the additional
      configurations passed in, identified by name. */
  datatype SubagentEntry = Created(creation: Subagents.Creation<int>) | Additional(name: string)

  /** `subagents.extend(additional_subagents)`: the created sub-agents in order, then the
      additional ones in order. */
  function SubagentEntries(created: seq<Subagents.Creation<int>>, additional: seq<string>): (e: seq<SubagentEntry>)
    ensures |e| == |created| + |additional|
    ensures forall k :: 0 <= k < |created| ==> e[k] == Created(created[k])
    ensures forall k :: 0 <= k < |additional| ==> e[|created| + k] == Additional(additional[k])
  {
    seq(|created|, k requires 0 <= k < |created| => Created(created[k]))
    + seq(|additional|, k requires 0 <= k < |additional| => Additional(additional[k]))
  }

  /** The sub-agents of `create_agent`: the named ones, created with the two iteration limits
      offered to every one of them, then the additional ones; `None` when there are none. */
  function AgentSubagents(names: Option<seq<string>>, hasSandbox: bool, hasRegistry: bool,
                          maxTaskIterations: int, maxGeneralIterations: int,
                          additional: seq<string>): (r: Result<Option<seq<SubagentEntry>>, string>)
    ensures var created := Subagents.CreateSubagentsFromNames(SubagentNames(names), hasSandbox, hasRegistry,
                             [("max_researcher_iterations", maxTaskIterations), ("max_iterations", maxGeneralIterations)]);
      && (created.Err? ==> r == Err(created.error))
      && (created.Ok? ==> r.Ok? && (r.value.None? <==> created.value == [] && additional == []))
      && (created.Ok? && r.value.Some? ==> r.value.value == SubagentEntries(created.value, additional))
  {
    var kwargs := [("max_researcher_iterations", maxTaskIterations), ("max_iterations", maxGeneralIterations)];
    match Subagents.CreateSubagentsFromNames(SubagentNames(names), hasSandbox, hasRegistry, kwargs)
    case Err(e) => Err(e)
    case Ok(created) =>
      var entries := SubagentEntries(created, additional);
      if entries == [] then Ok(None) else Ok(Some(entries))
  }

  /** By default the agent has exactly one sub-agent, "research", created without the sandbox
      and given only the research iteration limit. */
  lemma DefaultSubagentIsResearch(hasSandbox: bool, hasRegistry: bool, maxTaskIterations: int,
                                  maxGeneralIterations: int)
    ensures AgentSubagents(None, hasSandbox, hasRegistry, maxTaskIterations, maxGeneralIterations, [])
      == Ok(Some([Created(Subagents.Creation("research", false, [("max_researcher_iterations", maxTaskIterations)]))]))
  {
    var kwargs := [("max_researcher_iterations", maxTaskIterations), ("max_iterations", maxGeneralIterations)];
    var filtered := Subagents.FilterKwargs(kwargs, Subagents.Accepted("research"));
    assert filtered == [("max_researcher_iterations", maxTaskIterations)] by {
      assert kwargs[1..][1..] == [];
      assert Subagents.FilterKwargs(kwargs[1..], Subagents.Accepted("research")) == [];
    }
    var research := Subagents.Creation("research", false, filtered);
    assert Subagents.CreateSubagentByName("research", hasSandbox, hasRegistry, kwargs) == Ok(research);
    assert ["research"][1..] == [];
    var created := Subagents.CreateSubagentsFromNames(["research"], hasSandbox, hasRegistry, kwargs);
    assert ["research"][0] == "research";
    assert created.Ok? && |created.value| == 1 && created.value[0] == research;
    assert created.value == [research];
    var none: seq<string> := [];
    var entries := seq(1, k requires 0 <= k < 1 => Created([research][k])) + seq(|none|, k requires 0 <= k < |none| => Additional(none[k]));
    assert entries == [Created(research)];
  }

  // ---------------------------------------------------------------------------
  // PTCExecutor

  /** `max(max_retries * 5, 15)`. */
  function RecursionLimit(maxRetries: int): (r: int)
    ensures r >= 15 && r >= maxRetries * 5
    ensures r == 15 || r == maxRetries * 5
  {
    if maxRetries * 5 > 15 then maxRetries * 5 else 15
  }

  /** A message of the run: its "type" (`None` when it has none), its content (`None` when
      it has none) and the text `str()` gives for it. */
  datatype Message = Message(kind: Option<string>, content: Option<string>, shown: string)

  /** The fields of `ExecutionResult` that the executor sets from the run; the duration,
      the modified files and the code hash are always zero or empty. */
  datatype ExecutionResult = ExecutionResult(success: bool, stdout: string, stderr: string,
                                             filesCreated: seq<string>, executionId: string)

  /** The messages of one type, in order. */
  function OfKind(messages: seq<Message>, kind: string): (r: seq<Message>)
    ensures |r| <= |messages|
    ensures forall k :: 0 <= k < |r| ==> r[k].kind == Some(kind)
    ensures r == [] <==> forall k :: 0 <= k < |messages| ==> messages[k].kind != Some(kind)
  {
    if messages == [] then []
    else
      var rest := OfKind(messages[1..], kind);
      assert forall k :: 1 <= k < |messages| ==> messages[k] == messages[1..][k - 1];
      if messages[0].kind == Some(kind) then [messages[0]] + rest else rest
  }

  lemma {:induction false} OfKindAppend(messages: seq<Message>, m: Message, kind: string)
    ensures OfKind(messages + [m], kind) == OfKind(messages, kind) + (if m.kind == Some(kind) then [m] else [])
    decreases |messages|
  {
    if messages == [] {
      assert messages + [m] == [m];
    } else {
      assert (messages + [m])[0] == messages[0] && (messages + [m])[1..] == messages[1..] + [m];
      OfKindAppend(messages[1..], m, kind);
    }
  }

  /** What a tool message says: its content, or `str()` of it when it has none. */
  function Observation(m: Message): (r: string)
    ensures m.content.Some? ==> r == m.content.value
    ensures m.content.None? ==> r == m.shown
  {
    m.content.GetOr(m.shown)
  }

  /** An observation reports success when it says "SUCCESS", or when it does not say
      "ERROR". */
  function Succeeded(observation: string): (b: bool)
    ensures Contains(observation, "SUCCESS") ==> b
    ensures !Contains(observation, "ERROR") ==> b
    ensures StartsWith(observation, "ERROR") && !Contains(observation, "SUCCESS") ==> !b
  {
    if StartsWith(observation, "ERROR") then
      ContainsOfPrefix(observation, "ERROR");
      Contains(observation, "SUCCESS") || !Contains(observation, "ERROR")
    else Contains(observation, "SUCCESS") || !Contains(observation, "ERROR")
  }

  /** `[f for f in files if f]`. */
  function NonEmpty(files: seq<string>): (r: seq<string>)
    ensures forall f :: f in r <==> f in files && f != ""
    ensures |r| <= |files|
  {
    if files == [] then []
    else
      var rest := NonEmpty(files[1..]);
      assert forall f :: f in files <==> f == files[0] || f in files[1..];
      if files[0] != "" then [files[0]] + rest else rest
  }

  /** Every non-empty name is kept as often as it occurs; only the empty ones go. */
  lemma {:induction false} NonEmptyCounts(files: seq<string>)
    ensures forall f :: f != "" ==> multiset(NonEmpty(files))[f] == multiset(files)[f]
    ensures |NonEmpty(files)| == |files| - multiset(files)[""]
  {
    if files != [] {
      var head := if files[0] != "" then [files[0]] else [];
      assert files == [files[0]] + files[1..];
      NonEmptyCons(files[0], files[1..]);
      NonEmptyCounts(files[1..]);
      assert multiset(files) == multiset{files[0]} + multiset(files[1..]);
      assert multiset(NonEmpty(files)) == multiset(head) + multiset(NonEmpty(files[1..]));
    }
  }

  /** Filtering keeps the order: the kept names of `a + b` are those of `a`, then of `b`. */
  lemma {:induction false} NonEmptyAppend(a: seq<string>, b: seq<string>)
    ensures NonEmpty(a + b) == NonEmpty(a) + NonEmpty(b)
    decreases |a|
  {
    if a != [] {
      assert a + b == [a[0]] + (a[1..] + b);
      assert a == [a[0]] + a[1..];
      NonEmptyCons(a[0], a[1..] + b);
      NonEmptyCons(a[0], a[1..]);
      NonEmptyAppend(a[1..], b);
    } else {
      assert a + b == b;
    }
  }

  lemma NonEmptyCons(f: string, rest: seq<string>)
    ensures NonEmpty([f] + rest) == (if f != "" then [f] else []) + NonEmpty(rest)
  {
    assert ([f] + rest)[1..] == rest;
  }

  /** The non-empty paths of the result files, or none when the sandbox cannot list them. */
  function CreatedFiles(resultFiles: Option<seq<string>>): (r: seq<string>)
    ensures resultFiles.None? ==> r == []
    ensures resultFiles.Some? ==> forall f :: f in r <==> f in resultFiles.value && f != ""
    ensures resultFiles.Some? ==> |r| == |resultFiles.value| - multiset(resultFiles.value)[""]
  {
    if resultFiles.None? then []
    else NonEmptyCounts(resultFiles.value); NonEmpty(resultFiles.value)
  }

  /** The result of a run whose last tool message said `observation`, after `steps` tool
      calls: a success keeps the observation without its "SUCCESS" markers as its output, a
      failure the observation without its "ERROR" markers as its error. */
  function StepResult(observation: string, steps: nat, files: seq<string>): (r: ExecutionResult)
    ensures r.success == Succeeded(observation)
    ensures r.success ==> r.stdout == Strip(RemoveAll(observation, "SUCCESS")) && r.stderr == ""
    ensures !r.success ==> r.stdout == "" && r.stderr == Strip(RemoveAll(observation, "ERROR"))
    ensures r.filesCreated == files && r.executionId == "agent_step_" + NatToString(steps)
  {
    var success := Succeeded(observation);
    ExecutionResult(success,
                    if success then Strip(RemoveAll(observation, "SUCCESS")) else "",
                    if success then "" else Strip(RemoveAll(observation, "ERROR")),
                    files,
                    "agent_step_" + NatToString(steps))
  }

  /** `_parse_agent_result`. */
  function ParseAgentResult(messages: seq<Message>, resultFiles: Option<seq<string>>): (r: ExecutionResult)
    ensures messages == [] ==> !r.success && r.stderr == "Agent returned no messages" && r.executionId == "no_messages"
    ensures messages != [] && OfKind(messages, "tool") == [] ==>
      && r.success && r.stderr == "" && r.executionId == "no_tool_calls"
      && var ai := OfKind(messages, "ai");
      r.stdout == if ai == [] then "No execution" else Observation(ai[|ai| - 1])
    ensures OfKind(messages, "tool") != [] ==>
      var tools := OfKind(messages, "tool");
      var observation := Observation(tools[|tools| - 1]);
      && r.success == Succeeded(observation)
      && (r.success ==> r.stdout == Strip(RemoveAll(observation, "SUCCESS")) && r.stderr == "")
      && (!r.success ==> r.stdout == "" && r.stderr == Strip(RemoveAll(observation, "ERROR")))
      && r.executionId == "agent_step_" + NatToString(|tools|)
      && r.filesCreated == CreatedFiles(resultFiles)
  {
    if messages == [] then ExecutionResult(false, "", "Agent returned no messages", [], "no_messages")
    else
      var tools := OfKind(messages, "tool");
      var r := KindsResult(tools, OfKind(messages, "ai"), resultFiles);
      assert tools != [] ==> r == StepResult(Observation(tools[|tools| - 1]), |tools|, CreatedFiles(resultFiles));
      r
  }

  /** The result of a run whose tool messages are `tools` and whose AI messages are `ai`:
      without tool calls, the last AI message is the output; otherwise the last tool
      message alone decides. */
  function KindsResult(tools: seq<Message>, ai: seq<Message>, resultFiles: Option<seq<string>>): (r: ExecutionResult)
    ensures tools == [] ==>
      && r.success && r.stderr == "" && r.executionId == "no_tool_calls"
      && r.stdout == if ai == [] then "No execution" else Observation(ai[|ai| - 1])
    ensures tools != [] ==> r == StepResult(Observation(tools[|tools| - 1]), |tools|, CreatedFiles(resultFiles))
  {
    if tools == [] then
      ExecutionResult(true, if ai == [] then "No execution" else Observation(ai[|ai| - 1]), "", [], "no_tool_calls")
    else
      StepResult(Observation(tools[|tools| - 1]), |tools|, CreatedFiles(resultFiles))
  }

  /** Only the last tool message decides the outcome: messages of other types that come
      after it change nothing. */
  lemma LaterNonToolMessagesIgnored(messages: seq<Message>, m: Message, resultFiles: Option<seq<string>>)
    requires OfKind(messages, "tool") != [] && m.kind != Some("tool")
    ensures ParseAgentResult(messages + [m], resultFiles) == ParseAgentResult(messages, resultFiles)
  {
    var tools := OfKind(messages, "tool");
    var step := StepResult(Observation(tools[|tools| - 1]), |tools|, CreatedFiles(resultFiles));
    OfKindAppend(messages, m, "tool");
    assert OfKind(messages + [m], "tool") == tools;
    assert ParseAgentResult(messages + [m], resultFiles) == step;
    assert ParseAgentResult(messages, resultFiles) == step;
  }

  /** An observation that starts with "ERROR", as every failing tool's output does, and does
      not say "SUCCESS" is a failure. */
  lemma ErrorOutputFails(observation: string)
    requires StartsWith(observation, "ERROR") && !Contains(observation, "SUCCESS")
    ensures !Succeeded(observation)
  {
    ContainsOfPrefix(observation, "ERROR");
  }

  /** An observation with neither marker is a success whose output is the observation,
      trimmed. */
  lemma UnmarkedOutputSucceeds(observation: string)
    requires !Contains(observation, "SUCCESS") && !Contains(observation, "ERROR")
    ensures Succeeded(observation)
    ensures Strip(RemoveAll(observation, "SUCCESS")) == Strip(observation)
  {
    RemoveAbsent(observation, "SUCCESS");
  }

  /** `execute_task` after the agent is built: the run is invoked with the recursion limit,
      and a run that raises becomes a failed result carrying the error. */
  function ExecuteTask(invoke: int -> Result<seq<Message>, string>, maxRetries: int,
                       resultFiles: Option<seq<string>>): (r: ExecutionResult)
    ensures invoke(RecursionLimit(maxRetries)).Err? ==>
      r == ExecutionResult(false, "", "Agent execution error: " + invoke(RecursionLimit(maxRetries)).error, [], "agent_error")
    ensures invoke(RecursionLimit(maxRetries)).Ok? ==>
      r == ParseAgentResult(invoke(RecursionLimit(maxRetries)).value, resultFiles)
  {
    match invoke(RecursionLimit(maxRetries))
    case Err(e) => ExecutionResult(false, "", "Agent execution error: " + e, [], "agent_error")
    case Ok(messages) => ParseAgentResult(messages, resultFiles)
  }
}

=== FILE: agentconfig.dfy ===
/** Agent configuration (src/agent/config.py): the LLM catalog from llms.json, the
    validate-and-construct steps of `AgentConfig.load`, the credential check, the keyword
    arguments handed to the LLM client class, and the conversion to the core config. */
module AgentConfiguration {
  import opened Text
  import opened ConfigLoader
  import opened PtcConfig

  datatype LLMDefinition = LLMDefinition(
    modelId: string,
    provider: string,
    sdk: string,
    apiKeyEnv: string,
    baseUrl: Option<string>,
    outputVersion: Option<string>,
    usePreviousResponseId: Option<bool>,
    parameters: Entries)

  type Catalog = seq<(string, LLMDefinition)>

  datatype AgentConfig = AgentConfig(
    llmName: string,
    security: SecurityConfig,
    logging: LoggingConfig,
    daytona: DaytonaConfig,
    mcp: MCPConfig,
    filesystem: FilesystemConfig,
    useCustomFilesystemTools: bool,
    llmDefinition: LLMDefinition)

  const AgentSections: seq<string> := ["llm", "daytona", "security", "mcp", "logging", "filesystem"]

  /** The fields an `LLMDefinition` cannot do without. */
  const LlmRequiredFields: seq<string> := ["model_id", "provider", "sdk", "api_key_env"]

  /** `LLMDefinition(**definition)`: four required strings, the rest optional. */
  function LlmDefinitionFrom(v: Value): (r: Result<LLMDefinition, Error>)
    ensures r.Ok? ==> v.Dict? && Get<Value>(v.entries, "sdk") == Some(Str(r.value.sdk))
    ensures r.Ok? ==>
      && Get<Value>(v.entries, "model_id") == Some(Str(r.value.modelId))
      && Get<Value>(v.entries, "provider") == Some(Str(r.value.provider))
      && Get<Value>(v.entries, "api_key_env") == Some(Str(r.value.apiKeyEnv))
    ensures !v.Dict? ==> r.Err? && r.error.TypeError?
    ensures v.Dict? && !HasKey(v.entries, "model_id") ==> r == Err(ValidationError("model_id"))
    ensures v.Dict? && (exists f :: f in LlmRequiredFields && !HasKey(v.entries, f)) ==>
      r.Err? && r.error.ValidationError? && r.error.field in LlmRequiredFields
    ensures r.Ok? && !HasKey(v.entries, "use_previous_response_id") ==>
      r.value.usePreviousResponseId == Some(false)
  {
    if !v.Dict? then Err(TypeError("argument after ** must be a mapping, not " + TypeName(v)))
    else
      var d := v.entries;
      var modelId :- RequiredStr(d, "model_id");
      var provider :- RequiredStr(d, "provider");
      var sdk :- RequiredStr(d, "sdk");
      var apiKeyEnv :- RequiredStr(d, "api_key_env");
      var baseUrl :- OptStrField(d, "base_url");
      var outputVersion :- OptStrField(d, "output_version");
      var previous :- match Get<Value>(d, "use_previous_response_id")
        case None => Ok(Some(false))
        case Some(Null) => Ok(None)
        case Some(Bool(b)) => Ok(Some(b))
        case Some(_) => Err(ValidationError("use_previous_response_id"));
      var parameters :- match Get<Value>(d, "parameters")
        case None => Ok([])
        case Some(Dict(ps)) => Ok(ps)
        case Some(_) => Err(ValidationError("parameters"));
      Ok(LLMDefinition(modelId, provider, sdk, apiKeyEnv, baseUrl, outputVersion, previous,
        parameters))
  }

  /** `{name: LLMDefinition(**d) for name, d in llms.items()}`: each key once, in the order
      the parser first met it, with the last value written for it. */
  function CatalogFrom(es: Entries): (r: Result<Catalog, Error>)
    ensures r.Ok? <==> AllDefined(es, DictKeys(es))
    ensures r.Ok? ==>
      forall k {:trigger Get(r.value, k)} :: Get(r.value, k) == if k in DictKeys(es) then Some(LlmDefinitionFrom(Get(es, k).value).value) else None
    ensures r.Ok? ==> |r.value| == |DictKeys(es)|
    ensures r.Ok? ==> forall i :: 0 <= i < |r.value| ==> r.value[i].0 == DictKeys(es)[i]
    ensures r.Err? ==> exists k :: k in DictKeys(es) && LlmDefinitionFrom(Get(es, k).value) == Err(r.error)
  {
    DefinitionsInOrder(es, DictKeys(es));
    DefinitionsOf(es, DictKeys(es))
  }

  /** Every key in `ks` names an entry of `es` holding a valid definition. */
  predicate AllDefined(es: Entries, ks: seq<string>) {
    forall k :: k in ks ==> HasKey(es, k) && LlmDefinitionFrom(Get(es, k).value).Ok?
  }

  /** The definitions of the keys `ks` of `es`, built in the order of `ks`. */
  function DefinitionsOf(es: Entries, ks: seq<string>): (r: Result<Catalog, Error>)
    requires forall k :: k in ks ==> HasKey(es, k)
    ensures r.Ok? <==> AllDefined(es, ks)
    ensures r.Ok? ==>
      forall k {:trigger Get(r.value, k)} :: Get(r.value, k) == if k in ks then Some(LlmDefinitionFrom(Get(es, k).value).value) else None
    ensures r.Err? ==> exists k :: k in ks && LlmDefinitionFrom(Get(es, k).value) == Err(r.error)
  {
    if ks == [] then Ok([])
    else
      var init := ks[..|ks| - 1];
      var last := ks[|ks| - 1];
      assert forall k :: k in ks <==> k in init || k == last;
      var defs :- DefinitionsOf(es, init);
      var def :- LlmDefinitionFrom(Get(es, last).value);
      var r := defs + [(last, def)];
      assert r[..|r| - 1] == defs;
      Ok(r)
  }

  /** The catalog lists the keys in the order of `ks`. */
  lemma {:induction false} DefinitionsInOrder(es: Entries, ks: seq<string>)
    requires forall k :: k in ks ==> HasKey(es, k)
    ensures DefinitionsOf(es, ks).Ok? ==>
      var c := DefinitionsOf(es, ks).value;
      |c| == |ks| && forall i :: 0 <= i < |ks| ==> c[i].0 == ks[i]
  {
    if ks != [] && DefinitionsOf(es, ks).Ok? {
      var init, last := ks[..|ks| - 1], ks[|ks| - 1];
      assert ks == init + [last];
      assert forall k :: k in init ==> k in ks;
      DefinitionsInOrder(es, init);
      var defs := DefinitionsOf(es, init);
      var def := LlmDefinitionFrom(Get(es, last).value);
      assert defs.Ok? && def.Ok?;
      var c := defs.value + [(last, def.value)];
      assert DefinitionsOf(es, ks) == Ok(c);
      NamesSnoc(defs.value, init, last, def.value);
    }
  }

  lemma NamesSnoc(defs: Catalog, names: seq<string>, name: string, def: LLMDefinition)
    requires |defs| == |names| && forall i :: 0 <= i < |names| ==> defs[i].0 == names[i]
    ensures var c, ns := defs + [(name, def)], names + [name];
      |c| == |ns| && forall i :: 0 <= i < |ns| ==> c[i].0 == ns[i]
  { }

  /** The `llm` section is either the name itself or a mapping with a `name` field. */
  function LlmName(v: Value): (r: Result<string, Error>)
    ensures v.Str? ==> r == Ok(v.s)
    ensures r.Ok? ==> v == Str(r.value) || (v.Dict? && Get<Value>(v.entries, "name") == Some(Str(r.value)))
    ensures !v.Str? && !(v.Dict? && HasKey(v.entries, "name")) ==>
      r == Err(ValueError("llm section must be either a string (LLM name) or dict with 'name' field"))
  {
    if v.Str? then Ok(v.s)
    else if v.Dict? && HasKey(v.entries, "name") then StrField(v.entries, "name")
    else Err(ValueError("llm section must be either a string (LLM name) or dict with 'name' field"))
  }

  function NotFoundMessage(name: string, catalog: Catalog): string {
    "LLM '" + name + "' not found in llms.json.\nAvailable LLMs: " + Join(DictKeys(catalog), ", ")
  }

  /** Catalog lookup: a name that is not a catalog key is rejected with the list of names. */
  function ResolveLlm(catalog: Catalog, name: string): (r: Result<LLMDefinition, Error>)
    ensures r.Ok? <==> HasKey(catalog, name)
    ensures r.Ok? ==> Get(catalog, name) == Some(r.value)
    ensures r.Err? ==> r.error == ValueError(NotFoundMessage(name, catalog))
  {
    match Get(catalog, name)
    case None => Err(ValueError(NotFoundMessage(name, catalog)))
    case Some(def) => Ok(def)
  }

  /** `config_data.get("agent", {}).get("use_custom_filesystem_tools", True)`. */
  function CustomToolsFlag(top: Entries): (r: Result<bool, Error>)
    ensures !HasKey(top, "agent") ==> r == Ok(true)
  {
    match Get<Value>(top, "agent")
    case None => Ok(true)
    case Some(Dict(es)) => BoolFieldOr(es, "use_custom_filesystem_tools", true)
    case Some(_) => Err(AttributeError("agent section has no 'get'"))
  }

  const LlmsKeyMessage: string := "llms.json must have 'llms' key containing LLM definitions."

  /** The llms.json steps of `AgentConfig.load`: the `"llms" not in llms_data` test runs on
      whatever the JSON parser returned, and `.items()` on whatever `llms` holds. */
  function LoadCatalog(llmsPath: string, llmsFile: FileState): (r: Result<Catalog, Error>)
    ensures llmsFile.Absent? ==> r.Err? && r.error.FileNotFoundError?
    ensures llmsFile.Parsed? && PyIn("llms", llmsFile.doc) == Ok(false) ==> r == Err(ValueError(LlmsKeyMessage))
    ensures llmsFile.Parsed? && NotIterable(llmsFile.doc) ==> r.Err? && r.error.TypeError?
    ensures llmsFile.Parsed? && PyIn("llms", llmsFile.doc) == Ok(true) && !llmsFile.doc.Dict? ==>
      r.Err? && r.error.TypeError?
    ensures llmsFile.Parsed? && llmsFile.doc.Dict? && HasKey(llmsFile.doc.entries, "llms") &&
              !Get(llmsFile.doc.entries, "llms").value.Dict? ==>
              r.Err? && r.error.AttributeError?
    ensures r.Ok? ==>
              && llmsFile.Parsed? && llmsFile.doc.Dict?
              && Get(llmsFile.doc.entries, "llms").Some? && Get(llmsFile.doc.entries, "llms").value.Dict?
              && CatalogFrom(Get(llmsFile.doc.entries, "llms").value.entries) == r
  {
    match llmsFile
    case Absent =>
      Err(FileNotFoundError("LLM catalog not found: " + llmsPath
        + "\nPlease create llms.json with LLM definitions."))
    case Malformed(reason) => Err(ValueError("Failed to parse llms.json: " + reason))
    case Parsed(doc) =>
      var present :- PyIn("llms", doc);
      if !present then Err(ValueError(LlmsKeyMessage))
      else
        var llms :- Subscript(doc, "llms");
        if !llms.Dict? then Err(AttributeError("'" + TypeName(llms) + "' object has no attribute 'items'"))
        else CatalogFrom(llms.entries)
  }

  /** `AgentConfig.load`: catalog first, then config.yaml, the LLM name, and the same
      sections the core configuration reads. */
  function Load(configPath: string, configFile: FileState, llmsPath: string, llmsFile: FileState,
                env: map<string, string>): (r: Result<AgentConfig, Error>)
    ensures r.Ok? ==> configFile.Parsed? && configFile.doc.Dict?
    ensures r.Ok? ==> forall s :: s in AgentSections ==> HasKey(configFile.doc.entries, s)
    ensures r.Ok? ==> LoadCatalog(llmsPath, llmsFile).Ok?
    ensures r.Ok? ==> Get(LoadCatalog(llmsPath, llmsFile).value, r.value.llmName) == Some(r.value.llmDefinition)
    ensures r.Ok? ==>
              && Get<Value>(configFile.doc.entries, "llm").Some?
              && LlmName(Get<Value>(configFile.doc.entries, "llm").value) == Ok(r.value.llmName)
    ensures r.Ok? && !HasKey(configFile.doc.entries, "agent") ==> r.value.useCustomFilesystemTools
  {
    var catalog :- LoadCatalog(llmsPath, llmsFile);
    var doc :- LoadYamlFile(configPath, configFile);
    var top :- TopLevelSections(doc, AgentSections, "config.yaml");
    assert "llm" in AgentSections;
    var name :- LlmName(Get(top, "llm").value);
    var def :- ResolveLlm(catalog, name);
    var core :- LoadSections(top, env);
    var tools :- CustomToolsFlag(top);
    Ok(AgentConfig(name, core.security, core.logging, core.daytona, core.mcp, core.filesystem,
      tools, def))
  }

  /** The sections after `llm` are read exactly as the core configuration reads them: the
      filesystem check differs only in how it is written. */
  lemma SectionsReadAsCore(d: Entries)
    ensures ValidateSectionFields(d, FilesystemRequiredFields, "filesystem") == CheckFilesystemFields(d)
  {
    FilesystemCheckAgrees(d);
  }

  // ---------------------------------------------------------------------------
  // validate_api_keys

  /** The variables `validate_api_keys` reports missing, Daytona's first. */
  function MissingCredentials(c: AgentConfig, env: map<string, string>): (m: seq<string>)
    ensures m == [] <==> c.daytona.apiKey != "" && EnvOr(env, c.llmDefinition.apiKeyEnv, "") != ""
    ensures c.daytona.apiKey == "" ==> m[0] == "DAYTONA_API_KEY"
    ensures EnvOr(env, c.llmDefinition.apiKeyEnv, "") == "" ==> m[|m| - 1] == c.llmDefinition.apiKeyEnv
    ensures |m| <= 2
  {
    (if c.daytona.apiKey == "" then ["DAYTONA_API_KEY"] else [])
    + (if EnvOr(env, c.llmDefinition.apiKeyEnv, "") == "" then [c.llmDefinition.apiKeyEnv] else [])
  }

  /** `AgentConfig.validate_api_keys`, raising the corrected message (one bullet per
      missing variable). */
  method ValidateApiKeys(c: AgentConfig, env: map<string, string>) returns (r: Result<(), Error>)
    ensures r.Ok? <==> c.daytona.apiKey != "" && EnvOr(env, c.llmDefinition.apiKeyEnv, "") != ""
    ensures r.Err? ==> r.error == ValueError(CredentialsMessage(MissingCredentials(c, env)))
  {
    var missing: seq<string> := [];
    if c.daytona.apiKey == "" {
      missing := missing + ["DAYTONA_API_KEY"];
    }
    var apiKey := EnvOr(env, c.llmDefinition.apiKeyEnv, "");
    if apiKey == "" {
      missing := missing + [c.llmDefinition.apiKeyEnv];
    }
    assert missing == MissingCredentials(c, env);
    if missing != [] {
      return Err(ValueError(CredentialsMessage(missing)));
    }
    return Ok(());
  }

  lemma JoinThree(a: string, b: string, c: string, sep: string)
    ensures Join([a, b, c], sep) == a + sep + b + sep + c
    ensures Join([a, b], sep) == a + sep + b
  {
    assert [a, b, c][1..] == [b, c];
    assert [b, c][1..] == [c];
    assert [a, b][1..] == [b];
  }

  lemma JoinFour(a: string, b: string, c: string, d: string, sep: string)
    ensures Join([a, b, c, d], sep) == a + sep + b + sep + c + sep + d
  {
    assert [a, b, c, d][1..] == [b, c, d];
    JoinThree(b, c, d, sep);
  }

  lemma FixedTextHasNoNewline()
    ensures '\n' !in CredentialsHeader && '\n' !in CredentialsFooter && '\n' !in Bullet
  {
    HeaderHasNoNewline();
    FooterHasNoNewline();
    BulletHasNoNewline();
  }

  /** The corrected message has one line per missing variable, each behind the bullet. */
  lemma {:induction false} CredentialsMessageLines(missing: seq<string>)
    requires forall k :: 0 <= k < |missing| ==> '\n' !in missing[k]
    ensures Split(CredentialsMessage(missing), '\n')
      == [CredentialsHeader] + Bulleted(missing) + [CredentialsFooter]
  {
    var parts := [CredentialsHeader] + Bulleted(missing) + [CredentialsFooter];
    forall k | 0 <= k < |parts|
      ensures '\n' !in parts[k]
    {
      FixedTextHasNoNewline();
      if 0 < k < |parts| - 1 {
        assert parts[k] == Bullet + missing[k - 1];
      }
    }
    SplitJoin(parts, '\n');
  }

  /** Joining around a part that itself holds a joined pair is the same as joining the
      pair's halves as separate parts. */
  lemma {:induction false} NestedJoinLines(h: string, b: string, first: string, second: string, f: string)
    requires '\n' !in h && '\n' !in b && '\n' !in first && '\n' !in second && '\n' !in f
    ensures Split(Join([h, b + Join([first, second], "\n"), f], "\n"), '\n') == [h, b + first, second, f]
  {
    var nl := "\n";
    JoinThree(first, second, "", nl);
    JoinThree(h, b + (first + nl + second), f, nl);
    JoinFour(h, b + first, second, f, nl);
    assert Join([h, b + Join([first, second], nl), f], nl) == Join([h, b + first, second, f], nl);
    SplitJoin([h, b + first, second, f], '\n');
  }

  /** As written, a second missing variable lands on its own line without the bullet. */
  lemma AsWrittenSecondKeyUnbulleted(first: string, second: string)
    requires '\n' !in first && '\n' !in second
    ensures Split(AsWrittenCredentialsMessage([first, second]), '\n')
      == [CredentialsHeader, Bullet + first, second, CredentialsFooter]
  {
    FixedTextHasNoNewline();
    NestedJoinLines(CredentialsHeader, Bullet, first, second, CredentialsFooter);
  }

  /** Both keys missing (no DAYTONA_API_KEY, and an Anthropic model whose ANTHROPIC_API_KEY
      is unset): the as-written message shows the second name bare where the corrected one
      bullets it. */
  lemma AsWrittenDiffersForTwoKeys(daytonaKey: string, llmKey: string)
    requires daytonaKey == "DAYTONA_API_KEY" && llmKey == "ANTHROPIC_API_KEY"
    ensures Split(AsWrittenCredentialsMessage([daytonaKey, llmKey]), '\n')
      == [CredentialsHeader, Bullet + daytonaKey, llmKey, CredentialsFooter]
    ensures Split(CredentialsMessage([daytonaKey, llmKey]), '\n')
      == [CredentialsHeader, Bullet + daytonaKey, Bullet + llmKey, CredentialsFooter]
    ensures AsWrittenCredentialsMessage([daytonaKey, llmKey]) != CredentialsMessage([daytonaKey, llmKey])
  {
    DaytonaKeyHasNoNewline();
    AnthropicKeyHasNoNewline();
    AsWrittenSecondKeyUnbulleted(daytonaKey, llmKey);
    CredentialsMessageLines([daytonaKey, llmKey]);
    BulletedPair(daytonaKey, llmKey);
    var asWritten := Split(AsWrittenCredentialsMessage([daytonaKey, llmKey]), '\n');
    var corrected := Split(CredentialsMessage([daytonaKey, llmKey]), '\n');
    assert |asWritten[2]| != |corrected[2]|;
  }

  lemma DaytonaKeyHasNoNewline()
    ensures '\n' !in "DAYTONA_API_KEY"
  {
  }

  lemma AnthropicKeyHasNoNewline()
    ensures '\n' !in "ANTHROPIC_API_KEY"
  {
  }

  lemma BulletedPair(a: string, b: string)
    ensures [CredentialsHeader] + Bulleted([a, b]) + [CredentialsFooter]
         == [CredentialsHeader, Bullet + a, Bullet + b, CredentialsFooter]
  {
  }

  // ---------------------------------------------------------------------------
  // get_llm_client

  /** The keyword that carries the API key for each provider. */
  function ApiKeyParam(provider: string): (k: string)
    ensures k in {"anthropic_api_key", "openai_api_key", "api_key"}
    ensures provider == "anthropic" <==> k == "anthropic_api_key"
    ensures provider == "openai" <==> k == "openai_api_key"
  {
    if provider == "anthropic" then "anthropic_api_key"
    else if provider == "openai" then "openai_api_key"
    else "api_key"
  }

  predicate Nonblank(o: Option<string>) {
    o.Some? && o.value != ""
  }

  /** `{"model": model_id, **parameters}`: later entries override earlier ones. */
  function BaseKwargs(def: LLMDefinition): map<string, Value> {
    map["model" := Str(def.modelId)] + ToMap(def.parameters)
  }

  /** `kwargs` once the API key is in. */
  function KeyedKwargs(def: LLMDefinition, apiKey: string): map<string, Value> {
    BaseKwargs(def)[ApiKeyParam(def.provider) := Str(apiKey)]
  }

  /** `kwargs` once `base_url` is in. */
  function UrlKwargs(def: LLMDefinition, apiKey: string): map<string, Value> {
    var m := KeyedKwargs(def, apiKey);
    if Nonblank(def.baseUrl) then m["base_url" := Str(def.baseUrl.value)] else m
  }

  /** `kwargs` once `output_version` is in. */
  function VersionKwargs(def: LLMDefinition, apiKey: string): map<string, Value> {
    var m := UrlKwargs(def, apiKey);
    if Nonblank(def.outputVersion) then m["output_version" := Str(def.outputVersion.value)] else m
  }

  /** The keyword arguments the client class receives. */
  function ClientKwargs(def: LLMDefinition, apiKey: string): (r: map<string, Value>)
    ensures "model" in r && ApiKeyParam(def.provider) in r
    ensures r[ApiKeyParam(def.provider)] == Str(apiKey)
  {
    var m := VersionKwargs(def, apiKey);
    if def.usePreviousResponseId == Some(true) then m["use_previous_response_id" := Bool(true)] else m
  }

  datatype ClientSpec = ClientSpec(moduleName: string, className: string, kwargs: map<string, Value>)

  /** `get_llm_client` up to the dynamic import: splits the SDK path at its last dot and
      builds the keyword arguments. */
  method GetLlmClient(def: LLMDefinition, env: map<string, string>) returns (r: Result<ClientSpec, Error>)
    ensures r.Ok? <==> '.' in def.sdk
    ensures r.Ok? ==> r.value.moduleName + "." + r.value.className == def.sdk
    ensures r.Ok? ==> '.' !in r.value.className
    ensures r.Ok? ==> r.value.kwargs == ClientKwargs(def, EnvOr(env, def.apiKeyEnv, ""))
    ensures r.Err? ==> r.error == ValueError("Invalid SDK format: " + def.sdk + ". Expected 'module.ClassName'")
  {
    var parts := RSplitOnce(def.sdk, '.');
    if parts.None? {
      return Err(ValueError("Invalid SDK format: " + def.sdk + ". Expected 'module.ClassName'"));
    }
    var kwargs := BuildKwargs(def, EnvOr(env, def.apiKeyEnv, ""));
    return Ok(ClientSpec(parts.value.0, parts.value.1, kwargs));
  }

  /** The keyword arguments, entry by entry as `get_llm_client` adds them. */
  method BuildKwargs(def: LLMDefinition, apiKey: string) returns (kwargs: map<string, Value>)
    ensures kwargs == ClientKwargs(def, apiKey)
  {
    kwargs := BaseKwargs(def);
    if def.provider == "anthropic" {
      kwargs := kwargs["anthropic_api_key" := Str(apiKey)];
    } else if def.provider == "openai" {
      kwargs := kwargs["openai_api_key" := Str(apiKey)];
    } else {
      kwargs := kwargs["api_key" := Str(apiKey)];
    }
    assert kwargs == KeyedKwargs(def, apiKey);
    if def.baseUrl.Some? && def.baseUrl.value != "" {
      kwargs := kwargs["base_url" := Str(def.baseUrl.value)];
    }
    assert kwargs == UrlKwargs(def, apiKey);
    if def.outputVersion.Some? && def.outputVersion.value != "" {
      kwargs := kwargs["output_version" := Str(def.outputVersion.value)];
    }
    assert kwargs == VersionKwargs(def, apiKey);
    if def.usePreviousResponseId == Some(true) {
      kwargs := kwargs["use_previous_response_id" := Bool(true)];
    }
  }

  /** `model` comes from the catalog unless `parameters` overrides it. */
  lemma ModelKwarg(def: LLMDefinition, apiKey: string)
    ensures "model" in ClientKwargs(def, apiKey)
    ensures ClientKwargs(def, apiKey)["model"]
      == if HasKey(def.parameters, "model") then Get(def.parameters, "model").value else Str(def.modelId)
  {
    BaseKwargsHold(def, "model");
    LaterKwargsKeep(def, apiKey, "model");
  }

  /** What the starting `kwargs` hold: `model`, overridden by and joined with `parameters`. */
  lemma BaseKwargsHold(def: LLMDefinition, k: string)
    ensures k in BaseKwargs(def) <==> k == "model" || HasKey(def.parameters, k)
    ensures HasKey(def.parameters, k) ==> BaseKwargs(def)[k] == Get(def.parameters, k).value
    ensures k == "model" && !HasKey(def.parameters, k) ==> BaseKwargs(def)[k] == Str(def.modelId)
  {
    var p := ToMap(def.parameters);
    assert k in p <==> HasKey(def.parameters, k);
    assert k in p ==> Get(def.parameters, k) == Some(p[k]);
  }

  /** A key `get_llm_client` does not set itself keeps its starting value. */
  lemma LaterKwargsKeep(def: LLMDefinition, apiKey: string, k: string)
    requires k != "anthropic_api_key" && k != "openai_api_key" && k != "api_key"
    requires k != "base_url" && k != "output_version" && k != "use_previous_response_id"
    ensures k in ClientKwargs(def, apiKey) <==> k in BaseKwargs(def)
    ensures k in BaseKwargs(def) ==> ClientKwargs(def, apiKey)[k] == BaseKwargs(def)[k]
  {
    var base := BaseKwargs(def);
    var keyed := KeyedKwargs(def, apiKey);
    assert ApiKeyParam(def.provider) != k;
    assert k in keyed <==> k in base;
    assert k in base ==> keyed[k] == base[k];
    var url := UrlKwargs(def, apiKey);
    assert k in url <==> k in keyed;
    assert k in keyed ==> url[k] == keyed[k];
    var version := VersionKwargs(def, apiKey);
    assert k in version <==> k in url;
    assert k in url ==> version[k] == url[k];
  }

  /** The API key sits under the provider's keyword, whatever `parameters` holds. */
  lemma ApiKeyKwarg(def: LLMDefinition, apiKey: string)
    ensures ClientKwargs(def, apiKey)[ApiKeyParam(def.provider)] == Str(apiKey)
  {
  }

  /** The client gets `model`, the provider's key keyword, every parameter, and the optional
      keywords whose fields are set; nothing else. */
  lemma KwargKeys(def: LLMDefinition, apiKey: string)
    ensures forall k :: k in ClientKwargs(def, apiKey) <==>
      || k == "model" || k == ApiKeyParam(def.provider) || HasKey(def.parameters, k)
      || (k == "base_url" && Nonblank(def.baseUrl))
      || (k == "output_version" && Nonblank(def.outputVersion))
      || (k == "use_previous_response_id" && def.usePreviousResponseId == Some(true))
  {
    forall k {
      BaseKwargsHold(def, k);
    }
  }

  /** The optional keywords appear exactly when their fields are set (or `parameters`
      already supplies them), with the field's value when set. */
  lemma OptionalKwargs(def: LLMDefinition, apiKey: string)
    ensures Nonblank(def.baseUrl) ==> ClientKwargs(def, apiKey)["base_url"] == Str(def.baseUrl.value)
    ensures "base_url" in ClientKwargs(def, apiKey) <==> Nonblank(def.baseUrl) || HasKey(def.parameters, "base_url")
    ensures "output_version" in ClientKwargs(def, apiKey)
      <==> Nonblank(def.outputVersion) || HasKey(def.parameters, "output_version")
    ensures "use_previous_response_id" in ClientKwargs(def, apiKey)
      <==> def.usePreviousResponseId == Some(true) || HasKey(def.parameters, "use_previous_response_id")
  {
  }

  /** Every other parameter is passed through untouched. */
  lemma ParametersPassThrough(def: LLMDefinition, apiKey: string, k: string)
    requires HasKey(def.parameters, k)
    requires k !in {"anthropic_api_key", "openai_api_key", "api_key", "base_url", "output_version",
                    "use_previous_response_id"}
    ensures ClientKwargs(def, apiKey)[k] == Get(def.parameters, k).value
  {
    BaseKwargsHold(def, k);
    LaterKwargsKeep(def, apiKey, k);
  }

  /** `to_core_config` copies the five shared sub-configurations unchanged. */
  function ToCoreConfig(a: AgentConfig): (c: CoreConfig)
    ensures c.daytona == a.daytona && c.security == a.security && c.mcp == a.mcp
    ensures c.logging == a.logging && c.filesystem == a.filesystem
  {
    CoreConfig(a.daytona, a.security, a.mcp, a.logging, a.filesystem)
  }
}

=== FILE: bash.dfy ===
/** The agent's Bash tool (`src/agent/tools/bash/execute.py`): it runs one command in the
    sandbox and reports its combined output, or its failure with the exit code. */
module Bash {
  import opened Text
  import opened Sandbox

  /** The tool's arguments after Python's defaults are filled in; `None` is an explicit
      `None`. The description is only logged. */
  datatype BashArgs = BashArgs(command: string, description: Option<string>, timeoutMs: Option<int>,
                               runInBackground: Option<bool>, workingDir: Option<string>)

  /** The arguments of a call that gives only the command: two minutes, in the foreground,
      in the sandbox's home directory. */
  function DefaultArgs(command: string): BashArgs {
    BashArgs(command, None, Some(120000), Some(false), Some("/home/daytona"))
  }

  /** The timeout handed to the sandbox, in seconds: the milliseconds divided by 1000, or
      120 when no timeout or a zero one is given. */
  function TimeoutSeconds(timeoutMs: Option<int>): (seconds: real)
    ensures timeoutMs.None? || timeoutMs.value == 0 ==> seconds == 120.0
    ensures timeoutMs.Some? && timeoutMs.value != 0 ==> seconds * 1000.0 == timeoutMs.value as real
  {
    if timeoutMs.None? || timeoutMs.value == 0 then 120.0 else timeoutMs.value as real / 1000.0
  }

  /** A whole number of seconds given in milliseconds reaches the sandbox as that number of
      seconds; the default of 120000 ms is the same two minutes as the fallback. */
  lemma WholeSecondsTimeout(k: int)
    requires k != 0
    ensures TimeoutSeconds(Some(1000 * k)) == k as real
    ensures TimeoutSeconds(Some(120000)) == TimeoutSeconds(None)
  {
  }

  function Request(args: BashArgs): (r: BashRequest)
    ensures r.command == args.command && r.workingDir == args.workingDir && r.background == args.runInBackground
    ensures r.timeoutSeconds == TimeoutSeconds(args.timeoutMs)
  {
    BashRequest(args.command, args.workingDir, TimeoutSeconds(args.timeoutMs), args.runInBackground)
  }

  /** The output of a successful command: stdout, then stderr on the next line when both
      are present, else whichever is present. A missing stream counts as empty. */
  function CombinedOutput(stdout: Option<string>, stderr: Option<string>): (out: string)
    ensures stderr.GetOr("") == "" ==> out == stdout.GetOr("")
    ensures stdout.GetOr("") == "" ==> out == stderr.GetOr("")
    ensures stdout.GetOr("") != "" && stderr.GetOr("") != "" ==>
      out == stdout.GetOr("") + "\n" + stderr.GetOr("")
  {
    var out := stdout.GetOr("");
    var err := stderr.GetOr("");
    if err != "" then (if out != "" then out + "\n" + err else err) else out
  }

  /** A failed command reports its exit code (-1 when missing) on the first line, then its
      stderr, or a fixed text when there is none. */
  function FailureMessage(exitCode: Option<int>, stderr: Option<string>): (r: string)
    ensures StartsWith(r, "ERROR: Command failed (exit code " + IntToString(exitCode.GetOr(-1)) + ")\n")
    ensures EndsWith(r, stderr.GetOr("Command execution failed"))
    ensures |r| == |"ERROR: Command failed (exit code " + IntToString(exitCode.GetOr(-1)) + ")\n"|
      + |stderr.GetOr("Command execution failed")|
  {
    var head := "ERROR: Command failed (exit code " + IntToString(exitCode.GetOr(-1)) + ")\n";
    var tail := stderr.GetOr("Command execution failed");
    assert (head + tail)[..|head|] == head;
    assert (head + tail)[|head|..] == tail;
    head + tail
  }

  /** `Bash`. */
  function RunBash(sb: Sandbox, args: BashArgs): (run: ToolRun)
    ensures run.call == Some(BashCall(Request(args)))
    ensures var answer := sb.executeBash(Request(args));
      && (answer.Err? ==> run.output == "ERROR: Failed to execute bash command: " + answer.error)
      && (answer.Ok? && !answer.value.success ==>
            run.output == FailureMessage(answer.value.exitCode, answer.value.stderr))
      && (answer.Ok? && answer.value.success ==>
            var combined := CombinedOutput(answer.value.stdout, answer.value.stderr);
            run.output == if combined == "" then "Command completed successfully" else combined)
  {
    var request := Request(args);
    var call := Some(BashCall(request));
    match sb.executeBash(request)
    case Err(e) => ToolRun("ERROR: Failed to execute bash command: " + e, call)
    case Ok(result) =>
      if result.success then
        var combined := CombinedOutput(result.stdout, result.stderr);
        ToolRun(if combined == "" then "Command completed successfully" else combined, call)
      else ToolRun(FailureMessage(result.exitCode, result.stderr), call)
  }

  /** A successful command never comes back empty, and a failed one always comes back as an
      error naming its exit code. */
  lemma OutcomeShapes(sb: Sandbox, args: BashArgs)
    ensures var answer := sb.executeBash(Request(args));
      answer.Ok? && answer.value.success ==> RunBash(sb, args).output != ""
    ensures var answer := sb.executeBash(Request(args));
      answer.Ok? && !answer.value.success ==>
        StartsWith(RunBash(sb, args).output,
                   "ERROR: Command failed (exit code " + IntToString(answer.value.exitCode.GetOr(-1)) + ")\n")
  {
  }

  /** When both streams have text, stdout and stderr can be told apart again: splitting at
      the first newline of the output gives back a newline-free stdout and all of stderr. */
  lemma StreamsRecoverable(stdout: string, stderr: string)
    requires stdout != "" && stderr != "" && '\n' !in stdout
    ensures var out := CombinedOutput(Some(stdout), Some(stderr));
      IndexOf(out, '\n') == Some(|stdout|) && out[..|stdout|] == stdout && out[|stdout| + 1..] == stderr
  {
    var out := CombinedOutput(Some(stdout), Some(stderr));
    IndexOfSeparator(stdout, '\n', stderr);
    assert out[..|stdout|] == stdout;
    assert out[|stdout| + 1..] == stderr;
  }
}

=== FILE: clistate.dfy ===
/** The CLI's mutable session state (`libs/ptc-cli/ptc_cli/core/state.py`): approval and
    plan-mode toggles, the conversation thread, and the fields the prompt's key handlers use
    for their hints. Times are integer milliseconds of the monotonic clock; a fresh thread id
    (a random UUID in the CLI) is given by the caller. */
module CliState {
  import opened Text

  /** A callback scheduled on the event loop, identified by the time it fires at. */
  datatype Timer = Timer(firesAt: int)

  /** Every field of a `SessionState`, as one value. */
  datatype Fields = Fields(
    autoApprove: bool,
    noSplash: bool,
    persistSession: bool,
    planMode: bool,
    reusingSandbox: bool,
    threadId: string,
    escHintUntil: Option<int>,
    escHintHandle: Option<Timer>,
    lastUserMessage: Option<string>,
    revisionRequested: bool,
    exitHintUntil: Option<int>,
    exitHintHandle: Option<Timer>,
    ctrlCCount: int)

  class SessionState {
    var autoApprove: bool
    var noSplash: bool
    var persistSession: bool
    var planMode: bool
    var reusingSandbox: bool
    var threadId: string
    var escHintUntil: Option<int>
    var escHintHandle: Option<Timer>
    var lastUserMessage: Option<string>
    var revisionRequested: bool
    var exitHintUntil: Option<int>
    var exitHintHandle: Option<Timer>
    var ctrlCCount: int

    function State(): Fields
      reads this
    {
      Fields(autoApprove, noSplash, persistSession, planMode, reusingSandbox, threadId,
             escHintUntil, escHintHandle, lastUserMessage, revisionRequested,
             exitHintUntil, exitHintHandle, ctrlCCount)
    }

    /** The four flags are stored as given; nothing is being reused, no hint is showing and
        no Ctrl+C has been counted. */
    constructor(autoApprove: bool, noSplash: bool, persistSession: bool, planMode: bool, threadId: string)
      ensures State() == Fields(autoApprove, noSplash, persistSession, planMode, false, threadId,
                                None, None, None, false, None, None, 0)
    {
      this.autoApprove := autoApprove;
      this.noSplash := noSplash;
      this.persistSession := persistSession;
      this.planMode := planMode;
      this.reusingSandbox := false;
      this.threadId := threadId;
      this.escHintUntil := None;
      this.escHintHandle := None;
      this.lastUserMessage := None;
      this.revisionRequested := false;
      this.exitHintUntil := None;
      this.exitHintHandle := None;
      this.ctrlCCount := 0;
    }

    /** `toggle_auto_approve`: negates the flag, changes nothing else, returns the new value. */
    method ToggleAutoApprove() returns (enabled: bool)
      modifies this
      ensures State() == old(State()).(autoApprove := !old(autoApprove))
      ensures enabled == autoApprove
    {
      autoApprove := !autoApprove;
      enabled := autoApprove;
    }

    /** `toggle_plan_mode`: negates the flag, changes nothing else, returns the new value. */
    method TogglePlanMode() returns (enabled: bool)
      modifies this
      ensures State() == old(State()).(planMode := !old(planMode))
      ensures enabled == planMode
    {
      planMode := !planMode;
      enabled := planMode;
    }

    /** `reset_thread`: a new thread id and nothing else. */
    method ResetThread(freshId: string) returns (id: string)
      modifies this
      ensures State() == old(State()).(threadId := freshId)
      ensures id == threadId
    {
      threadId := freshId;
      id := threadId;
    }
  }

  /** Pressing Shift+Tab twice leaves the session as it was. */
  method TogglePlanModeTwice(s: SessionState)
    modifies s
    ensures s.State() == old(s.State())
  {
    var _ := s.TogglePlanMode();
    var _ := s.TogglePlanMode();
  }
}

=== FILE: configloader.dfy ===
/** Shared configuration loading (src/utils/config_loader.py): the parsed-document value
    type, the Python exception kinds the loaders raise, the empty/missing checks of
    `load_yaml_file`, and the two required-key validators. */
module ConfigLoader {
  import opened Text

  /** A parsed YAML or JSON document. A mapping keeps its keys in document order; a
      floating-point number is an exact real. */
  datatype Value =
    | Null
    | Bool(b: bool)
    | Int(i: int)
    | Float(x: real)
    | Str(s: string)
    | List(items: seq<Value>)
    | Dict(entries: seq<(string, Value)>)

  type Entries = seq<(string, Value)>

  /** Python truthiness of a parsed value. */
  predicate Truthy(v: Value) {
    match v
    case Null => false
    case Bool(b) => b
    case Int(i) => i != 0
    case Float(x) => x != 0.0
    case Str(s) => s != ""
    case List(xs) => xs != []
    case Dict(es) => es != []
  }

  /** `key in d` for a mapping given as its entries in order. */
  predicate HasKey<V>(d: seq<(string, V)>, key: string) {
    exists k :: 0 <= k < |d| && d[k].0 == key
  }

  function Keys<V>(d: seq<(string, V)>): (ks: seq<string>)
    ensures |ks| == |d| && forall k :: 0 <= k < |d| ==> ks[k] == d[k].0
  {
    seq(|d|, k requires 0 <= k < |d| => d[k].0)
  }

  /** `d.get(key)`: the value of the last entry with that key, as when Python builds a dict
      from a document that repeats a key. */
  function Get<V>(d: seq<(string, V)>, key: string): (r: Option<V>)
    ensures r.Some? <==> HasKey(d, key)
  {
    if d == [] then None
    else if d[|d| - 1].0 == key then Some(d[|d| - 1].1)
    else
      var r := Get(d[..|d| - 1], key);
      assert HasKey(d, key) ==> HasKey(d[..|d| - 1], key) by {
        if HasKey(d, key) {
          var k :| 0 <= k < |d| && d[k].0 == key;
          assert d[..|d| - 1][k].0 == key;
        }
      }
      r
  }

  /** The keys of a dict built from the entries, in first-insertion order, each once. */
  function DictKeys<V>(d: seq<(string, V)>): (ks: seq<string>)
    ensures forall x :: x in ks <==> HasKey(d, x)
    ensures forall i, j :: 0 <= i < j < |ks| ==> ks[i] != ks[j]
  {
    if d == [] then []
    else
      var init := d[..|d| - 1];
      var ks := DictKeys(init);
      assert forall x :: HasKey(d, x) <==> HasKey(init, x) || x == d[|d| - 1].0 by {
        forall x | HasKey(d, x) && x != d[|d| - 1].0
          ensures HasKey(init, x)
        {
          var k :| 0 <= k < |d| && d[k].0 == x;
          assert init[k].0 == x;
        }
        forall x | HasKey(init, x)
          ensures HasKey(d, x)
        {
          var k :| 0 <= k < |init| && init[k].0 == x;
          assert d[k].0 == x;
        }
      }
      if d[|d| - 1].0 in ks then ks else ks + [d[|d| - 1].0]
  }

  /** The dict itself: a key maps to the value of its last entry. */
  function ToMap<V>(d: seq<(string, V)>): (m: map<string, V>)
    ensures forall x :: x in m <==> HasKey(d, x)
    ensures forall x :: x in m ==> Get(d, x) == Some(m[x])
  {
    if d == [] then map[]
    else
      var init := d[..|d| - 1];
      var m := ToMap(init);
      assert forall x :: HasKey(d, x) <==> HasKey(init, x) || x == d[|d| - 1].0 by {
        forall x | HasKey(d, x) && x != d[|d| - 1].0
          ensures HasKey(init, x)
        {
          var k :| 0 <= k < |d| && d[k].0 == x;
          assert init[k].0 == x;
        }
        forall x | HasKey(init, x)
          ensures HasKey(d, x)
        {
          var k :| 0 <= k < |init| && init[k].0 == x;
          assert d[k].0 == x;
        }
      }
      m[d[|d| - 1].0 := d[|d| - 1].1]
  }

  datatype Error =
    | FileNotFoundError(message: string)
    | ValueError(message: string)
    | KeyError(key: string)
    | TypeError(message: string)
    /** pydantic's rejection of a field value of the wrong type. */
    | ValidationError(field: string)
    | ImportError(message: string)
    | AttributeError(message: string)

  /** What reading a configuration file from disk yields, before interpretation. */
  datatype FileState = Absent | Malformed(reason: string) | Parsed(doc: Value)

  /** `load_yaml_file`: missing file, parse failure and empty content are errors. */
  function LoadYamlFile(path: string, file: FileState): (r: Result<Value, Error>)
    ensures file.Absent? <==> r.Err? && r.error.FileNotFoundError?
    ensures r.Ok? <==> file.Parsed? && Truthy(file.doc)
    ensures r.Ok? ==> r.value == file.doc
    ensures file.Parsed? && !Truthy(file.doc) ==>
      r == Err(ValueError("config.yaml is empty. Please add required configuration sections."))
  {
    match file
    case Absent =>
      Err(FileNotFoundError("Configuration file not found: " + path
        + "\nPlease create config.yaml with all required settings."))
    case Malformed(reason) => Err(ValueError("Failed to parse config.yaml: " + reason))
    case Parsed(doc) =>
      if !Truthy(doc) then
        Err(ValueError("config.yaml is empty. Please add required configuration sections."))
      else Ok(doc)
  }

  // ---------------------------------------------------------------------------
  // Required keys

  /** `[k for k in required if k not in d]`. */
  function MissingKeys(required: seq<string>, d: Entries): (missing: seq<string>)
    ensures |missing| <= |required|
    ensures forall x :: x in missing <==> x in required && !HasKey(d, x)
  {
    if required == [] then []
    else
      var rest := MissingKeys(required[1..], d);
      assert forall x :: x in required <==> x == required[0] || x in required[1..];
      if HasKey(d, required[0]) then rest else [required[0]] + rest
  }

  /** The filter keeps the order of the required list: it distributes over concatenation. */
  lemma {:induction false} MissingKeysAppend(a: seq<string>, b: seq<string>, d: Entries)
    ensures MissingKeys(a + b, d) == MissingKeys(a, d) + MissingKeys(b, d)
    decreases |a|
  {
    if a == [] {
      assert a + b == b;
    } else {
      assert (a + b)[0] == a[0] && (a + b)[1..] == a[1..] + b;
      MissingKeysAppend(a[1..], b, d);
    }
  }

  function SectionsMessage(configName: string, missing: seq<string>): string {
    "Missing required sections in " + configName + ": " + Join(missing, ", ")
    + "\nPlease add these sections to your config.yaml file."
  }

  function FieldsMessage(sectionName: string, missing: seq<string>): string {
    "Missing required fields in " + sectionName + " section: " + Join(missing, ", ")
  }

  /** `validate_required_sections`: succeeds exactly when every required section is
      present; otherwise the message lists the missing ones in required-list order. */
  function ValidateRequiredSections(d: Entries, required: seq<string>, configName: string)
    : (r: Result<(), Error>)
    ensures r.Ok? <==> forall s :: s in required ==> HasKey(d, s)
    ensures r.Err? ==> r.error == ValueError(SectionsMessage(configName, MissingKeys(required, d)))
  {
    var missing := MissingKeys(required, d);
    if missing != [] then
      assert missing[0] in missing;
      Err(ValueError(SectionsMessage(configName, missing)))
    else
      assert forall s :: s in required ==> s !in missing;
      Ok(())
  }

  // ---------------------------------------------------------------------------
  // The top-level document before it is known to be a mapping: Python's `in` and `[]`
  // applied to whatever the parser returned.

  /** The name Python gives the type of a parsed value. */
  function TypeName(v: Value): string {
    match v
    case Null => "NoneType"
    case Bool(_) => "bool"
    case Int(_) => "int"
    case Float(_) => "float"
    case Str(_) => "str"
    case List(_) => "list"
    case Dict(_) => "dict"
  }

  /** A scalar: `in` cannot look inside it. */
  predicate NotIterable(v: Value) {
    v.Null? || v.Bool? || v.Int? || v.Float?
  }

  /** `key in v`: key membership for a mapping, element membership for a list, substring
      for a string; any other value raises `TypeError`. */
  function PyIn(key: string, v: Value): (r: Result<bool, Error>)
    ensures r.Err? <==> NotIterable(v)
    ensures r.Err? ==> r.error.TypeError?
    ensures v.Dict? ==> r == Ok(HasKey(v.entries, key))
    ensures v.List? ==> r.Ok? && (r.value <==> exists k :: 0 <= k < |v.items| && v.items[k] == Str(key))
    ensures v.Str? ==> r == Ok(Contains(v.s, key))
  {
    match v
    case Dict(es) => Ok(HasKey(es, key))
    case List(items) => Ok(Str(key) in items)
    case Str(s) => Ok(Contains(s, key))
    case _ => Err(TypeError("argument of type '" + TypeName(v) + "' is not iterable"))
  }

  /** `for x in v`: a list's items, a mapping's keys, a string's one-character strings;
      iterating any other value raises `TypeError`. */
  function Iterate(v: Value): (r: Result<seq<Value>, Error>)
    ensures r.Err? <==> NotIterable(v)
    ensures r.Err? ==> r.error.TypeError?
    ensures v.List? ==> r == Ok(v.items)
    ensures v.Dict? ==>
      && r.Ok? && |r.value| == |v.entries|
      && forall k :: 0 <= k < |v.entries| ==> r.value[k] == Str(v.entries[k].0)
    ensures v.Str? ==>
      && r.Ok? && |r.value| == |v.s|
      && forall k :: 0 <= k < |v.s| ==> r.value[k] == Str([v.s[k]])
  {
    match v
    case List(items) => Ok(items)
    case Dict(es) => Ok(seq(|es|, k requires 0 <= k < |es| => Str(es[k].0)))
    case Str(s) => Ok(seq(|s|, k requires 0 <= k < |s| => Str([s[k]])))
    case _ => Err(TypeError("'" + TypeName(v) + "' object is not iterable"))
  }

  /** `v[key]`: the value of a mapping's key, `KeyError` when it has none; indexing any
      other value by a string raises `TypeError`. */
  function Subscript(v: Value, key: string): (r: Result<Value, Error>)
    ensures r.Ok? <==> v.Dict? && HasKey(v.entries, key)
    ensures r.Ok? ==> Get(v.entries, key) == Some(r.value)
    ensures v.Dict? && !HasKey(v.entries, key) ==> r == Err(KeyError(key))
    ensures !v.Dict? ==> r.Err? && r.error.TypeError?
  {
    match v
    case Dict(es) => if HasKey(es, key) then Ok(Get(es, key).value) else Err(KeyError(key))
    case List(_) => Err(TypeError("list indices must be integers or slices, not str"))
    case Str(_) => Err(TypeError("string indices must be integers, not 'str'"))
    case _ => Err(TypeError("'" + TypeName(v) + "' object is not subscriptable"))
  }

  /** `[s for s in required if s not in v]`, on any parsed value. */
  function MissingIn(required: seq<string>, v: Value): (r: Result<seq<string>, Error>)
    ensures r.Err? <==> required != [] && NotIterable(v)
    ensures v.Dict? ==> r == Ok(MissingKeys(required, v.entries))
    ensures r.Ok? ==> forall x :: x in r.value ==> x in required && PyIn(x, v) == Ok(false)
    ensures r.Ok? ==> forall x :: x in required && PyIn(x, v) == Ok(false) ==> x in r.value
  {
    if required == [] then Ok([])
    else
      match PyIn(required[0], v)
      case Err(e) => Err(e)
      case Ok(here) =>
        var rest := MissingIn(required[1..], v).value;
        assert forall x :: x in required <==> x == required[0] || x in required[1..];
        if here then Ok(rest) else Ok([required[0]] + rest)
  }

  /** `validate_required_sections` applied to the document as parsed, followed by the
      first `config_data[...]` of the loader: a mapping is accepted exactly when it holds
      every required section; a list or a string can pass the membership test but then
      cannot be indexed by a section name; a scalar cannot be searched at all. */
  function TopLevelSections(doc: Value, required: seq<string>, configName: string): (r: Result<Entries, Error>)
    requires required != []
    ensures r.Ok? <==> doc.Dict? && forall s :: s in required ==> HasKey(doc.entries, s)
    ensures r.Ok? ==> r.value == doc.entries
    ensures doc.Dict? && r.Err? ==>
      r.error == ValueError(SectionsMessage(configName, MissingKeys(required, doc.entries)))
    ensures NotIterable(doc) ==> r.Err? && r.error.TypeError?
    ensures (doc.List? || doc.Str?) ==>
      && MissingIn(required, doc).Ok?
      && var missing := MissingIn(required, doc).value;
      && (missing != [] ==> r == Err(ValueError(SectionsMessage(configName, missing))))
      && (missing == [] ==> r == Err(Subscript(doc, required[0]).error))
  {
    if doc.Dict? then
      var _ :- ValidateRequiredSections(doc.entries, required, configName);
      Ok(doc.entries)
    else
      var missing :- MissingIn(required, doc);
      if missing != [] then Err(ValueError(SectionsMessage(configName, missing)))
      else Err(Subscript(doc, required[0]).error)
  }

  /** `validate_section_fields`: succeeds exactly when every required field is present;
      otherwise the message names the section and the missing fields. */
  function ValidateSectionFields(d: Entries, required: seq<string>, sectionName: string)
    : (r: Result<(), Error>)
    ensures r.Ok? <==> forall f :: f in required ==> HasKey(d, f)
    ensures r.Err? ==> r.error == ValueError(FieldsMessage(sectionName, MissingKeys(required, d)))
  {
    var missing := MissingKeys(required, d);
    if missing != [] then
      assert missing[0] in missing;
      Err(ValueError(FieldsMessage(sectionName, missing)))
    else
      assert forall f :: f in required ==> f !in missing;
      Ok(())
  }

  const DaytonaRequiredFields: seq<string> :=
    ["base_url", "auto_stop_interval", "auto_archive_interval", "auto_delete_interval",
     "python_version"]
  const SecurityRequiredFields: seq<string> :=
    ["max_execution_time", "max_code_length", "max_file_size", "enable_code_validation",
     "allowed_imports", "blocked_patterns"]
  const McpRequiredFields: seq<string> := ["servers", "tool_discovery_enabled"]
  const LoggingRequiredFields: seq<string> := ["level", "format", "file"]
  const FilesystemRequiredFields: seq<string> := ["allowed_directories"]

  // ---------------------------------------------------------------------------
  // Typed field access: `d[key]`, `d.get(key, default)`, and the type check pydantic
  // applies when the value reaches a model field.

  function AsSection(v: Value, name: string): (r: Result<Entries, Error>)
    ensures r.Ok? <==> v.Dict?
  {
    if v.Dict? then Ok(v.entries) else Err(TypeError(name + " section is not a mapping"))
  }

  function Section(d: Entries, name: string): (r: Result<Entries, Error>)
    ensures r.Ok? ==> HasKey(d, name)
  {
    match Get<Value>(d, name)
    case None => Err(KeyError(name))
    case Some(v) => AsSection(v, name)
  }

  function StrField(d: Entries, key: string): (r: Result<string, Error>)
    ensures r.Ok? <==> Get(d, key).Some? && Get(d, key).value.Str?
  {
    match Get<Value>(d, key)
    case None => Err(KeyError(key))
    case Some(Str(s)) => Ok(s)
    case Some(_) => Err(ValidationError(key))
  }

  /** A required string field of a pydantic model built with `**`: when it is absent or not
      a string, pydantic raises its `ValidationError` naming the field. */
  function RequiredStr(d: Entries, key: string): (r: Result<string, Error>)
    ensures r.Ok? <==> Get(d, key).Some? && Get(d, key).value.Str?
    ensures r.Ok? ==> Get(d, key) == Some(Str(r.value))
    ensures r.Err? ==> r.error == ValidationError(key)
  {
    match Get<Value>(d, key)
    case Some(Str(s)) => Ok(s)
    case _ => Err(ValidationError(key))
  }

  function IntField(d: Entries, key: string): (r: Result<int, Error>)
    ensures r.Ok? <==> Get(d, key).Some? && Get(d, key).value.Int?
  {
    match Get<Value>(d, key)
    case None => Err(KeyError(key))
    case Some(Int(i)) => Ok(i)
    case Some(_) => Err(ValidationError(key))
  }

  function BoolField(d: Entries, key: string): (r: Result<bool, Error>)
    ensures r.Ok? <==> Get(d, key).Some? && Get(d, key).value.Bool?
  {
    match Get<Value>(d, key)
    case None => Err(KeyError(key))
    case Some(Bool(b)) => Ok(b)
    case Some(_) => Err(ValidationError(key))
  }

  /** `d.get(key, default)` for a `bool` field: an absent key gives the default. */
  function BoolFieldOr(d: Entries, key: string, default: bool): (r: Result<bool, Error>)
    ensures !HasKey(d, key) ==> r == Ok(default)
  {
    match Get<Value>(d, key)
    case None => Ok(default)
    case Some(Bool(b)) => Ok(b)
    case Some(_) => Err(ValidationError(key))
  }

  /** `d.get(key, default)` for a `str` field. */
  function StrFieldOr(d: Entries, key: string, default: string): (r: Result<string, Error>)
    ensures !HasKey(d, key) ==> r == Ok(default)
  {
    match Get<Value>(d, key)
    case None => Ok(default)
    case Some(Str(s)) => Ok(s)
    case Some(_) => Err(ValidationError(key))
  }

  /** `d.get(key)` for an `Optional[str]` field: absent and `null` both give None. */
  function OptStrField(d: Entries, key: string): (r: Result<Option<string>, Error>)
    ensures !HasKey(d, key) ==> r == Ok(None)
  {
    match Get<Value>(d, key)
    case None => Ok(None)
    case Some(Null) => Ok(None)
    case Some(Str(s)) => Ok(Some(s))
    case Some(_) => Err(ValidationError(key))
  }

  function StrList(vs: seq<Value>, key: string): (r: Result<seq<string>, Error>)
    ensures r.Ok? ==> |r.value| == |vs|
  {
    if vs == [] then Ok([])
    else if !vs[0].Str? then Err(ValidationError(key))
    else
      var rest :- StrList(vs[1..], key);
      Ok([vs[0].s] + rest)
  }

  function StrListField(d: Entries, key: string): (r: Result<seq<string>, Error>)
    ensures r.Ok? ==> HasKey(d, key)
  {
    match Get<Value>(d, key)
    case None => Err(KeyError(key))
    case Some(List(vs)) => StrList(vs, key)
    case Some(_) => Err(ValidationError(key))
  }
}

=== FILE: fileops.dfy ===
/** The agent's Read, Write and Edit tools (`src/agent/tools/filesystem/file_ops.py`): each
    normalises the path, refuses a path outside the allowed directories, calls the sandbox
    once and turns the answer, or the exception it raised, into the text the agent sees. */
module FileOps {
  import opened Text
  import opened Sandbox

  // ---------------------------------------------------------------------------
  // `str.splitlines()`

  /** The characters Python's `str.splitlines` breaks at ("\r\n" counts as one break). */
  predicate IsLineBreak(c: char) {
    c == '\n' || c == '\r' || c == '\U{B}' || c == '\U{C}' || c == '\U{1C}' || c == '\U{1D}'
    || c == '\U{1E}' || c == '\U{85}' || c == '\U{2028}' || c == '\U{2029}'
  }

  predicate NoBreak(s: string) {
    forall k :: 0 <= k < |s| ==> !IsLineBreak(s[k])
  }

  /** The index of the first line break in `s`, or `|s|` when it has none. */
  function BreakIndex(s: string): (i: nat)
    ensures i <= |s| && NoBreak(s[..i])
    ensures i < |s| ==> IsLineBreak(s[i])
  {
    if s == [] || IsLineBreak(s[0]) then 0
    else
      var i := 1 + BreakIndex(s[1..]);
      assert s[..i] == [s[0]] + s[1..][..i - 1];
      i
  }

  /** `s.splitlines()`: the lines of `s` without their breaks; a final break does not start
      a new, empty line. */
  function SplitLines(s: string): (lines: seq<string>)
    ensures forall k :: 0 <= k < |lines| ==> NoBreak(lines[k])
    ensures lines == [] <==> s == []
    decreases |s|
  {
    if s == [] then []
    else
      var i := BreakIndex(s);
      if i == |s| then [s]
      else
        var next := if s[i] == '\r' && i + 1 < |s| && s[i + 1] == '\n' then i + 2 else i + 1;
        [s[..i]] + SplitLines(s[next..])
  }

  lemma {:induction false} BreakIndexAt(x: string, c: char, rest: string)
    requires NoBreak(x) && IsLineBreak(c)
    ensures BreakIndex(x + [c] + rest) == |x|
    decreases |x|
  {
    var s := x + [c] + rest;
    if x != [] {
      assert s[0] == x[0] && s[1..] == x[1..] + [c] + rest;
      BreakIndexAt(x[1..], c, rest);
    }
  }

  /** Lines written one per "\n"-terminated line are read back unchanged. */
  lemma {:induction false} SplitLinesOfLines(lines: seq<string>)
    requires forall k :: 0 <= k < |lines| ==> NoBreak(lines[k])
    ensures SplitLines(Lines(lines)) == lines
    decreases |lines|
  {
    if lines != [] {
      var x, rest := lines[0], lines[1..];
      assert lines == [x] + rest;
      LinesCons(x, rest);
      var s := x + "\n" + Lines(rest);
      BreakIndexAt(x, '\n', Lines(rest));
      assert s[..|x|] == x && s[|x| + 1..] == Lines(rest);
      SplitLinesOfLines(rest);
    }
  }

  // ---------------------------------------------------------------------------
  // Line numbering (`f"{line_num:>6}→{line}"`)

  /** The text before a line: its number right-aligned in six columns. */
  function Gutter(n: int): string {
    PadLeft(IntToString(n), 6)
  }

  function NumberedLine(n: int, line: string): string {
    Gutter(n) + "→" + line
  }

  /** The numbered form of `lines`, the first one numbered `start`. */
  function Numbered(lines: seq<string>, start: int): (r: seq<string>)
    ensures |r| == |lines|
    ensures forall k :: 0 <= k < |lines| ==> r[k] == NumberedLine(start + k, lines[k])
  {
    seq(|lines|, k requires 0 <= k < |lines| => NumberedLine(start + k, lines[k]))
  }

  /** Everything after the arrow is the line itself. */
  lemma ArrowThenContent(n: int, line: string)
    ensures NumberedLine(n, line)[..|Gutter(n)|] == Gutter(n)
    ensures NumberedLine(n, line)[|Gutter(n)|] == '→'
    ensures NumberedLine(n, line)[|Gutter(n)| + 1..] == line
  {
    var r := NumberedLine(n, line);
    assert r == Gutter(n) + "→" + line;
  }

  function Pow10(k: nat): (p: nat)
    ensures p >= 1
  {
    if k == 0 then 1 else 10 * Pow10(k - 1)
  }

  lemma {:induction false} NatToStringWidth(n: nat, k: nat)
    requires k >= 1 && n < Pow10(k)
    ensures |NatToString(n)| <= k
    decreases k
  {
    if n >= 10 {
      assert Pow10(1) == 10;
      assert k >= 2;
      assert n / 10 < Pow10(k - 1);
      NatToStringWidth(n / 10, k - 1);
    }
  }

  /** Line numbers from 0 to 999999 fill exactly six columns, so the arrow is always the
      seventh character. */
  lemma GutterWidth(n: int)
    requires 0 <= n < 1000000
    ensures |Gutter(n)| == 6
  {
    assert Pow10(6) == 1000000 by {
      assert Pow10(1) == 10 && Pow10(2) == 100 && Pow10(3) == 1000;
      assert Pow10(4) == 10000 && Pow10(5) == 100000;
    }
    NatToStringWidth(n, 6);
    PadLeftShape(IntToString(n), 6);
  }

  lemma NumberedLineHasNoNewline(n: int, line: string)
    requires NoBreak(line)
    ensures '\n' !in NumberedLine(n, line)
  {
    GutterHasNoNewline(n);
    var g, r := Gutter(n), NumberedLine(n, line);
    assert r == g + "→" + line;
    forall k | 0 <= k < |r|
      ensures r[k] != '\n'
    {
      if k < |g| {
        assert r[k] == g[k];
      } else if k > |g| {
        assert r[k] == line[k - |g| - 1];
      }
    }
  }

  /** The gutter is spaces and digits. */
  lemma GutterHasNoNewline(n: int)
    ensures forall k :: 0 <= k < |Gutter(n)| ==> Gutter(n)[k] != '\n'
  {
    var digits := IntToString(n);
    DecimalHasNoNewline(n);
    if |digits| < 6 {
      var pad := Spaces(6 - |digits|);
      assert Gutter(n) == pad + digits;
      forall k | 0 <= k < |pad + digits|
        ensures (pad + digits)[k] != '\n'
      {
        if k >= |pad| {
          assert (pad + digits)[k] == digits[k - |pad|];
        }
      }
    }
  }

  /** A rendered integer is a sign and digits. */
  lemma DecimalHasNoNewline(n: int)
    ensures forall k :: 0 <= k < |IntToString(n)| ==> IntToString(n)[k] != '\n'
  {
    var r := IntToString(n);
    if n < 0 {
      var d := NatToString(-n);
      assert r == "-" + d;
      forall k | 0 <= k < |r|
        ensures r[k] != '\n'
      {
        if k > 0 {
          assert r[k] == d[k - 1];
        }
      }
    }
  }

  /** The loop that numbers the lines; its result is `Numbered(lines, start)`. */
  method NumberLines(lines: seq<string>, start: int) returns (formatted: seq<string>)
    ensures formatted == Numbered(lines, start)
  {
    formatted := [];
    for i := 0 to |lines|
      invariant formatted == Numbered(lines[..i], start)
    {
      var line := NumberedLine(start + i, lines[i]);
      NumberedSnoc(lines, start, i);
      formatted := formatted + [line];
    }
    assert lines[..|lines|] == lines;
  }

  /** Numbering one more line appends its numbered form. */
  lemma NumberedSnoc(lines: seq<string>, start: int, i: nat)
    requires i < |lines|
    ensures Numbered(lines[..i + 1], start) == Numbered(lines[..i], start) + [NumberedLine(start + i, lines[i])]
  {
    var front := Numbered(lines[..i], start);
    var a, b := Numbered(lines[..i + 1], start), front + [NumberedLine(start + i, lines[i])];
    forall k | 0 <= k < i + 1
      ensures a[k] == b[k]
    {
      assert lines[..i + 1][k] == lines[k];
      if k < i {
        assert lines[..i][k] == lines[k];
        assert b[k] == front[k];
      }
    }
  }

  // ---------------------------------------------------------------------------
  // read_file

  /** Python's `x or default` on an optional integer: a missing or zero value takes the
      default. */
  function OrDefault(x: Option<int>, default: int): (r: int)
    ensures x.None? || x.value == 0 ==> r == default
    ensures x.Some? && x.value != 0 ==> r == x.value
  {
    if x.None? || x.value == 0 then default else x.value
  }

  /** The read the tool asks for: a range read when an offset or a limit is given, starting
      at line 1 and taking 2000 lines unless they say otherwise. */
  function ReadRequest(normalized: string, offset: Option<int>, limit: Option<int>): (c: Call)
    ensures c.ReadRangeCall? <==> offset.Some? || limit.Some?
    ensures c.ReadRangeCall? ==> c == ReadRangeCall(normalized, OrDefault(offset, 1), OrDefault(limit, 2000))
    ensures c.ReadCall? ==> c.path == normalized
  {
    if offset.Some? || limit.Some? then ReadRangeCall(normalized, OrDefault(offset, 1), OrDefault(limit, 2000))
    else ReadCall(normalized)
  }

  function ReadAnswer(sb: Sandbox, c: Call): Result<Option<string>, string>
    requires c.ReadCall? || c.ReadRangeCall?
  {
    if c.ReadCall? then sb.readFile(c.path) else sb.readFileRange(c.path, c.start, c.count)
  }

  /** `read_file`. */
  method ReadFile(sb: Sandbox, filePath: string, offset: Option<int>, limit: Option<int>)
      returns (run: ToolRun)
    ensures Guard(sb, filePath).Err? ==> run == ToolRun(AccessDenied(filePath), None)
    ensures Guard(sb, filePath).Ok? ==>
      var c := ReadRequest(Guard(sb, filePath).value, offset, limit);
      var answer := ReadAnswer(sb, c);
      && run.call == Some(c)
      && (answer.Err? ==> run.output == "ERROR: Failed to read file: " + answer.error)
      && (answer == Ok(None) ==> run.output == "ERROR: File not found: " + filePath)
      && (answer.Ok? && answer.value.Some? ==>
            run.output == Join(Numbered(SplitLines(answer.value.value), OrDefault(offset, 1)), "\n"))
  {
    var guard := Guard(sb, filePath);
    if guard.Err? {
      return ToolRun(guard.error, None);
    }
    var c := ReadRequest(guard.value, offset, limit);
    var answer := ReadAnswer(sb, c);
    if answer.Err? {
      return ToolRun("ERROR: Failed to read file: " + answer.error, Some(c));
    }
    if answer.value.None? {
      return ToolRun("ERROR: File not found: " + filePath, Some(c));
    }
    var lines := SplitLines(answer.value.value);
    var formatted := NumberLines(lines, OrDefault(offset, 1));
    return ToolRun(Join(formatted, "\n"), Some(c));
  }

  /** A file that is not empty comes back one numbered line per line of the file, in order:
      splitting the output at newlines gives the numbered lines. */
  lemma ReadOutputLines(content: string, start: int)
    requires content != []
    ensures Split(Join(Numbered(SplitLines(content), start), "\n"), '\n') == Numbered(SplitLines(content), start)
  {
    var lines := SplitLines(content);
    var numbered := Numbered(lines, start);
    forall k | 0 <= k < |numbered|
      ensures '\n' !in numbered[k]
    {
      NumberedLineHasNoNewline(start + k, lines[k]);
    }
    SplitJoin(numbered, '\n');
  }

  /** Reading back what was written as "\n"-terminated lines numbers exactly those lines:
      the k-th output line shows number `start + k` and, after the arrow, the k-th line. */
  lemma ReadBackLines(lines: seq<string>, start: int, k: nat)
    requires forall j :: 0 <= j < |lines| ==> NoBreak(lines[j])
    requires k < |lines|
    ensures |Numbered(SplitLines(Lines(lines)), start)| == |lines|
    ensures Numbered(SplitLines(Lines(lines)), start)[k][..|Gutter(start + k)|] == Gutter(start + k)
    ensures Numbered(SplitLines(Lines(lines)), start)[k][|Gutter(start + k)| + 1..] == lines[k]
  {
    SplitLinesOfLines(lines);
    var numbered := Numbered(SplitLines(Lines(lines)), start);
    assert numbered == Numbered(lines, start);
    assert numbered[k] == NumberedLine(start + k, lines[k]);
    ArrowThenContent(start + k, lines[k]);
  }

  // ---------------------------------------------------------------------------
  // write_file

  /** The number of bytes of the UTF-8 encoding of `s`. */
  function Utf8Length(s: string): (n: nat)
    ensures |s| <= n <= 4 * |s|
  {
    if s == [] then 0 else CharBytes(s[0]) + Utf8Length(s[1..])
  }

  /** The number of bytes UTF-8 takes for one code point. */
  function CharBytes(c: char): (n: nat)
    ensures 1 <= n <= 4
    ensures n == 1 <==> c as int < 0x80
  {
    if c as int < 0x80 then 1 else if c as int < 0x800 then 2 else if c as int < 0x10000 then 3 else 4
  }

  predicate IsAscii(s: string) {
    forall k :: 0 <= k < |s| ==> s[k] as int < 0x80
  }

  /** An ASCII text takes one byte per character. */
  lemma {:induction false} Utf8LengthAscii(s: string)
    requires IsAscii(s)
    ensures Utf8Length(s) == |s|
    decreases |s|
  {
    if s != [] {
      Utf8LengthAscii(s[1..]);
    }
  }

  /** Byte counts add up over concatenation. */
  lemma {:induction false} Utf8LengthAppend(a: string, b: string)
    ensures Utf8Length(a + b) == Utf8Length(a) + Utf8Length(b)
    decreases |a|
  {
    if a != [] {
      assert (a + b)[0] == a[0] && (a + b)[1..] == a[1..] + b;
      Utf8LengthAppend(a[1..], b);
    } else {
      assert a + b == b;
    }
  }

  /** `write_file`. */
  function WriteFile(sb: Sandbox, filePath: string, content: string): (run: ToolRun)
    ensures Guard(sb, filePath).Err? ==> run == ToolRun(AccessDenied(filePath), None)
    ensures Guard(sb, filePath).Ok? ==>
      var normalized := Guard(sb, filePath).value;
      var answer := sb.writeFile(normalized, content);
      && run.call == Some(WriteCall(normalized, content))
      && (answer.Err? ==> run.output == "ERROR: Failed to write file: " + answer.error)
      && (answer == Ok(false) ==> run.output == "ERROR: Write operation failed")
      && (answer == Ok(true) ==>
            run.output == "Wrote " + NatToString(Utf8Length(content)) + " bytes to " + sb.virtualizePath(normalized))
  {
    match Guard(sb, filePath)
    case Err(denied) => ToolRun(denied, None)
    case Ok(normalized) =>
      var c := Some(WriteCall(normalized, content));
      match sb.writeFile(normalized, content)
      case Err(e) => ToolRun("ERROR: Failed to write file: " + e, c)
      case Ok(success) =>
        if success then
          ToolRun("Wrote " + NatToString(Utf8Length(content)) + " bytes to " + sb.virtualizePath(normalized), c)
        else ToolRun("ERROR: Write operation failed", c)
  }

  /** Only an allowed path is ever written to, and what is written is the content given. */
  lemma WriteOnlyAllowed(sb: Sandbox, filePath: string, content: string)
    ensures WriteFile(sb, filePath, content).call.Some? <==> Guard(sb, filePath).Ok?
    ensures WriteFile(sb, filePath, content).call.Some? ==>
      WriteFile(sb, filePath, content).call.value.content == content
      && (sb.enablePathValidation ==> sb.validatePath(WriteFile(sb, filePath, content).call.value.path))
  {
  }

  /** For ASCII content the reported byte count is the number of characters. */
  lemma WriteReportsAsciiLength(sb: Sandbox, filePath: string, content: string)
    requires IsAscii(content)
    requires Guard(sb, filePath).Ok? && sb.writeFile(Guard(sb, filePath).value, content) == Ok(true)
    ensures WriteFile(sb, filePath, content).output
      == "Wrote " + NatToString(|content|) + " bytes to " + sb.virtualizePath(Guard(sb, filePath).value)
  {
    Utf8LengthAscii(content);
  }

  // ---------------------------------------------------------------------------
  // edit_file

  /** `edit_file`: a missing "success" counts as failure; a missing "error" or "message"
      takes its default text. */
  function EditFile(sb: Sandbox, filePath: string, oldString: string, newString: string, replaceAll: bool): (run: ToolRun)
    ensures Guard(sb, filePath).Err? ==> run == ToolRun(AccessDenied(filePath), None)
    ensures Guard(sb, filePath).Ok? ==>
      var request := EditRequest(Guard(sb, filePath).value, oldString, newString, replaceAll);
      var answer := sb.editFile(request);
      && run.call == Some(EditCall(request))
      && (answer.Err? ==> run.output == "ERROR: Failed to edit file: " + answer.error)
      && (answer.Ok? && answer.value.success != Some(true) ==>
            run.output == "ERROR: " + answer.value.error.GetOr("Edit operation failed"))
      && (answer.Ok? && answer.value.success == Some(true) ==>
            run.output == answer.value.message.GetOr("File edited successfully"))
  {
    match Guard(sb, filePath)
    case Err(denied) => ToolRun(denied, None)
    case Ok(normalized) =>
      var request := EditRequest(normalized, oldString, newString, replaceAll);
      var c := Some(EditCall(request));
      match sb.editFile(request)
      case Err(e) => ToolRun("ERROR: Failed to edit file: " + e, c)
      case Ok(answer) =>
        if answer.success != Some(true) then ToolRun("ERROR: " + answer.error.GetOr("Edit operation failed"), c)
        else ToolRun(answer.message.GetOr("File edited successfully"), c)
  }

  /** A failed edit always reports an error, whatever the sandbox's answer holds. */
  lemma EditFailureIsError(sb: Sandbox, filePath: string, oldString: string, newString: string, replaceAll: bool)
    requires Guard(sb, filePath).Ok?
    requires var a := sb.editFile(EditRequest(Guard(sb, filePath).value, oldString, newString, replaceAll));
      a.Err? || a.value.success != Some(true)
    ensures StartsWith(EditFile(sb, filePath, oldString, newString, replaceAll).output, "ERROR: ")
  {
  }
}

=== FILE: formatter.dfy ===
/** The prompt text that describes the MCP tools to the model (`src/agent/prompts/formatter.py`).
    A server's block is either brief (module path and tool count only: the progressive
    discovery design) or detailed (one signature line per tool). */
module Formatter {
  import opened Text
  import opened PtcConfig

  /** One entry of a tool's `parameters` dict. `None` stands for a missing key. */
  datatype ParamInfo = ParamInfo(ptype: Option<string>, required: bool, defaultText: Option<string>)

  /** A tool's `parameters` entry. */
  datatype Params =
    | Absent                                       // missing, None or otherwise falsy
    | Names(names: seq<string>)                    // a list of parameter names
    | Described(entries: seq<(string, ParamInfo)>) // a dict, in insertion order
    | Unrecognised                                 // truthy but neither a list nor a dict

  /** A tool-info dict. An empty `returnType` or `description` stands for a missing or
      falsy entry. */
  datatype ToolInfo = ToolInfo(name: string, parameters: Params, returnType: string, description: string)

  /** `tools_by_server.items()`, in dict order. */
  type ToolsByServer = seq<(string, seq<ToolInfo>)>

  /** `server_configs`; `None` and `{}` are both the empty map. */
  type ServerConfigs = map<string, MCPServerConfig>

  const NoServersMessage: string := "\nNo MCP servers configured."

  const Guidance: string :=
    "\n\nIMPORTANT: Before using any MCP tool, you MUST check the exact function signature:\n"
    + "1. Read the tool module: Read tools/{server_name}.py to see function signatures\n"
    + "2. Check tool documentation: Read tools/docs/{server_name}/*.md for details\n"
    + "3. Verify parameters: Ensure you pass correct types and required arguments"

  // ---------------------------------------------------------------------------
  // One server's block

  function ToolsWord(count: nat): (w: string)
    ensures w == "tool" <==> count == 1
    ensures w == "tools" <==> count != 1
  {
    if count == 1 then "tool" else "tools"
  }

  /** `server_configs.get(server_name)`. */
  function Lookup(configs: ServerConfigs, name: string): (c: Option<MCPServerConfig>)
    ensures c.Some? <==> name in configs
    ensures c.Some? ==> c.value == configs[name]
  {
    if name in configs then Some(configs[name]) else None
  }

  /** The header line (with the description when there is one) and the optional
      Instructions line that open both kinds of block. */
  function HeaderLines(name: string, config: Option<MCPServerConfig>): (lines: seq<string>)
    ensures 1 <= |lines| <= 2
    ensures |lines| == 2 <==> config.Some? && config.value.instruction != ""
  {
    var header :=
      if config.Some? && config.value.description != "" then "\n" + name + ": " + config.value.description
      else "\n" + name + ":";
    if config.Some? && config.value.instruction != "" then [header, "  Instructions: " + config.value.instruction]
    else [header]
  }

  /** `_format_server_brief`: no tool name or signature, only how many tools there are. */
  function BriefBlock(name: string, tools: seq<ToolInfo>, config: Option<MCPServerConfig>): (lines: seq<string>)
    ensures |lines| == |HeaderLines(name, config)| + 4
    ensures lines[..|HeaderLines(name, config)|] == HeaderLines(name, config)
    ensures lines[|HeaderLines(name, config)|..] == [
      "  - Module: tools/" + name + ".py",
      "  - Tools: " + NatToString(|tools|) + " " + ToolsWord(|tools|) + " available",
      "  - Import: from tools." + name + " import <tool_name>",
      "  - Documentation: tools/docs/" + name + "/*.md"]
  {
    HeaderLines(name, config) + [
      "  - Module: tools/" + name + ".py",
      "  - Tools: " + NatToString(|tools|) + " " + ToolsWord(|tools|) + " available",
      "  - Import: from tools." + name + " import <tool_name>",
      "  - Documentation: tools/docs/" + name + "/*.md"]
  }

  /** A brief block depends on the tools only through their number. */
  lemma BriefBlockCountOnly(name: string, t1: seq<ToolInfo>, t2: seq<ToolInfo>, config: Option<MCPServerConfig>)
    requires |t1| == |t2|
    ensures BriefBlock(name, t1, config) == BriefBlock(name, t2, config)
  {
  }

  /** A parameter described by a dict: `name: type`, followed by ` = default` when the
      parameter is optional. */
  function ParamText(pname: string, info: ParamInfo): (r: string)
    ensures StartsWith(r, pname + ": " + info.ptype.GetOr("any"))
    ensures info.required ==> r == pname + ": " + info.ptype.GetOr("any")
    ensures !info.required ==> EndsWith(r, " = " + info.defaultText.GetOr("None"))
  {
    var head := pname + ": " + info.ptype.GetOr("any");
    if info.required then head
    else
      var r := head + " = " + info.defaultText.GetOr("None");
      assert r[..|head|] == head;
      r
  }

  /** The text between a tool's parentheses: the names or the described parameters in
      order, separated by ", "; nothing for absent or empty parameters. */
  function ParamsText(p: Params): (r: string)
    ensures p.Absent? || (p.Names? && p.names == []) || (p.Described? && p.entries == []) ==> r == ""
    ensures p.Names? && p.names != [] ==> StartsWith(r, p.names[0])
    ensures p.Names? && |p.names| == 1 ==> r == p.names[0]
    ensures p.Described? && p.entries != [] ==> StartsWith(r, ParamText(p.entries[0].0, p.entries[0].1))
    ensures p.Described? && |p.entries| == 1 ==> r == ParamText(p.entries[0].0, p.entries[0].1)
  {
    match p
    case Names(ns) =>
      if ns == [] then ""
      else JoinHead(ns, ", "); Join(ns, ", ")
    case Described(es) =>
      var texts := seq(|es|, k requires 0 <= k < |es| => ParamText(es[k].0, es[k].1));
      if es == [] then ""
      else JoinHead(texts, ", "); Join(texts, ", ")
    case _ => ""
  }

  /** The signature line of one tool in a detailed block: the signature comes first; the
      return type and the description follow only when present, in that order. */
  function ToolLine(t: ToolInfo): (r: string)
    ensures StartsWith(r, "    - " + t.name + "(" + ParamsText(t.parameters) + ")")
    ensures t.returnType == "" && t.description == ""
      ==> r == "    - " + t.name + "(" + ParamsText(t.parameters) + ")"
    ensures t.description != "" ==> EndsWith(r, ": " + t.description)
    ensures t.returnType != "" && t.description == "" ==> EndsWith(r, " -> " + t.returnType)
  {
    var sig := "    - " + t.name + "(" + ParamsText(t.parameters) + ")";
    var rt := if t.returnType != "" then " -> " + t.returnType else "";
    var ds := if t.description != "" then ": " + t.description else "";
    assert (sig + rt + ds)[..|sig|] == sig;
    assert (sig + rt + ds)[|sig + rt + ds| - |ds|..] == ds;
    assert (sig + rt)[|sig + rt| - |rt|..] == rt;
    sig + rt + ds
  }

  /** `_format_server_detailed`: module line, then one signature line per tool, in order. */
  function DetailedBlock(name: string, tools: seq<ToolInfo>, config: Option<MCPServerConfig>): (lines: seq<string>)
    ensures |lines| == |HeaderLines(name, config)| + 2 + |tools|
    ensures lines[..|HeaderLines(name, config)|] == HeaderLines(name, config)
    ensures lines[|HeaderLines(name, config)|] == "  Module: tools/" + name + ".py"
    ensures lines[|HeaderLines(name, config)| + 1] == "  Available tools:"
    ensures forall k :: 0 <= k < |tools| ==> lines[|HeaderLines(name, config)| + 2 + k] == ToolLine(tools[k])
  {
    HeaderLines(name, config)
    + ["  Module: tools/" + name + ".py", "  Available tools:"]
    + seq(|tools|, k requires 0 <= k < |tools| => ToolLine(tools[k]))
  }

  // ---------------------------------------------------------------------------
  // Per-server mode

  /** The mode a server is shown in: its own override when set, else the global default. */
  function ServerMode(defaultMode: string, config: Option<MCPServerConfig>): (m: string)
    ensures m == "detailed" <==>
      (config.Some? && config.value.toolExposureMode == Some(Detailed))
      || ((config.None? || config.value.toolExposureMode.None?) && defaultMode == "detailed")
  {
    if config.Some? && config.value.toolExposureMode.Some? then config.value.toolExposureMode.value.Name()
    else defaultMode
  }

  /** One server's block: a server's own exposure mode wins; without one, the global
      default decides, and anything but "detailed" is brief. */
  function ServerBlock(name: string, tools: seq<ToolInfo>, config: Option<MCPServerConfig>, defaultMode: string): (lines: seq<string>)
    ensures |lines| >= 3
    ensures config.Some? && config.value.toolExposureMode == Some(Detailed) ==> lines == DetailedBlock(name, tools, config)
    ensures config.Some? && config.value.toolExposureMode == Some(Summary) ==> lines == BriefBlock(name, tools, config)
    ensures (config.None? || config.value.toolExposureMode.None?) ==>
      lines == if defaultMode == "detailed" then DetailedBlock(name, tools, config) else BriefBlock(name, tools, config)
  {
    if ServerMode(defaultMode, config) == "detailed" then DetailedBlock(name, tools, config)
    else BriefBlock(name, tools, config)
  }

  /** The `lines` list of `_format_tool_summary_per_server`. */
  function PerServerLines(items: ToolsByServer, configs: ServerConfigs, defaultMode: string): (lines: seq<string>)
    ensures lines == [] <==> items == []
    ensures |lines| >= 3 * |items|
  {
    if items == [] then []
    else
      ServerBlock(items[0].0, items[0].1, Lookup(configs, items[0].0), defaultMode)
      + PerServerLines(items[1..], configs, defaultMode)
  }

  /** No lines at all becomes the fixed "no servers" message; otherwise the lines are
      joined and the guidance about reading signatures is appended. */
  function WithGuidance(lines: seq<string>): (r: string)
    ensures lines == [] ==> r == NoServersMessage
    ensures lines != [] ==>
      && EndsWith(r, Guidance)
      && r != NoServersMessage
      && r[..|r| - |Guidance|] == Join(lines, "\n")
  {
    if lines == [] then NoServersMessage
    else
      var body := Join(lines, "\n");
      EndsWithGuidance(body);
      assert (body + Guidance)[..|body|] == body;
      body + Guidance
  }

  /** `_format_tool_summary_per_server`. */
  function FormatPerServer(items: ToolsByServer, configs: ServerConfigs, defaultMode: string): (r: string)
    ensures r == NoServersMessage <==> items == []
    ensures items != [] ==>
      && EndsWith(r, Guidance)
      && r[..|r| - |Guidance|] == Join(PerServerLines(items, configs, defaultMode), "\n")
  {
    WithGuidance(PerServerLines(items, configs, defaultMode))
  }

  // ---------------------------------------------------------------------------
  // Global modes

  /** The `lines` list of `_format_tool_summary_brief`. */
  function BriefLines(items: ToolsByServer, configs: ServerConfigs): (lines: seq<string>)
    ensures lines == [] <==> items == []
  {
    if items == [] then []
    else BriefBlock(items[0].0, items[0].1, Lookup(configs, items[0].0)) + BriefLines(items[1..], configs)
  }

  /** `_format_tool_summary_brief`. */
  function FormatBrief(items: ToolsByServer, configs: ServerConfigs): (r: string)
    ensures r == NoServersMessage <==> items == []
    ensures items != [] ==>
      && EndsWith(r, Guidance)
      && r[..|r| - |Guidance|] == Join(BriefLines(items, configs), "\n")
  {
    WithGuidance(BriefLines(items, configs))
  }

  /** The `lines` list of `_format_tool_summary_detailed`. */
  function DetailedLines(items: ToolsByServer, configs: ServerConfigs): (lines: seq<string>)
    ensures lines == [] <==> items == []
  {
    if items == [] then []
    else DetailedBlock(items[0].0, items[0].1, Lookup(configs, items[0].0)) + DetailedLines(items[1..], configs)
  }

  /** `_format_tool_summary_detailed`: no guidance is appended. */
  function FormatDetailed(items: ToolsByServer, configs: ServerConfigs): (r: string)
    ensures items == [] ==> r == NoServersMessage
    ensures items != [] ==> r == Join(DetailedLines(items, configs), "\n")
  {
    var lines := DetailedLines(items, configs);
    if lines == [] then NoServersMessage else Join(lines, "\n")
  }

  /** `format_tool_summary`. */
  function FormatToolSummary(items: ToolsByServer, mode: string, configs: ServerConfigs): (r: string)
    ensures items == [] ==> r == NoServersMessage
    ensures configs != map[] ==> r == FormatPerServer(items, configs, mode)
    ensures configs == map[] && mode == "detailed" ==> r == FormatDetailed(items, configs)
    ensures configs == map[] && mode != "detailed" ==> r == FormatBrief(items, configs)
  {
    if configs != map[] then FormatPerServer(items, configs, mode)
    else if mode == "summary" then FormatBrief(items, configs)
    else if mode == "detailed" then FormatDetailed(items, configs)
    else FormatBrief(items, configs)
  }

  // ---------------------------------------------------------------------------
  // Properties

  /** Without server configs only "detailed" selects the detailed listing; every other mode
      string, known or not, gives the brief one. */
  lemma GlobalModeDispatch(items: ToolsByServer, mode: string)
    ensures mode == "detailed" ==> FormatToolSummary(items, mode, map[]) == FormatDetailed(items, map[])
    ensures mode != "detailed" ==> FormatToolSummary(items, mode, map[]) == FormatBrief(items, map[])
  {
  }

  /** An empty server map gives the same fixed message on all three paths. */
  lemma NoServersEverywhere(configs: ServerConfigs, mode: string)
    ensures FormatToolSummary([], mode, configs) == NoServersMessage
    ensures FormatPerServer([], configs, mode) == NoServersMessage
    ensures FormatBrief([], configs) == NoServersMessage
    ensures FormatDetailed([], configs) == NoServersMessage
  {
  }

  /** As soon as there is a server, the brief and per-server outputs end with the guidance,
      and so are never the "no servers" message. */
  lemma GuidanceAppended(items: ToolsByServer, configs: ServerConfigs, mode: string)
    requires items != []
    ensures EndsWith(FormatPerServer(items, configs, mode), Guidance)
    ensures EndsWith(FormatBrief(items, configs), Guidance)
    ensures FormatPerServer(items, configs, mode) != NoServersMessage
    ensures FormatBrief(items, configs) != NoServersMessage
  {
    EndsWithGuidance(Join(PerServerLines(items, configs, mode), "\n"));
    EndsWithGuidance(Join(BriefLines(items, configs), "\n"));
  }

  lemma EndsWithGuidance(s: string)
    ensures EndsWith(s + Guidance, Guidance)
    ensures s + Guidance != NoServersMessage
  {
    assert (s + Guidance)[|s|..] == Guidance;
    assert |NoServersMessage| < |Guidance|;
  }

  /** A server that does not choose "detailed" for itself is shown briefly unless the global
      default is "detailed". */
  predicate NoDetailedOverride(configs: ServerConfigs) {
    forall n :: n in configs ==> configs[n].toolExposureMode != Some(Detailed)
  }

  /** With no server asking for detail and a default other than "detailed", the per-server
      listing is exactly the global brief listing. */
  lemma {:induction false} PerServerAllBrief(items: ToolsByServer, configs: ServerConfigs, mode: string)
    requires NoDetailedOverride(configs) && mode != "detailed"
    ensures PerServerLines(items, configs, mode) == BriefLines(items, configs)
    ensures FormatPerServer(items, configs, mode) == FormatBrief(items, configs)
    decreases |items|
  {
    if items != [] {
      var c := Lookup(configs, items[0].0);
      assert ServerMode(mode, c) != "detailed";
      PerServerAllBrief(items[1..], configs, mode);
    }
  }

  /** Every listed server shown in detail. */
  predicate AllDetailed(items: ToolsByServer, configs: ServerConfigs, mode: string) {
    forall k :: 0 <= k < |items| ==> ServerMode(mode, Lookup(configs, items[k].0)) == "detailed"
  }

  /** When every server resolves to "detailed", the per-server output is the global
      detailed listing with the guidance appended. */
  lemma {:induction false} PerServerAllDetailed(items: ToolsByServer, configs: ServerConfigs, mode: string)
    requires AllDetailed(items, configs, mode)
    ensures PerServerLines(items, configs, mode) == DetailedLines(items, configs)
    ensures items != [] ==> FormatPerServer(items, configs, mode) == FormatDetailed(items, configs) + Guidance
    decreases |items|
  {
    if items != [] {
      assert ServerMode(mode, Lookup(configs, items[0].0)) == "detailed";
      assert AllDetailed(items[1..], configs, mode) by {
        forall k | 0 <= k < |items[1..]|
          ensures ServerMode(mode, Lookup(configs, items[1..][k].0)) == "detailed"
        {
          assert items[1..][k] == items[k + 1];
        }
      }
      PerServerAllDetailed(items[1..], configs, mode);
    }
  }

  // ---------------------------------------------------------------------------
  // build_mcp_section

  const McpSectionHead: string :=
    "\n================================================================================\n\n"
    + "# MCP Tools (via execute_code)\n\n"
    + "You have access to MCP servers with specialized tools. Use the execute_code tool\n"
    + "to run Python code that invokes these tools.\n\n"

  const McpSectionTail: string :=
    "\n\n## Using MCP Tools\n\n"
    + "Import and use MCP tools in your execute_code calls:\n\n"
    + "```python\nfrom tools.{server_name} import {tool_name}\n\n"
    + "result = tool_name(param=\"value\")\nprint(result)\n```\n\n"
    + "Workspace directories:\n"
    + "- tools/ - MCP tool modules\n"
    + "- results/ - Save output files here\n"
    + "- data/ - Input data files\n"

  /** `build_mcp_section`: the summary placed between the fixed head and tail of the
      template (the doubled braces of the template come out single). */
  function BuildMcpSection(summary: string): (r: string)
    ensures |r| == |McpSectionHead| + |summary| + |McpSectionTail|
    ensures StartsWith(r, McpSectionHead) && EndsWith(r, McpSectionTail)
    ensures r[|McpSectionHead|..|r| - |McpSectionTail|] == summary
  {
    var r := McpSectionHead + summary + McpSectionTail;
    assert r[..|McpSectionHead|] == McpSectionHead;
    assert r[|r| - |McpSectionTail|..] == McpSectionTail;
    assert r[|McpSectionHead|..|r| - |McpSectionTail|] == summary;
    r
  }

  /** The section carries its summary verbatim: different summaries give different
      sections, and the summary occurs in the section. */
  lemma BuildMcpSectionKeepsSummary(a: string, b: string)
    ensures BuildMcpSection(a) == BuildMcpSection(b) ==> a == b
    ensures Contains(BuildMcpSection(a), a)
  {
    var r := BuildMcpSection(a);
    ContainsAt(r, a, |McpSectionHead|);
  }
}

=== FILE: glob.dfy ===
/** The agent's Glob tool (`src/agent/tools/search/glob.py`): the sandbox's files matching a
    pattern under a search path, listed in their virtual form after a header that counts
    them. */
module Glob {
  import opened Text
  import opened Sandbox

  function SearchPath(path: Option<string>): string {
    path.GetOr(".")
  }

  function GlobHeader(count: nat, pattern: string): string {
    "Found " + NatToString(count) + " file(s) matching '" + pattern + "':"
  }

  function NoFiles(pattern: string, searchPath: string): string {
    "No files matching pattern '" + pattern + "' found in '" + searchPath + "'"
  }

  /** What the tool answers once the guard has let the normalised search path through. */
  function GlobOutput(sb: Sandbox, pattern: string, path: Option<string>, normalized: string): (out: string)
    ensures sb.globFiles(pattern, normalized).Err? ==>
      out == "ERROR: Failed to glob files: " + sb.globFiles(pattern, normalized).error
    ensures sb.globFiles(pattern, normalized) == Ok([]) ==> out == NoFiles(pattern, SearchPath(path))
  {
    match sb.globFiles(pattern, normalized)
    case Err(e) => "ERROR: Failed to glob files: " + e
    case Ok(matches) =>
      if matches == [] then NoFiles(pattern, SearchPath(path))
      else RStrip(GlobHeader(|matches|, pattern) + "\n" + Lines(MapSeq(matches, sb.virtualizePath)))
  }

  /** `glob`. */
  method GlobFiles(sb: Sandbox, pattern: string, path: Option<string>) returns (run: ToolRun)
    ensures Guard(sb, SearchPath(path)).Err? ==> run == ToolRun(AccessDenied(SearchPath(path)), None)
    ensures Guard(sb, SearchPath(path)).Ok? ==>
      var normalized := Guard(sb, SearchPath(path)).value;
      run == ToolRun(GlobOutput(sb, pattern, path, normalized), Some(GlobCall(pattern, normalized)))
  {
    var searchPath := SearchPath(path);
    var guard := Guard(sb, searchPath);
    if guard.Err? {
      return ToolRun(guard.error, None);
    }
    var call := Some(GlobCall(pattern, guard.value));
    var answer := sb.globFiles(pattern, guard.value);
    if answer.Err? {
      return ToolRun("ERROR: Failed to glob files: " + answer.error, call);
    }
    var matches := answer.value;
    if matches == [] {
      return ToolRun(NoFiles(pattern, searchPath), call);
    }
    var virtualMatches := MapSeq(matches, sb.virtualizePath);
    var result := AppendShown(GlobHeader(|virtualMatches|, pattern) + "\n", virtualMatches, (m: string) => m);
    assert MapSeq(virtualMatches, (m: string) => m) == virtualMatches;
    return ToolRun(RStrip(result), call);
  }

  /** The header counts the matches and each match follows on its own line, virtualised, in
      the order the sandbox found them. */
  lemma GlobListing(sb: Sandbox, pattern: string, path: Option<string>, normalized: string)
    requires '\n' !in pattern
    requires var answer := sb.globFiles(pattern, normalized); answer.Ok? && answer.value != []
    requires var shown := MapSeq(sb.globFiles(pattern, normalized).value, sb.virtualizePath);
      && (forall k :: 0 <= k < |shown| ==> '\n' !in shown[k])
      && var last := shown[|shown| - 1]; last != [] && !IsSpace(last[|last| - 1])
    ensures var matches := sb.globFiles(pattern, normalized).value;
      Split(GlobOutput(sb, pattern, path, normalized), '\n')
        == [GlobHeader(|matches|, pattern)] + MapSeq(matches, sb.virtualizePath)
  {
    var matches := sb.globFiles(pattern, normalized).value;
    var header := GlobHeader(|matches|, pattern);
    assert '\n' !in NatToString(|matches|);
    assert '\n' !in header;
    ListingLines(header, MapSeq(matches, sb.virtualizePath));
  }
}

=== FILE: grep.dfy ===
/** The agent's Grep tool (`src/agent/tools/search/grep.py`): it passes its arguments to the
    sandbox's ripgrep search under the sandbox's option names and lists the answer in the
    form the output mode asks for, with every sandbox path shown in its virtual form. */
module Grep {
  import opened Text
  import opened Sandbox

  /** The tool's arguments as the agent gives them; `None` is an explicit `None`. */
  datatype GrepArgs = GrepArgs(
    pattern: string,
    path: Option<string>,
    outputMode: Option<string>,
    glob: Option<string>,
    fileType: Option<string>,
    i: Option<bool>,
    n: Option<bool>,
    a: Option<int>,
    b: Option<int>,
    c: Option<int>,
    multiline: Option<bool>,
    headLimit: Option<int>,
    offset: int)

  /** The arguments of a call that gives only the pattern. */
  function DefaultArgs(pattern: string): GrepArgs {
    GrepArgs(pattern, None, Some("files_with_matches"), None, None, Some(false), Some(true), None, None, None,
             Some(false), None, 0)
  }

  /** Where the search runs, as the agent named it: the working directory unless a path is
      given. */
  function SearchPath(args: GrepArgs): (p: string)
    ensures args.path.None? ==> p == "."
    ensures args.path.Some? ==> p == args.path.value
  {
    args.path.GetOr(".")
  }

  /** The options handed to `grep_content`: the short flags become named options and the
      search path is replaced by its normalised form. */
  function OptionsOf(args: GrepArgs, normalized: string): (o: GrepOptions)
    ensures o.pattern == args.pattern && o.path == normalized && o.outputMode == args.outputMode
    ensures o.glob == args.glob && o.fileType == args.fileType
    ensures o.caseInsensitive == args.i && o.showLineNumbers == args.n
    ensures o.linesAfter == args.a && o.linesBefore == args.b && o.linesContext == args.c
    ensures o.multiline == args.multiline && o.headLimit == args.headLimit && o.offset == args.offset
  {
    GrepOptions(args.pattern, normalized, args.outputMode, args.glob, args.fileType, args.i, args.n,
                args.a, args.b, args.c, args.multiline, args.headLimit, args.offset)
  }

  function NoMatches(pattern: string, searchPath: string): string {
    "No matches found for pattern '" + pattern + "' in '" + searchPath + "'"
  }

  function Failure(e: string): string {
    "ERROR: Failed to grep content: " + e
  }

  // ---------------------------------------------------------------------------
  // Content entries: `entry.split(":", 2)` and the path in front virtualised

  /** How one content entry is shown: a string with a colon gets the path before its first
      colon virtualised, and the line number, the matched text and any later colons are
      shown as they came; anything else is shown unchanged. */
  function ShowEntry(sb: Sandbox, entry: ContentEntry): (r: string)
    ensures entry.OtherEntry? ==> r == entry.text
    ensures entry.StrEntry? && ':' !in entry.s ==> r == entry.s
    ensures entry.StrEntry? && ':' in entry.s ==>
      var i := IndexOf(entry.s, ':').value;
      r == sb.virtualizePath(entry.s[..i]) + entry.s[i..]
  {
    match entry
    case OtherEntry(text) => text
    case StrEntry(s) =>
      if ':' in s then
        var parts := SplitAtMost(s, ':', 2);
        var i := IndexOf(s, ':').value;
        FirstColonParts(sb.virtualizePath(s[..i]), s, i);
        if |parts| >= 2 then Join([sb.virtualizePath(parts[0])] + parts[1..], ":") else s
      else s
  }

  /** Splitting at the first colon `i` and joining again with a new front part `v` keeps
      everything from the colon on. */
  lemma FirstColonParts(v: string, s: string, i: nat)
    requires IndexOf(s, ':') == Some(i)
    ensures var parts := SplitAtMost(s, ':', 2);
      |parts| >= 2 && parts[0] == s[..i] && Join([v] + parts[1..], ":") == v + s[i..]
  {
    assert s[i] == ':';
    var parts := SplitAtMost(s, ':', 2);
    var rest := SplitAtMost(s[i + 1..], ':', 1);
    assert parts == [s[..i]] + rest;
    assert parts[1..] == rest;
    JoinCons(v, rest, ":");
    JoinSplitAtMost(s[i + 1..], ':', 1);
    ColonAround(v, s, i);
  }

  lemma ColonAround(v: string, s: string, i: nat)
    requires i < |s| && s[i] == ':'
    ensures v + ":" + s[i + 1..] == v + s[i..]
  {
    assert s[i..] == [':'] + s[i + 1..];
  }

  // ---------------------------------------------------------------------------
  // The three listings

  function FilesHeader(count: nat): string {
    "Found matches in " + NatToString(count) + " file(s):"
  }

  function ContentHeader(pattern: string): string {
    "Matches for pattern '" + pattern + "':"
  }

  function CountsHeader(pattern: string): string {
    "Match counts for pattern '" + pattern + "':"
  }

  function CountLine(sb: Sandbox, entry: (string, int)): string {
    sb.virtualizePath(entry.0) + ": " + IntToString(entry.1)
  }

  /** The search call the output mode selects failed. */
  predicate ModeFailed(sb: Sandbox, args: GrepArgs, o: GrepOptions) {
    if args.outputMode == Some("files_with_matches") then sb.grepFiles(o).Err?
    else if args.outputMode == Some("content") then sb.grepLines(o).Err?
    else if args.outputMode == Some("count") then sb.grepCounts(o).Err?
    else sb.grepOther(o).Err?
  }

  /** The search call the output mode selects found nothing. */
  predicate ModeEmpty(sb: Sandbox, args: GrepArgs, o: GrepOptions) {
    if args.outputMode == Some("files_with_matches") then sb.grepFiles(o) == Ok([])
    else if args.outputMode == Some("content") then sb.grepLines(o) == Ok([])
    else if args.outputMode == Some("count") then sb.grepCounts(o) == Ok([])
    else sb.grepOther(o).Ok? && sb.grepOther(o).value.0
  }

  /** What the tool answers, given the normalised search path the guard let through: an
      error when the mode's search fails, "No matches" naming the pattern and the search
      path as given when it finds nothing, and the mode's listing otherwise. */
  function GrepOutput(sb: Sandbox, args: GrepArgs, normalized: string): (r: string)
    ensures ModeFailed(sb, args, OptionsOf(args, normalized)) ==> StartsWith(r, "ERROR: Failed to grep content: ")
    ensures ModeEmpty(sb, args, OptionsOf(args, normalized)) ==> r == NoMatches(args.pattern, SearchPath(args))
  {
    var options := OptionsOf(args, normalized);
    var noMatches := NoMatches(args.pattern, SearchPath(args));
    if args.outputMode == Some("files_with_matches") then
      match sb.grepFiles(options)
      case Err(e) => Failure(e)
      case Ok(paths) =>
        if paths == [] then noMatches
        else RStrip(FilesHeader(|paths|) + "\n" + Lines(MapSeq(paths, sb.virtualizePath)))
    else if args.outputMode == Some("content") then
      match sb.grepLines(options)
      case Err(e) => Failure(e)
      case Ok(entries) =>
        if entries == [] then noMatches
        else RStrip(ContentHeader(args.pattern) + "\n\n" + Lines(MapSeq(entries, e => ShowEntry(sb, e))))
    else if args.outputMode == Some("count") then
      match sb.grepCounts(options)
      case Err(e) => Failure(e)
      case Ok(counts) =>
        if counts == [] then noMatches
        else RStrip(CountsHeader(args.pattern) + "\n" + Lines(MapSeq(counts, e => CountLine(sb, e))))
    else
      match sb.grepOther(options)
      case Err(e) => Failure(e)
      case Ok(raw) => if raw.0 then noMatches else RStrip(raw.1)
  }

  function SearchCall(sb: Sandbox, args: GrepArgs): (c: Option<Call>)
    ensures c.Some? <==> Guard(sb, SearchPath(args)).Ok?
  {
    match Guard(sb, SearchPath(args))
    case Err(_) => None
    case Ok(normalized) => Some(GrepCall(OptionsOf(args, normalized)))
  }

  /** `grep`. */
  method Grep(sb: Sandbox, args: GrepArgs) returns (run: ToolRun)
    ensures Guard(sb, SearchPath(args)).Err? ==> run == ToolRun(AccessDenied(SearchPath(args)), None)
    ensures Guard(sb, SearchPath(args)).Ok? ==>
      run == ToolRun(GrepOutput(sb, args, Guard(sb, SearchPath(args)).value), SearchCall(sb, args))
  {
    var searchPath := SearchPath(args);
    var guard := Guard(sb, searchPath);
    if guard.Err? {
      return ToolRun(guard.error, None);
    }
    var options := OptionsOf(args, guard.value);
    var call := Some(GrepCall(options));
    var noMatches := NoMatches(args.pattern, searchPath);
    var result: string;
    if args.outputMode == Some("files_with_matches") {
      var answer := sb.grepFiles(options);
      if answer.Err? {
        return ToolRun(Failure(answer.error), call);
      }
      if answer.value == [] {
        return ToolRun(noMatches, call);
      }
      result := AppendShown(FilesHeader(|answer.value|) + "\n", answer.value, sb.virtualizePath);
    } else if args.outputMode == Some("content") {
      var answer := sb.grepLines(options);
      if answer.Err? {
        return ToolRun(Failure(answer.error), call);
      }
      if answer.value == [] {
        return ToolRun(noMatches, call);
      }
      result := AppendShown(ContentHeader(args.pattern) + "\n\n", answer.value, e => ShowEntry(sb, e));
    } else if args.outputMode == Some("count") {
      var answer := sb.grepCounts(options);
      if answer.Err? {
        return ToolRun(Failure(answer.error), call);
      }
      if answer.value == [] {
        return ToolRun(noMatches, call);
      }
      result := AppendShown(CountsHeader(args.pattern) + "\n", answer.value, e => CountLine(sb, e));
    } else {
      var answer := sb.grepOther(options);
      if answer.Err? {
        return ToolRun(Failure(answer.error), call);
      }
      if answer.value.0 {
        return ToolRun(noMatches, call);
      }
      result := answer.value.1;
    }
    return ToolRun(RStrip(result), call);
  }

  // ---------------------------------------------------------------------------
  // Properties

  /** An empty answer is reported as no matches, naming the pattern and the search path as
      the agent gave it, in every listing mode. */
  lemma EmptyAnswerIsNoMatches(sb: Sandbox, args: GrepArgs, normalized: string)
    requires var o := OptionsOf(args, normalized);
      (args.outputMode == Some("files_with_matches") && sb.grepFiles(o) == Ok([]))
      || (args.outputMode == Some("content") && sb.grepLines(o) == Ok([]))
      || (args.outputMode == Some("count") && sb.grepCounts(o) == Ok([]))
    ensures GrepOutput(sb, args, normalized) == NoMatches(args.pattern, SearchPath(args))
  {
  }

  /** A failing search is reported as an error in every mode. */
  lemma FailureIsError(sb: Sandbox, args: GrepArgs, normalized: string)
    requires var o := OptionsOf(args, normalized);
      && sb.grepFiles(o).Err? && sb.grepLines(o).Err? && sb.grepCounts(o).Err? && sb.grepOther(o).Err?
    ensures StartsWith(GrepOutput(sb, args, normalized), "ERROR: Failed to grep content: ")
  {
  }

  /** In files mode the header counts the matching files and each one follows on its own
      line, virtualised, in the order the search gave them. */
  lemma FilesListing(sb: Sandbox, args: GrepArgs, normalized: string)
    requires args.outputMode == Some("files_with_matches")
    requires var answer := sb.grepFiles(OptionsOf(args, normalized)); answer.Ok? && answer.value != []
    requires var shown := MapSeq(sb.grepFiles(OptionsOf(args, normalized)).value, sb.virtualizePath);
      && (forall k :: 0 <= k < |shown| ==> '\n' !in shown[k])
      && var last := shown[|shown| - 1]; last != [] && !IsSpace(last[|last| - 1])
    ensures var paths := sb.grepFiles(OptionsOf(args, normalized)).value;
      Split(GrepOutput(sb, args, normalized), '\n')
        == [FilesHeader(|paths|)] + MapSeq(paths, sb.virtualizePath)
  {
    var paths := sb.grepFiles(OptionsOf(args, normalized)).value;
    var header := FilesHeader(|paths|);
    assert '\n' !in NatToString(|paths|);
    assert '\n' !in header;
    ListingLines(header, MapSeq(paths, sb.virtualizePath));
  }

  /** In content mode a blank line follows the header, then one line per entry, in order. */
  lemma ContentListing(sb: Sandbox, args: GrepArgs, normalized: string)
    requires args.outputMode == Some("content") && '\n' !in args.pattern
    requires var answer := sb.grepLines(OptionsOf(args, normalized)); answer.Ok? && answer.value != []
    requires var shown := MapSeq(sb.grepLines(OptionsOf(args, normalized)).value, e => ShowEntry(sb, e));
      && (forall k :: 0 <= k < |shown| ==> '\n' !in shown[k])
      && var last := shown[|shown| - 1]; last != [] && !IsSpace(last[|last| - 1])
    ensures Split(GrepOutput(sb, args, normalized), '\n')
      == [ContentHeader(args.pattern), ""] + MapSeq(sb.grepLines(OptionsOf(args, normalized)).value, e => ShowEntry(sb, e))
  {
    var shown := MapSeq(sb.grepLines(OptionsOf(args, normalized)).value, e => ShowEntry(sb, e));
    var header := ContentHeader(args.pattern);
    assert '\n' !in header;
    assert GrepOutput(sb, args, normalized) == RStrip(header + "\n\n" + Lines(shown));
    BlankLineListing(header, shown);
  }
}

=== FILE: lifecycle.dfy ===
/** How the CLI picks the sandbox of a new session (`libs/ptc-cli/ptc_cli/agent/lifecycle.py`,
    `create_agent_with_session`): an explicit sandbox id, else a persisted one made for the
    same configuration, is reconnected to; otherwise, or when reconnecting fails, a fresh
    sandbox is created and, when sessions persist, recorded for the next start. Whether a
    reconnect succeeds and the id of a freshly created sandbox are given as inputs. */
module Lifecycle {
  import opened Text
  import opened Persistence

  /** The session manager's cache of sessions by agent name; a session is identified by the
      order in which it was created. */
  class SessionCache {
    var sessions: map<string, nat>
    var created: nat

    ghost predicate Valid()
      reads this
    {
      forall a :: a in sessions ==> sessions[a] < created
    }

    constructor()
      ensures Valid() && sessions == map[] && created == 0
    {
      sessions := map[];
      created := 0;
    }

    /** `SessionManager.get_session`: the cached session, or a new one that is cached. */
    method GetSession(agent: string) returns (session: nat)
      requires Valid()
      modifies this
      ensures Valid()
      ensures agent in old(sessions) ==> session == old(sessions)[agent] && sessions == old(sessions) && created == old(created)
      ensures agent !in old(sessions) ==>
        session == old(created) && created == old(created) + 1 && sessions == old(sessions)[agent := session]
    {
      if agent in sessions {
        session := sessions[agent];
      } else {
        session := created;
        created := created + 1;
        sessions := sessions[agent := session];
      }
    }

    /** `SessionManager._sessions.pop(agent, None)`. */
    method Evict(agent: string)
      requires Valid()
      modifies this
      ensures Valid()
      ensures sessions == old(sessions) - {agent} && created == old(created)
    {
      sessions := sessions - {agent};
    }
  }

  /** The sandbox id worth reconnecting to: the explicit one, else, when sessions persist, the
      id of the loaded record if it was made for the current configuration. */
  function Chosen(sandboxId: Option<string>, persistSession: bool, loaded: Option<Record>, configHash: string): Option<string> {
    if Present(sandboxId) then sandboxId
    else if persistSession && loaded.Some? && loaded.value.configHash == Some(configHash) then loaded.value.sandboxId
    else None
  }

  /** The files after the update of the last-used time. */
  function Refreshed(files: map<string, SessionFile>, agent: string, now: int): map<string, SessionFile> {
    if agent in files && files[agent].Parsed? then files[agent := Parsed(files[agent].record.(lastUsed := Some(At(now))))]
    else files
  }

  /** What starting a session decides: the session files afterwards, whether the sandbox is
      reused, and the id of the sandbox in use when known. */
  datatype Plan = Plan(files: map<string, SessionFile>, reusing: bool, sandbox: Option<string>)

  /** The record loaded, when the store is read at all. */
  function Loaded(files: map<string, SessionFile>, agent: string, sandboxId: Option<string>,
                  persistSession: bool, now: int): Option<Record>
  {
    if !Present(sandboxId) && persistSession then LoadDecision(if agent in files then Some(files[agent]) else None, now).session
    else None
  }

  /** The files after loading and after deleting a record made for another configuration. */
  function Checked(files: map<string, SessionFile>, agent: string, sandboxId: Option<string>,
                   persistSession: bool, configHash: string, now: int): map<string, SessionFile>
  {
    var afterLoad := if !Present(sandboxId) && persistSession then AfterLoad(files, agent, now) else files;
    var loaded := Loaded(files, agent, sandboxId, persistSession, now);
    if loaded.Some? && loaded.value.configHash != Some(configHash) then afterLoad - {agent} else afterLoad
  }

  /** Reconnecting to `chosen`, or else starting fresh, from the files `checked`. */
  function Connected(checked: map<string, SessionFile>, agent: string, chosen: Option<string>,
                     persistSession: bool, configHash: string, now: int,
                     reconnects: string -> bool, freshSandboxId: Option<string>): Plan
  {
    var reusing := Present(chosen) && reconnects(chosen.value);
    var afterConnect :=
      if reusing then (if persistSession then Refreshed(checked, agent, now) else checked)
      else if Present(chosen) then checked - {agent}
      else checked;
    var sandbox := if reusing then chosen else freshSandboxId;
    var saves := persistSession && !reusing && Present(sandbox);
    Plan(if saves then afterConnect[agent := Parsed(SavedRecord(sandbox.value, configHash, now))] else afterConnect,
         reusing, sandbox)
  }

  function SessionPlan(files: map<string, SessionFile>, agent: string, sandboxId: Option<string>,
                       persistSession: bool, configHash: string, now: int,
                       reconnects: string -> bool, freshSandboxId: Option<string>): Plan
  {
    Connected(Checked(files, agent, sandboxId, persistSession, configHash, now), agent,
              Chosen(sandboxId, persistSession, Loaded(files, agent, sandboxId, persistSession, now), configHash),
              persistSession, configHash, now, reconnects, freshSandboxId)
  }

  /** What `create_agent_with_session` returns about the session. */
  datatype Outcome = Outcome(session: nat, reusing: bool, sandbox: Option<string>)

  /** The sandbox selection, reconnect and save steps of `create_agent_with_session`. */
  method CreateSessionSandbox(store: SessionStore, cache: SessionCache, agent: string,
                              sandboxId: Option<string>, persistSession: bool, configHash: string, now: int,
                              reconnects: string -> bool, freshSandboxId: Option<string>)
    returns (o: Outcome)
    requires cache.Valid()
    modifies store, cache
    ensures cache.Valid()
    ensures var plan := SessionPlan(old(store.files), agent, sandboxId, persistSession, configHash, now,
                                    reconnects, freshSandboxId);
      store.files == plan.files && o.reusing == plan.reusing && o.sandbox == plan.sandbox
    ensures agent in cache.sessions && o.session == cache.sessions[agent]
    ensures cache.sessions == old(cache.sessions)[agent := o.session]
    ensures var chosen := Chosen(sandboxId, persistSession, Loaded(old(store.files), agent, sandboxId, persistSession, now), configHash);
      Present(chosen) && !reconnects(chosen.value) ==> o.session !in old(cache.sessions).Values
    ensures var chosen := Chosen(sandboxId, persistSession, Loaded(old(store.files), agent, sandboxId, persistSession, now), configHash);
      !(Present(chosen) && !reconnects(chosen.value)) ==>
        if agent in old(cache.sessions) then o.session == old(cache.sessions)[agent] && cache.created == old(cache.created)
        else o.session == old(cache.created) && cache.created == old(cache.created) + 1
    ensures var chosen := Chosen(sandboxId, persistSession, Loaded(old(store.files), agent, sandboxId, persistSession, now), configHash);
      Present(chosen) && !reconnects(chosen.value) ==>
        && o.session + 1 == cache.created
        && cache.created == old(cache.created) + (if agent in old(cache.sessions) then 1 else 2)
  {
    var persisted := ChooseSandbox(store, agent, sandboxId, persistSession, configHash, now);
    o := Connect(store, cache, agent, persisted, persistSession, configHash, now, reconnects, freshSandboxId);
  }

  /** The selection step: the explicit id, or the persisted one when it was made for this
      configuration; a record made for another configuration is deleted. */
  method ChooseSandbox(store: SessionStore, agent: string, sandboxId: Option<string>, persistSession: bool,
                       configHash: string, now: int)
    returns (persisted: Option<string>)
    modifies store
    ensures persisted == Chosen(sandboxId, persistSession, Loaded(old(store.files), agent, sandboxId, persistSession, now), configHash)
    ensures store.files == Checked(old(store.files), agent, sandboxId, persistSession, configHash, now)
  {
    persisted := None;
    if Present(sandboxId) {
      persisted := sandboxId;
    } else if persistSession {
      var record := store.Load(agent, now);
      if record.Some? {
        if record.value.configHash == Some(configHash) {
          persisted := record.value.sandboxId;
        } else {
          store.Delete(agent);
        }
      }
    }
  }

  /** The reconnect and save steps: a sandbox that reconnects is reused and its record
      refreshed; one that does not is deleted with its cached session, and a fresh sandbox
      is recorded when sessions persist. */
  method Connect(store: SessionStore, cache: SessionCache, agent: string, persisted: Option<string>,
                 persistSession: bool, configHash: string, now: int,
                 reconnects: string -> bool, freshSandboxId: Option<string>)
    returns (o: Outcome)
    requires cache.Valid()
    modifies store, cache
    ensures cache.Valid()
    ensures var plan := Connected(old(store.files), agent, persisted, persistSession, configHash, now,
                                  reconnects, freshSandboxId);
      store.files == plan.files && o.reusing == plan.reusing && o.sandbox == plan.sandbox
    ensures agent in cache.sessions && o.session == cache.sessions[agent]
    ensures cache.sessions == old(cache.sessions)[agent := o.session]
    ensures Present(persisted) && !reconnects(persisted.value) ==> o.session !in old(cache.sessions).Values
    ensures !(Present(persisted) && !reconnects(persisted.value)) ==>
      if agent in old(cache.sessions) then o.session == old(cache.sessions)[agent] && cache.created == old(cache.created)
      else o.session == old(cache.created) && cache.created == old(cache.created) + 1
    ensures Present(persisted) && !reconnects(persisted.value) ==>
      && o.session + 1 == cache.created
      && cache.created == old(cache.created) + (if agent in old(cache.sessions) then 1 else 2)
  {
    var reusing := false;
    var session := cache.GetSession(agent);
    var sandbox: Option<string>;
    if Present(persisted) {
      if reconnects(persisted.value) {
        reusing := true;
        sandbox := persisted;
        if persistSession {
          store.UpdateLastUsed(agent, now);
        }
      } else {
        store.Delete(agent);
        cache.Evict(agent);
        session := cache.GetSession(agent);
        sandbox := freshSandboxId;
        reusing := false;
      }
    } else {
      sandbox := freshSandboxId;
    }

    if persistSession && !reusing && Present(sandbox) {
      store.Save(agent, sandbox.value, configHash, now);
    }
    o := Outcome(session, reusing, sandbox);
  }

  // ---------------------------------------------------------------------------
  // Properties of the plan

  /** An explicit sandbox id is the one reconnected to, whatever is persisted; the store is
      not even read. */
  lemma ExplicitIdOverrides(files: map<string, SessionFile>, agent: string, sandboxId: Option<string>,
                            persistSession: bool, configHash: string, now: int,
                            reconnects: string -> bool, freshSandboxId: Option<string>)
    requires Present(sandboxId)
    ensures var plan := SessionPlan(files, agent, sandboxId, persistSession, configHash, now, reconnects, freshSandboxId);
      && plan.reusing == reconnects(sandboxId.value)
      && (plan.reusing ==> plan.sandbox == sandboxId && plan.files == (if persistSession then Refreshed(files, agent, now) else files))
  {
  }

  /** Without an explicit id, a sandbox is reused only when sessions persist and the agent's
      record loads with the current configuration's hash; the sandbox is the record's. */
  lemma PersistedIdNeedsMatchingHash(files: map<string, SessionFile>, agent: string, sandboxId: Option<string>,
                                     persistSession: bool, configHash: string, now: int,
                                     reconnects: string -> bool, freshSandboxId: Option<string>)
    requires !Present(sandboxId)
    requires SessionPlan(files, agent, sandboxId, persistSession, configHash, now, reconnects, freshSandboxId).reusing
    ensures var loaded := LoadDecision(if agent in files then Some(files[agent]) else None, now).session;
      && persistSession && loaded.Some? && loaded.value.configHash == Some(configHash)
      && SessionPlan(files, agent, sandboxId, persistSession, configHash, now, reconnects, freshSandboxId).sandbox
           == loaded.value.sandboxId
  {
  }

  /** A record made for another configuration is deleted and never reused; the agent's file
      afterwards holds at most the record of the fresh sandbox. */
  lemma HashMismatchDeletes(files: map<string, SessionFile>, agent: string, sandboxId: Option<string>,
                            persistSession: bool, configHash: string, now: int,
                            reconnects: string -> bool, freshSandboxId: Option<string>)
    requires !Present(sandboxId) && persistSession
    requires var loaded := LoadDecision(if agent in files then Some(files[agent]) else None, now).session;
      loaded.Some? && loaded.value.configHash != Some(configHash)
    ensures var plan := SessionPlan(files, agent, sandboxId, persistSession, configHash, now, reconnects, freshSandboxId);
      && !plan.reusing
      && (agent in plan.files ==> Present(freshSandboxId) && plan.files[agent] == Parsed(SavedRecord(freshSandboxId.value, configHash, now)))
  {
  }

  /** A failed reconnect deletes the record and falls back to a fresh sandbox, which is
      recorded only when sessions persist and it has an id. */
  lemma FailedReconnectStartsFresh(files: map<string, SessionFile>, agent: string, sandboxId: Option<string>,
                                   persistSession: bool, configHash: string, now: int,
                                   reconnects: string -> bool, freshSandboxId: Option<string>)
    requires var loaded := if !Present(sandboxId) && persistSession
                           then LoadDecision(if agent in files then Some(files[agent]) else None, now).session else None;
      var chosen := Chosen(sandboxId, persistSession, loaded, configHash);
      Present(chosen) && !reconnects(chosen.value)
    ensures var plan := SessionPlan(files, agent, sandboxId, persistSession, configHash, now, reconnects, freshSandboxId);
      && !plan.reusing && plan.sandbox == freshSandboxId
      && (agent in plan.files <==> persistSession && Present(freshSandboxId))
  {
  }

  /** Only the starting agent's file is ever touched. */
  lemma OtherAgentsUntouched(files: map<string, SessionFile>, agent: string, sandboxId: Option<string>,
                             persistSession: bool, configHash: string, now: int,
                             reconnects: string -> bool, freshSandboxId: Option<string>, other: string)
    requires other != agent
    ensures var plan := SessionPlan(files, agent, sandboxId, persistSession, configHash, now, reconnects, freshSandboxId);
      (other in plan.files <==> other in files) && (other in files ==> plan.files[other] == files[other])
  {
  }

  /** Without persistence nothing is saved or refreshed: the agent's file is at most deleted. */
  lemma NoPersistenceNoWrites(files: map<string, SessionFile>, agent: string, sandboxId: Option<string>,
                              configHash: string, now: int,
                              reconnects: string -> bool, freshSandboxId: Option<string>)
    ensures var plan := SessionPlan(files, agent, sandboxId, false, configHash, now, reconnects, freshSandboxId);
      plan.files == files || plan.files == files - {agent}
  {
  }

  /** When sessions persist and no explicit id is given, the sandbox in use is the one the
      next start finds: the agent's record then loads with this sandbox and this hash. */
  lemma NextStartFindsSandbox(files: map<string, SessionFile>, agent: string, sandboxId: Option<string>,
                              configHash: string, now: int,
                              reconnects: string -> bool, freshSandboxId: Option<string>)
    requires !Present(sandboxId) && configHash != ""
    requires Present(SessionPlan(files, agent, sandboxId, true, configHash, now, reconnects, freshSandboxId).sandbox)
    ensures var plan := SessionPlan(files, agent, sandboxId, true, configHash, now, reconnects, freshSandboxId);
      && agent in plan.files
      && var next := LoadDecision(Some(plan.files[agent]), now).session;
      && next.Some? && next.value.sandboxId == plan.sandbox && next.value.configHash == Some(configHash)
  {
    var plan := SessionPlan(files, agent, sandboxId, true, configHash, now, reconnects, freshSandboxId);
    if plan.reusing {
      var loaded := LoadDecision(if agent in files then Some(files[agent]) else None, now).session;
      assert loaded.Some? && files[agent] == Parsed(loaded.value);
      var r := loaded.value.(lastUsed := Some(At(now)));
      assert plan.files[agent] == Parsed(r);
    }
  }
}

=== FILE: ordering.dfy ===
/** Python's ordering of `str` values (lexicographic by code point) and `sorted(xs, key=...)`,
    which the directory tree view and the session fingerprint both rely on. */
module Ordering {

  /** `a < b` on Python strings. */
  predicate StrLess(a: string, b: string)
    decreases |a|
  {
    if a == [] then b != []
    else if b == [] then false
    else a[0] < b[0] || (a[0] == b[0] && StrLess(a[1..], b[1..]))
  }

  predicate StrLe(a: string, b: string) {
    a == b || StrLess(a, b)
  }

  lemma {:induction false} StrLessIrreflexive(a: string)
    ensures !StrLess(a, a)
    decreases |a|
  {
    if a != [] {
      StrLessIrreflexive(a[1..]);
    }
  }

  lemma {:induction false} StrLessTransitive(a: string, b: string, c: string)
    requires StrLess(a, b) && StrLess(b, c)
    ensures StrLess(a, c)
    decreases |a|
  {
    if a != [] && b != [] && c != [] && a[0] == b[0] == c[0] {
      StrLessTransitive(a[1..], b[1..], c[1..]);
    }
  }

  lemma {:induction false} StrLessTotal(a: string, b: string)
    ensures a == b || StrLess(a, b) || StrLess(b, a)
    decreases |a|
  {
    if a != [] && b != [] && a[0] == b[0] {
      StrLessTotal(a[1..], b[1..]);
      if a[1..] == b[1..] {
        assert a == [a[0]] + a[1..] && b == [b[0]] + b[1..];
      }
    }
  }

  lemma {:induction false} StrLessAsymmetric(a: string, b: string)
    requires StrLess(a, b)
    ensures !StrLess(b, a)
  {
    if StrLess(b, a) {
      StrLessTransitive(a, b, a);
      StrLessIrreflexive(a);
    }
  }

  lemma StrLeTransitive(a: string, b: string, c: string)
    requires StrLe(a, b) && StrLe(b, c)
    ensures StrLe(a, c)
  {
    if a != b && b != c {
      StrLessTransitive(a, b, c);
    }
  }

  lemma StrLeAntisymmetric(a: string, b: string)
    requires StrLe(a, b) && StrLe(b, a)
    ensures a == b
  {
    if a != b {
      StrLessAsymmetric(a, b);
    }
  }

  // ---------------------------------------------------------------------------
  // sorted(xs, key=key)

  predicate SortedBy<T>(s: seq<T>, key: T -> string) {
    forall i, j :: 0 <= i < j < |s| ==> StrLe(key(s[i]), key(s[j]))
  }

  /** Inserts `x` in front of the first element whose key is not smaller, so elements with
      equal keys keep their order. */
  function InsertBy<T>(x: T, s: seq<T>, key: T -> string): (r: seq<T>)
    requires SortedBy(s, key)
    ensures multiset(r) == multiset(s) + multiset{x}
    ensures SortedBy(r, key)
  {
    if s == [] then [x]
    else if StrLe(key(x), key(s[0])) then
      InsertFrontSorted(x, s, key);
      [x] + s
    else
      var tail := InsertBy(x, s[1..], key);
      InsertAfterSmaller(x, s, tail, key);
      assert s == [s[0]] + s[1..];
      [s[0]] + tail
  }

  lemma InsertFrontSorted<T>(x: T, s: seq<T>, key: T -> string)
    requires s != [] && SortedBy(s, key) && StrLe(key(x), key(s[0]))
    ensures SortedBy([x] + s, key)
  {
    var r := [x] + s;
    forall i, j | 0 <= i < j < |r|
      ensures StrLe(key(r[i]), key(r[j]))
    {
      if i == 0 {
        StrLeTransitive(key(x), key(s[0]), key(s[j - 1]));
      }
    }
  }

  lemma InsertAfterSmaller<T>(x: T, s: seq<T>, tail: seq<T>, key: T -> string)
    requires s != [] && SortedBy(s, key) && !StrLe(key(x), key(s[0]))
    requires multiset(tail) == multiset(s[1..]) + multiset{x} && SortedBy(tail, key)
    ensures SortedBy([s[0]] + tail, key)
  {
    StrLessTotal(key(x), key(s[0]));
    var r := [s[0]] + tail;
    forall i, j | 0 <= i < j < |r|
      ensures StrLe(key(r[i]), key(r[j]))
    {
      if i == 0 {
        var e := tail[j - 1];
        assert e in multiset(tail);
        if e != x {
          assert e in multiset(s[1..]);
          var k :| 0 <= k < |s[1..]| && s[1..][k] == e;
          assert s[k + 1] == e;
        }
      }
    }
  }

  /** Python's `sorted(s, key=key)`: a stable insertion sort. */
  function SortBy<T>(s: seq<T>, key: T -> string): (r: seq<T>)
    ensures multiset(r) == multiset(s)
    ensures SortedBy(r, key)
  {
    if s == [] then []
    else
      assert s == [s[0]] + s[1..];
      InsertBy(s[0], SortBy(s[1..], key), key)
  }

  /** Elements that share a key are the same element (true for the identity key, and for a
      key that is unique within the collection). */
  ghost predicate KeyDetermines<T>(s: seq<T>, key: T -> string) {
    forall i, j :: 0 <= i < |s| && 0 <= j < |s| && key(s[i]) == key(s[j]) ==> s[i] == s[j]
  }

  lemma MultisetTail<T>(a: seq<T>, b: seq<T>)
    requires a != [] && b != [] && a[0] == b[0] && multiset(a) == multiset(b)
    ensures multiset(a[1..]) == multiset(b[1..])
  {
    assert a == [a[0]] + a[1..] && b == [b[0]] + b[1..];
    assert multiset(a[1..]) == multiset(a) - multiset{a[0]};
    assert multiset(b[1..]) == multiset(b) - multiset{b[0]};
  }

  lemma SortedHeads<T>(a: seq<T>, b: seq<T>, key: T -> string)
    requires a != [] && SortedBy(a, key) && SortedBy(b, key)
    requires multiset(a) == multiset(b)
    requires KeyDetermines(a, key)
    ensures b != [] && a[0] == b[0]
  {
    assert a[0] in multiset(b);
    assert b[0] in multiset(a);
    var i :| 0 <= i < |a| && a[i] == b[0];
    var j :| 0 <= j < |b| && b[j] == a[0];
    assert StrLe(key(a[0]), key(a[i]));
    assert StrLe(key(b[0]), key(b[j]));
    StrLeAntisymmetric(key(a[0]), key(b[0]));
  }

  /** There is only one sorted arrangement of a collection whose elements are determined by
      their keys. */
  lemma {:induction false} SortedUnique<T>(a: seq<T>, b: seq<T>, key: T -> string)
    requires SortedBy(a, key) && SortedBy(b, key)
    requires multiset(a) == multiset(b)
    requires KeyDetermines(a, key)
    ensures a == b
    decreases |a|
  {
    if a == [] {
      assert |multiset(b)| == 0;
    } else {
      SortedHeads(a, b, key);
      MultisetTail(a, b);
      SortedUnique(a[1..], b[1..], key);
      assert a == [a[0]] + a[1..] && b == [b[0]] + b[1..];
    }
  }

  /** Sorting forgets the original order: permutations of such a collection sort alike. */
  lemma SortPermutation<T>(s: seq<T>, t: seq<T>, key: T -> string)
    requires multiset(s) == multiset(t)
    requires KeyDetermines(s, key)
    ensures SortBy(s, key) == SortBy(t, key)
  {
    var a := SortBy(s, key);
    forall i, j | 0 <= i < |a| && 0 <= j < |a| && key(a[i]) == key(a[j])
      ensures a[i] == a[j]
    {
      assert a[i] in multiset(s) && a[j] in multiset(s);
      var p :| 0 <= p < |s| && s[p] == a[i];
      var q :| 0 <= q < |s| && s[q] == a[j];
    }
    SortedUnique(a, SortBy(t, key), key);
  }

  function Identity(x: string): string {
    x
  }
}

=== FILE: persistence.dfy ===
/** Persisted CLI sessions (`libs/ptc-cli/ptc_cli/agent/persistence.py`): one small record
    per agent naming the sandbox to reconnect to and the hash of the configuration it was
    made for. The session files are a map from agent name to file; times are whole seconds
    since the epoch in UTC; the SHA-256 digest of the canonical configuration is a given
    function. */
module Persistence {
  import opened Text
  import opened PtcConfig
  import Ordering
  import AgentConfiguration

  /** `SESSION_MAX_AGE_HOURS`, and the same age in seconds. */
  const SessionMaxAgeHours: int := 24
  const SessionMaxAgeSeconds: int := SessionMaxAgeHours * 3600

  /** A timestamp as stored: one `datetime.fromisoformat` accepts, or text it rejects. */
  datatype Stamp = At(seconds: int) | Malformed(text: string)

  /** The fields of a session record; `None` is a field the JSON object lacks. */
  datatype Record = Record(sandboxId: Option<string>, configHash: Option<string>,
                           createdAt: Option<Stamp>, lastUsed: Option<Stamp>)

  /** A session file: JSON that does not parse, or a parsed object. */
  datatype SessionFile = Unparseable | Parsed(record: Record)

  /** `data.get(key)` is truthy. */
  predicate Present(field: Option<string>) {
    field.Some? && field.value != ""
  }

  /** The record `save_persisted_session` writes at time `now`. */
  function SavedRecord(sandboxId: string, configHash: string, now: int): (r: Record)
    ensures r.sandboxId == Some(sandboxId) && r.configHash == Some(configHash)
    ensures r.createdAt == r.lastUsed == Some(At(now))
    ensures sandboxId != "" && configHash != "" ==> LoadDecision(Some(Parsed(r)), now) == LoadOutcome(Some(r), false)
  {
    Record(Some(sandboxId), Some(configHash), Some(At(now)), Some(At(now)))
  }

  /** What loading finds, and whether it deletes the file. */
  datatype LoadOutcome = LoadOutcome(session: Option<Record>, delete: bool)

  /** `load_persisted_session` on the agent's file (`None` when there is none) at time `now`:
      a record lacking its sandbox id or config hash is ignored; a file that does not parse,
      a malformed last-used time or one more than 24 hours ago deletes the file. */
  function LoadDecision(file: Option<SessionFile>, now: int): (o: LoadOutcome)
    ensures o.session.Some? ==> file == Some(Parsed(o.session.value)) && !o.delete
    ensures o.session.Some? ==> Present(o.session.value.sandboxId) && Present(o.session.value.configHash)
    ensures o.delete ==> o.session.None? && file.Some?
    ensures file.None? ==> o == LoadOutcome(None, false)
    ensures file == Some(Unparseable) ==> o == LoadOutcome(None, true)
    ensures file.Some? && file.value.Parsed? ==>
      var r := file.value.record;
      && (!Present(r.sandboxId) || !Present(r.configHash) ==> o == LoadOutcome(None, false))
      && (Present(r.sandboxId) && Present(r.configHash) ==>
            && (r.lastUsed.None? ==> o == LoadOutcome(Some(r), false))
            && (r.lastUsed.Some? && r.lastUsed.value.Malformed? ==> o == LoadOutcome(None, true))
            && (r.lastUsed.Some? && r.lastUsed.value.At? ==>
                  && (o.delete <==> now - r.lastUsed.value.seconds > SessionMaxAgeSeconds)
                  && (o.session.Some? <==> !o.delete)))
  {
    match file
    case None => LoadOutcome(None, false)
    case Some(Unparseable) => LoadOutcome(None, true)
    case Some(Parsed(r)) =>
      if !Present(r.sandboxId) || !Present(r.configHash) then LoadOutcome(None, false)
      else if r.lastUsed.None? then LoadOutcome(Some(r), false)
      else
        match r.lastUsed.value
        case Malformed(_) => LoadOutcome(None, true)
        case At(t) =>
          if now - t > SessionMaxAgeSeconds then LoadOutcome(None, true) else LoadOutcome(Some(r), false)
  }

  /** A loaded session was used at most 24 hours ago. */
  lemma LoadedSessionIsRecent(file: Option<SessionFile>, now: int)
    requires LoadDecision(file, now).session.Some?
    ensures var r := LoadDecision(file, now).session.value;
      r.lastUsed.None? || (r.lastUsed.value.At? && now - r.lastUsed.value.seconds <= SessionMaxAgeSeconds)
  {
  }

  /** A saved session loads back as saved for exactly 24 hours; one second later it is gone
      and its file deleted. A save with an empty id or hash never loads. */
  lemma SaveThenLoad(sandboxId: string, configHash: string, saved: int, now: int)
    ensures var o := LoadDecision(Some(Parsed(SavedRecord(sandboxId, configHash, saved))), now);
      && (o.session.Some? <==> sandboxId != "" && configHash != "" && now <= saved + 24 * 3600)
      && (o.session.Some? ==> o.session.value == SavedRecord(sandboxId, configHash, saved))
      && (o.delete <==> sandboxId != "" && configHash != "" && now > saved + 24 * 3600)
  {
  }

  /** The files after loading. */
  function AfterLoad(files: map<string, SessionFile>, agent: string, now: int): (r: map<string, SessionFile>)
    ensures r == files || r == files - {agent}
    ensures agent !in r <==> agent !in files || LoadDecision(Some(files[agent]), now).delete
  {
    var file := if agent in files then Some(files[agent]) else None;
    if LoadDecision(file, now).delete then files - {agent} else files
  }

  /** Once loading finds nothing, it keeps finding nothing, however much later it is asked
      again: only a save brings the session back. */
  lemma NothingStaysNothing(files: map<string, SessionFile>, agent: string, now: int, later: int)
    requires now <= later
    requires LoadDecision(if agent in files then Some(files[agent]) else None, now).session.None?
    ensures var after := AfterLoad(files, agent, now);
      LoadDecision(if agent in after then Some(after[agent]) else None, later).session.None?
  {
  }

  /** The session files of every agent. */
  class SessionStore {
    var files: map<string, SessionFile>

    constructor(files: map<string, SessionFile>)
      ensures this.files == files
    {
      this.files := files;
    }

    /** `load_persisted_session`. */
    method Load(agent: string, now: int) returns (session: Option<Record>)
      modifies this
      ensures session == LoadDecision(if agent in old(files) then Some(old(files)[agent]) else None, now).session
      ensures files == AfterLoad(old(files), agent, now)
    {
      if agent !in files {
        return None;
      }
      match files[agent]
      case Unparseable =>
        files := files - {agent};
        return None;
      case Parsed(data) =>
        if !Present(data.sandboxId) || !Present(data.configHash) {
          return None;
        }
        if data.lastUsed.Some? {
          match data.lastUsed.value
          case Malformed(_) =>
            files := files - {agent};
            return None;
          case At(lastUsed) =>
            if now - lastUsed > SessionMaxAgeSeconds {
              files := files - {agent};
              return None;
            }
        }
        return Some(data);
    }

    /** `save_persisted_session`: the agent's file holds the new record, whatever it held. */
    method Save(agent: string, sandboxId: string, configHash: string, now: int)
      modifies this
      ensures files == old(files)[agent := Parsed(SavedRecord(sandboxId, configHash, now))]
    {
      files := files[agent := Parsed(SavedRecord(sandboxId, configHash, now))];
    }

    /** `update_session_last_used`: only the last-used time of a readable record changes;
        a missing or unreadable file is left alone. */
    method UpdateLastUsed(agent: string, now: int)
      modifies this
      ensures agent in old(files) && old(files)[agent].Parsed? ==>
        files == old(files)[agent := Parsed(old(files)[agent].record.(lastUsed := Some(At(now))))]
      ensures !(agent in old(files) && old(files)[agent].Parsed?) ==> files == old(files)
    {
      if agent !in files {
        return;
      }
      match files[agent]
      case Unparseable =>
      case Parsed(data) =>
        files := files[agent := Parsed(data.(lastUsed := Some(At(now))))];
    }

    /** `delete_persisted_session`: removes the agent's file if there is one. */
    method Delete(agent: string)
      modifies this
      ensures files == old(files) - {agent}
    {
      if agent in files {
        files := files - {agent};
      }
    }
  }

  /** Deleting twice is deleting once. */
  method DeleteTwice(store: SessionStore, agent: string)
    modifies store
    ensures store.files == old(store.files) - {agent}
  {
    store.Delete(agent);
    store.Delete(agent);
  }

  /** A session that has just been refreshed loads back, refreshed, for another 24 hours. */
  lemma RefreshedSessionLoads(r: Record, refreshed: int, now: int)
    requires Present(r.sandboxId) && Present(r.configHash)
    requires refreshed <= now <= refreshed + SessionMaxAgeSeconds
    ensures LoadDecision(Some(Parsed(r.(lastUsed := Some(At(refreshed))))), now)
              == LoadOutcome(Some(r.(lastUsed := Some(At(refreshed)))), false)
  {
  }

  // ---------------------------------------------------------------------------
  // get_session_config_hash

  /** The fields of one MCP server that the hash covers. */
  datatype ServerData = ServerData(name: string, enabled: bool, transport: Transport,
                                   command: Option<string>, args: seq<string>)

  /** The data hashed: four Daytona fields and the servers sorted by name. */
  datatype ConfigData = ConfigData(daytonaBaseUrl: string, pythonVersion: string, snapshotEnabled: bool,
                                   snapshotName: Option<string>, mcpServers: seq<ServerData>)

  function ServerDataOf(s: MCPServerConfig): ServerData {
    ServerData(s.name, s.enabled, s.transport, s.command, s.args)
  }

  function ServersData(servers: seq<MCPServerConfig>): (d: seq<ServerData>)
    ensures |d| == |servers| && forall k :: 0 <= k < |d| ==> d[k] == ServerDataOf(servers[k])
  {
    seq(|servers|, k requires 0 <= k < |servers| => ServerDataOf(servers[k]))
  }

  function NameOf(d: ServerData): string {
    d.name
  }

  function CanonicalData(c: CoreConfig): (d: ConfigData)
    ensures Ordering.SortedBy(d.mcpServers, NameOf)
    ensures multiset(d.mcpServers) == multiset(ServersData(c.mcp.servers))
  {
    ConfigData(c.daytona.baseUrl, c.daytona.pythonVersion, c.daytona.snapshotEnabled, c.daytona.snapshotName,
               Ordering.SortBy(ServersData(c.mcp.servers), NameOf))
  }

  /** The first eight characters of the digest (fewer if it is shorter). */
  function SessionConfigHash(config: AgentConfiguration.AgentConfig, digest: ConfigData -> string): (h: string)
    ensures var full := digest(CanonicalData(AgentConfiguration.ToCoreConfig(config)));
      |h| == (if |full| < 8 then |full| else 8) && h == full[..|h|]
  {
    var full := digest(CanonicalData(AgentConfiguration.ToCoreConfig(config)));
    if |full| <= 8 then full else full[..8]
  }

  predicate DistinctNames(servers: seq<MCPServerConfig>) {
    forall i, j :: 0 <= i < |servers| && 0 <= j < |servers| && servers[i].name == servers[j].name ==> i == j
  }

  /** Taking out the element at `j` leaves the rest of the multiset. */
  lemma MultisetSplit<T>(s: seq<T>, j: int)
    requires 0 <= j < |s|
    ensures multiset(s) == multiset{s[j]} + multiset(s[..j] + s[j + 1..])
  {
    assert s == s[..j] + [s[j]] + s[j + 1..];
    assert multiset(s) == multiset(s[..j]) + multiset{s[j]} + multiset(s[j + 1..]);
  }

  lemma ServersDataSplit(b: seq<MCPServerConfig>, j: int)
    requires 0 <= j < |b|
    ensures multiset(ServersData(b)) == multiset{ServerDataOf(b[j])} + multiset(ServersData(b[..j] + b[j + 1..]))
  {
    var d := ServersData(b);
    assert ServersData(b[..j] + b[j + 1..]) == d[..j] + d[j + 1..];
    MultisetSplit(d, j);
  }

  lemma ServersDataCons(a: seq<MCPServerConfig>)
    requires a != []
    ensures multiset(ServersData(a)) == multiset{ServerDataOf(a[0])} + multiset(ServersData(a[1..]))
  {
    var d := ServersData(a);
    assert d == [d[0]] + d[1..];
    assert d[1..] == ServersData(a[1..]);
  }

  /** The same servers in another order give the same hashed data. */
  lemma {:induction false} ServersDataPermutation(a: seq<MCPServerConfig>, b: seq<MCPServerConfig>)
    requires multiset(a) == multiset(b)
    ensures multiset(ServersData(a)) == multiset(ServersData(b))
    decreases |a|
  {
    if a == [] {
      assert |multiset(b)| == 0;
      assert b == [];
    } else {
      assert a[0] in multiset(b);
      var j :| 0 <= j < |b| && b[j] == a[0];
      RestSame(a, b, j);
      ServersDataPermutation(a[1..], b[..j] + b[j + 1..]);
      PermutationStep(a, b, j);
    }
  }

  lemma RestSame(a: seq<MCPServerConfig>, b: seq<MCPServerConfig>, j: int)
    requires multiset(a) == multiset(b) && a != [] && 0 <= j < |b| && b[j] == a[0]
    ensures multiset(a[1..]) == multiset(b[..j] + b[j + 1..])
  {
    MultisetSplit(b, j);
    MultisetCons(a);
    MultisetCancel(a[0], multiset(a[1..]), multiset(b[..j] + b[j + 1..]));
  }

  lemma MultisetCons<T>(s: seq<T>)
    requires s != []
    ensures multiset(s) == multiset{s[0]} + multiset(s[1..])
  {
    assert s == [s[0]] + s[1..];
  }

  lemma MultisetCancel<T>(x: T, p: multiset<T>, q: multiset<T>)
    requires multiset{x} + p == multiset{x} + q
    ensures p == q
  {
    assert forall y :: p[y] == (multiset{x} + p)[y] - multiset{x}[y];
    assert forall y :: q[y] == (multiset{x} + q)[y] - multiset{x}[y];
  }

  lemma PermutationStep(a: seq<MCPServerConfig>, b: seq<MCPServerConfig>, j: int)
    requires a != [] && 0 <= j < |b| && b[j] == a[0]
    requires multiset(ServersData(a[1..])) == multiset(ServersData(b[..j] + b[j + 1..]))
    ensures multiset(ServersData(a)) == multiset(ServersData(b))
  {
    ServersDataSplit(b, j);
    ServersDataCons(a);
  }

  /** Reordering servers with distinct names leaves the hash unchanged. */
  lemma HashIgnoresServerOrder(x: AgentConfiguration.AgentConfig, y: AgentConfiguration.AgentConfig,
                               digest: ConfigData -> string)
    requires x.daytona == y.daytona
    requires multiset(x.mcp.servers) == multiset(y.mcp.servers) && DistinctNames(x.mcp.servers)
    ensures SessionConfigHash(x, digest) == SessionConfigHash(y, digest)
  {
    var a := ServersData(x.mcp.servers);
    ServersDataPermutation(x.mcp.servers, y.mcp.servers);
    assert Ordering.KeyDetermines(a, NameOf);
    Ordering.SortPermutation(a, ServersData(y.mcp.servers), NameOf);
  }

  /** A server's description, instruction, environment, URL and exposure mode do not enter
      the hash, nor does anything outside the Daytona connection and the MCP servers. */
  lemma HashIgnoresOtherFields(x: AgentConfiguration.AgentConfig, y: AgentConfiguration.AgentConfig,
                               digest: ConfigData -> string)
    requires x.daytona.baseUrl == y.daytona.baseUrl && x.daytona.pythonVersion == y.daytona.pythonVersion
    requires x.daytona.snapshotEnabled == y.daytona.snapshotEnabled && x.daytona.snapshotName == y.daytona.snapshotName
    requires |x.mcp.servers| == |y.mcp.servers|
    requires forall k :: 0 <= k < |x.mcp.servers| ==> ServerDataOf(x.mcp.servers[k]) == ServerDataOf(y.mcp.servers[k])
    ensures SessionConfigHash(x, digest) == SessionConfigHash(y, digest)
  {
    assert ServersData(x.mcp.servers) == ServersData(y.mcp.servers);
  }
}

=== FILE: prompt.dfy ===
/** The prompt's key handling (`libs/ptc-cli/ptc_cli/input/prompt.py`): Ctrl+C clears the
    input or counts towards a triple press that exits, a timer and the bottom toolbar expire
    the exit hint, the toolbar reports the modes and hints, and Enter submits only a
    non-blank input with no completion menu open. Times are integer milliseconds. */
module Prompt {
  import opened Text
  import opened CliState

  /** `EXIT_CONFIRM_WINDOW`, three seconds. */
  const ExitConfirmWindow: int := 3000

  /** `CTRL_C_EXIT_COUNT`. */
  const CtrlCExitCount: int := 3

  /** A completion menu: the highlighted completion, if any, and the completions offered. */
  datatype CompletionMenu = CompletionMenu(current: Option<string>, completions: seq<string>)

  /** The input buffer of the prompt. */
  class InputBuffer {
    var text: string
    var menu: Option<CompletionMenu>

    constructor(text: string)
      ensures this.text == text && menu == None
    {
      this.text := text;
      menu := None;
    }
  }

  // ---------------------------------------------------------------------------
  // The triple Ctrl+C

  /** The part of the session state the exit hint lives in. */
  datatype ExitHint = ExitHint(count: int, until: Option<int>)

  const Idle: ExitHint := ExitHint(0, None)

  function HintOf(s: Fields): ExitHint {
    ExitHint(s.ctrlCCount, s.exitHintUntil)
  }

  /** No hint is showing, or its window has passed. */
  predicate Expired(h: ExitHint, now: int) {
    h.until.None? || now >= h.until.value
  }

  /** A Ctrl+C on an empty input: the count restarts when the window has passed, then counts
      this press, and the window runs again from now. */
  function Press(h: ExitHint, now: int): ExitHint {
    ExitHint((if Expired(h, now) then 0 else h.count) + 1, Some(now + ExitConfirmWindow))
  }

  /** Ctrl+C: a non-empty input is cleared and the count forgotten; on an empty input the
      press is counted and the application exits on the third. Below three, a timer is set
      to expire the hint when the window closes. */
  method CtrlC(state: SessionState, buffer: InputBuffer, now: int) returns (exit: bool)
    modifies state, buffer
    ensures old(buffer.text) != "" ==>
      && !exit && buffer.text == "" && buffer.menu == None
      && state.State() == old(state.State()).(ctrlCCount := 0, exitHintUntil := None, exitHintHandle := None)
    ensures old(buffer.text) == "" ==>
      var h := Press(HintOf(old(state.State())), now);
      && buffer.text == old(buffer.text) && buffer.menu == old(buffer.menu)
      && exit == (h.count >= CtrlCExitCount)
      && state.State() == old(state.State()).(ctrlCCount := h.count, exitHintUntil := h.until,
                                               exitHintHandle := if exit then None else Some(Timer(now + ExitConfirmWindow)))
  {
    if buffer.text != "" {
      buffer.text := "";
      buffer.menu := None;
      ForgetPresses(state);
      exit := false;
    } else {
      exit := CountPress(state, now);
    }
  }

  /** The input was cleared: the count and the hint go, and the timer is cancelled. */
  method ForgetPresses(state: SessionState)
    modifies state
    ensures state.State() == old(state.State()).(ctrlCCount := 0, exitHintUntil := None, exitHintHandle := None)
  {
    state.ctrlCCount := 0;
    state.exitHintUntil := None;
    state.exitHintHandle := None;
  }

  /** A press on an empty input. */
  method CountPress(state: SessionState, now: int) returns (exit: bool)
    modifies state
    ensures var h := Press(HintOf(old(state.State())), now);
      && exit == (h.count >= CtrlCExitCount)
      && state.State() == old(state.State()).(ctrlCCount := h.count, exitHintUntil := h.until,
                                               exitHintHandle := if exit then None else Some(Timer(now + ExitConfirmWindow)))
  {
    if state.exitHintUntil.None? || now >= state.exitHintUntil.value {
      state.ctrlCCount := 0;
    }
    state.ctrlCCount := state.ctrlCCount + 1;
    state.exitHintUntil := Some(now + ExitConfirmWindow);
    if state.ctrlCCount >= CtrlCExitCount {
      state.exitHintHandle := None;
      exit := true;
    } else {
      state.exitHintHandle := Some(Timer(now + ExitConfirmWindow));
      exit := false;
    }
  }

  /** The timer's callback: once the window has closed, the hint and the count are cleared. */
  method ClearHint(state: SessionState, now: int)
    modifies state
    ensures old(state.exitHintUntil).Some? && now >= old(state.exitHintUntil).value ==>
      state.State() == old(state.State()).(exitHintUntil := None, exitHintHandle := None, ctrlCCount := 0)
    ensures !(old(state.exitHintUntil).Some? && now >= old(state.exitHintUntil).value) ==>
      state.State() == old(state.State())
  {
    if state.exitHintUntil.Some? && now >= state.exitHintUntil.value {
      state.exitHintUntil := None;
      state.exitHintHandle := None;
      state.ctrlCCount := 0;
    }
  }

  /** The hint between presses: fewer than three presses counted, and a window open whenever
      one is. */
  predicate HintValid(h: ExitHint) {
    0 <= h.count < CtrlCExitCount && (h.count > 0 ==> h.until.Some?)
  }

  /** A press that does not exit keeps the hint valid. */
  lemma PressKeepsHintValid(h: ExitHint, now: int)
    requires HintValid(h) && Press(h, now).count < CtrlCExitCount
    ensures HintValid(Press(h, now))
    ensures Press(h, now).count >= 1
  {
  }

  /** The presses of `times`, one after another, starting from `h`. */
  function Presses(h: ExitHint, times: seq<int>): ExitHint
    decreases |times|
  {
    if times == [] then h else Press(Presses(h, times[..|times| - 1]), times[|times| - 1])
  }

  /** How many of the last presses follow one another within the window. */
  function Streak(times: seq<int>): nat
    decreases |times|
  {
    if |times| == 0 then 0
    else if |times| == 1 then 1
    else if times[|times| - 1] < times[|times| - 2] + ExitConfirmWindow then Streak(times[..|times| - 1]) + 1
    else 1
  }

  /** From a quiet prompt, the count after a run of presses is the length of the streak of
      presses each within three seconds of the one before, and the window runs from the last
      press. */
  lemma {:induction false} PressesCountStreak(times: seq<int>)
    requires times != []
    ensures Presses(Idle, times) == ExitHint(Streak(times), Some(times[|times| - 1] + ExitConfirmWindow))
    decreases |times|
  {
    var init := times[..|times| - 1];
    if |times| > 1 {
      PressesCountStreak(init);
      assert init[|init| - 1] == times[|times| - 2];
    }
  }

  /** The application exits on the third press exactly when each of the three came within
      three seconds of the one before; the first two never exit. */
  lemma TriplePressExits(t1: int, t2: int, t3: int)
    ensures Presses(Idle, [t1]).count < CtrlCExitCount
    ensures Presses(Idle, [t1, t2]).count < CtrlCExitCount
    ensures Presses(Idle, [t1, t2, t3]).count >= CtrlCExitCount <==>
              t2 < t1 + ExitConfirmWindow && t3 < t2 + ExitConfirmWindow
  {
    PressesCountStreak([t1]);
    PressesCountStreak([t1, t2]);
    PressesCountStreak([t1, t2, t3]);
    assert [t1, t2][..1] == [t1];
    assert [t1, t2, t3][..2] == [t1, t2];
  }

  /** What the expiry timer and the toolbar do to the hint: once the window has passed (or,
      for the toolbar, once no press is counted) the hint and count are cleared. */
  function Cleared(h: ExitHint, now: int, toolbar: bool): ExitHint {
    if h.until.Some? && (now >= h.until.value || (toolbar && h.count <= 0)) then Idle else h
  }

  /** Expiring the hint never changes what the next press does. */
  lemma ClearingDoesNotChangeNextPress(h: ExitHint, t: int, now: int, toolbar: bool)
    requires t <= now && h.count >= 0
    ensures Press(Cleared(h, t, toolbar), now) == Press(h, now)
  {
  }

  // ---------------------------------------------------------------------------
  // The bottom toolbar

  function ExitHintText(remaining: int): string {
    if remaining == 1 then " Ctrl+C 1 more time to exit "
    else " Ctrl+C " + IntToString(remaining) + " more times to exit "
  }

  function BashModeParts(text: Option<string>): seq<(string, string)> {
    if text.Some? && StartsWith(text.value, "!") then [("bg:#ff1493 fg:#ffffff bold", " BASH MODE "), ("", " | ")]
    else []
  }

  function PlanModePart(planMode: bool): (string, string) {
    if planMode then ("class:toolbar-cyan", "plan mode ON (Shift+Tab to toggle)")
    else ("class:toolbar-dim", "plan mode OFF (Shift+Tab to toggle)")
  }

  /** The revision hint shows while its time has not come. */
  function EscParts(escHintUntil: Option<int>, now: int): seq<(string, string)> {
    if escHintUntil.Some? && now < escHintUntil.value then [("", " | "), ("class:toolbar-exit", " Esc again to revise ")]
    else []
  }

  /** The exit hint shows while its window is open and a press is counted. */
  predicate ExitHintShowing(h: ExitHint, now: int) {
    h.until.Some? && now < h.until.value && h.count > 0
  }

  function ExitParts(h: ExitHint, now: int): seq<(string, string)> {
    if ExitHintShowing(h, now) then [("", " | "), ("class:toolbar-exit", ExitHintText(CtrlCExitCount - h.count))]
    else []
  }

  /** The toolbar for a session whose input is `text` (`None` before the prompt exists). */
  function ToolbarParts(text: Option<string>, s: Fields, now: int): seq<(string, string)> {
    BashModeParts(text) + [PlanModePart(s.planMode)] + EscParts(s.escHintUntil, now) + ExitParts(HintOf(s), now)
  }

  /** The toolbar function: it builds the parts and drops the hints whose time is over. */
  method Toolbar(state: SessionState, text: Option<string>, now: int) returns (parts: seq<(string, string)>)
    modifies state
    ensures parts == ToolbarParts(text, old(state.State()), now)
    ensures var escExpired := old(state.escHintUntil).Some? && now >= old(state.escHintUntil).value;
      var h := Cleared(HintOf(old(state.State())), now, true);
      state.State() == old(state.State()).(escHintUntil := if escExpired then None else old(state.escHintUntil),
                                           ctrlCCount := h.count, exitHintUntil := h.until)
  {
    parts := ModeParts(text, state.planMode);
    ghost var before := state.State();
    var escParts := EscHint(state, now);
    assert HintOf(state.State()) == HintOf(before);
    var exitParts := ExitHintPart(state, now);
    parts := parts + escParts + exitParts;
  }

  /** The bash-mode badge when the input starts with "!", then the plan-mode label. */
  method ModeParts(text: Option<string>, planMode: bool) returns (parts: seq<(string, string)>)
    ensures parts == BashModeParts(text) + [PlanModePart(planMode)]
  {
    parts := [];
    if text.Some? && StartsWith(text.value, "!") {
      parts := parts + [("bg:#ff1493 fg:#ffffff bold", " BASH MODE ")];
      parts := parts + [("", " | ")];
    }
    if planMode {
      parts := parts + [("class:toolbar-cyan", "plan mode ON (Shift+Tab to toggle)")];
    } else {
      parts := parts + [("class:toolbar-dim", "plan mode OFF (Shift+Tab to toggle)")];
    }
  }

  /** The revision hint: shown while its time has not come, dropped once it has. */
  method EscHint(state: SessionState, now: int) returns (parts: seq<(string, string)>)
    modifies state
    ensures parts == EscParts(old(state.escHintUntil), now)
    ensures var escExpired := old(state.escHintUntil).Some? && now >= old(state.escHintUntil).value;
      state.State() == old(state.State()).(escHintUntil := if escExpired then None else old(state.escHintUntil))
  {
    parts := [];
    var hintUntil := state.escHintUntil;
    if hintUntil.Some? {
      if now < hintUntil.value {
        parts := parts + [("", " | ")];
        parts := parts + [("class:toolbar-exit", " Esc again to revise ")];
      } else {
        state.escHintUntil := None;
      }
    }
  }

  /** The exit hint: shown while its window is open and a press is counted, otherwise the
      hint and the count are dropped. */
  method ExitHintPart(state: SessionState, now: int) returns (parts: seq<(string, string)>)
    modifies state
    ensures parts == ExitParts(HintOf(old(state.State())), now)
    ensures var h := Cleared(HintOf(old(state.State())), now, true);
      state.State() == old(state.State()).(ctrlCCount := h.count, exitHintUntil := h.until)
  {
    parts := [];
    var exitHintUntil := state.exitHintUntil;
    if exitHintUntil.Some? {
      if now < exitHintUntil.value && state.ctrlCCount > 0 {
        var remaining := CtrlCExitCount - state.ctrlCCount;
        parts := parts + [("", " | ")];
        if remaining == 1 {
          parts := parts + [("class:toolbar-exit", " Ctrl+C 1 more time to exit ")];
        } else {
          parts := parts + [("class:toolbar-exit", " Ctrl+C " + IntToString(remaining) + " more times to exit ")];
        }
      } else {
        state.exitHintUntil := None;
        state.ctrlCCount := 0;
      }
    }
  }

  /** The toolbar always carries exactly one plan-mode label, and it is the one for the
      current mode. */
  lemma ToolbarShowsPlanMode(text: Option<string>, s: Fields, now: int)
    ensures var parts := ToolbarParts(text, s, now);
      PlanModePart(s.planMode) in parts && PlanModePart(!s.planMode) !in parts
  {
    var b, e, x := BashModeParts(text), EscParts(s.escHintUntil, now), ExitParts(HintOf(s), now);
    var other := PlanModePart(!s.planMode);
    assert other !in b && other !in e && other !in x;
    assert ToolbarParts(text, s, now) == b + [PlanModePart(s.planMode)] + e + x;
    assert (b + [PlanModePart(s.planMode)] + e + x)[|b|] == PlanModePart(s.planMode);
  }

  /** The exit hint counts down: after one press it asks for two more presses, after two for
      one more; it is the toolbar's last part exactly while it shows. */
  lemma ExitHintCountsDown(text: Option<string>, s: Fields, now: int)
    requires HintValid(HintOf(s))
    ensures var parts := ToolbarParts(text, s, now);
      && (ExitHintShowing(HintOf(s), now) && s.ctrlCCount == 1 ==>
            parts[|parts| - 1] == ("class:toolbar-exit", " Ctrl+C 2 more times to exit "))
      && (ExitHintShowing(HintOf(s), now) && s.ctrlCCount == 2 ==>
            parts[|parts| - 1] == ("class:toolbar-exit", " Ctrl+C 1 more time to exit "))
      && (!ExitHintShowing(HintOf(s), now) ==> ExitParts(HintOf(s), now) == [])
  {
    if ExitHintShowing(HintOf(s), now) {
      ExitPartIsLast(text, s, now);
      TwoMoreTimes();
    }
  }

  /** While the exit hint shows, it is the toolbar's last part. */
  lemma ExitPartIsLast(text: Option<string>, s: Fields, now: int)
    requires ExitHintShowing(HintOf(s), now)
    ensures var parts := ToolbarParts(text, s, now);
      |parts| > 0 && parts[|parts| - 1] == ("class:toolbar-exit", ExitHintText(CtrlCExitCount - s.ctrlCCount))
  {
    var front := BashModeParts(text) + [PlanModePart(s.planMode)] + EscParts(s.escHintUntil, now);
    var e := ExitParts(HintOf(s), now);
    assert ToolbarParts(text, s, now) == front + e;
    assert (front + e)[|front + e| - 1] == e[1];
  }

  lemma TwoMoreTimes()
    ensures ExitHintText(2) == " Ctrl+C 2 more times to exit "
  {
    assert IntToString(2) == [DigitChar(2)] == "2";
    assert " Ctrl+C " + "2" + " more times to exit " == " Ctrl+C 2 more times to exit ";
  }

  // ---------------------------------------------------------------------------
  // Enter

  datatype EnterAction = ApplyCompletion(completion: string) | CloseMenu | Submit | DoNothing

  /** Enter with a completion menu open applies the highlighted completion, or the first
      when none is highlighted, or closes an empty menu; without a menu it submits a
      non-blank input and ignores a blank one. */
  function Enter(menu: Option<CompletionMenu>, text: string): (action: EnterAction)
    ensures action == Submit <==> menu.None? && Strip(text) != ""
    ensures action.ApplyCompletion? ==> menu.Some? && action.completion in menu.value.completions + (if menu.value.current.Some? then [menu.value.current.value] else [])
    ensures action == CloseMenu <==> menu.Some? && menu.value.current.None? && menu.value.completions == []
  {
    match menu
    case Some(m) =>
      if m.current.None? && m.completions != [] then ApplyCompletion(m.completions[0])
      else if m.current.Some? then ApplyCompletion(m.current.value)
      else CloseMenu
    case None =>
      if Strip(text) != "" then Submit else DoNothing
  }

  /** Only a non-blank input is ever submitted. */
  lemma BlankNeverSubmitted(menu: Option<CompletionMenu>, text: string)
    requires AllSpace(text)
    ensures Enter(menu, text) != Submit
  {
    StripBlank(text);
  }
}

=== FILE: ptcconfig.dfy ===
/** Core infrastructure configuration (src/ptc_core/config.py): the pydantic records with
    their defaults, the mapping from the parsed config.yaml to those records, and the
    credential check. */
module PtcConfig {
  import opened Text
  import opened ConfigLoader

  datatype DaytonaConfig = DaytonaConfig(
    apiKey: string,
    baseUrl: string,
    autoStopInterval: int,
    autoArchiveInterval: int,
    autoDeleteInterval: int,
    pythonVersion: string,
    snapshotEnabled: bool,
    snapshotName: Option<string>,
    snapshotAutoCreate: bool)

  datatype SecurityConfig = SecurityConfig(
    maxExecutionTime: int,
    maxCodeLength: int,
    maxFileSize: int,
    enableCodeValidation: bool,
    allowedImports: seq<string>,
    blockedPatterns: seq<string>)

  datatype Transport = Stdio | Sse | Http

  /** The two values pydantic admits for `tool_exposure_mode`. */
  datatype ExposureMode = Summary | Detailed {
    function Name(): string {
      match this
      case Summary => "summary"
      case Detailed => "detailed"
    }
  }

  datatype MCPServerConfig = MCPServerConfig(
    name: string,
    enabled: bool,
    description: string,
    instruction: string,
    transport: Transport,
    command: Option<string>,
    args: seq<string>,
    env: map<string, string>,
    url: Option<string>,
    toolExposureMode: Option<ExposureMode>)

  datatype MCPConfig = MCPConfig(
    servers: seq<MCPServerConfig>,
    toolDiscoveryEnabled: bool,
    lazyLoad: Option<bool>,
    cacheDuration: Option<int>,
    toolExposureMode: ExposureMode)

  datatype LoggingConfig = LoggingConfig(level: string, format: string, file: string)

  datatype FilesystemConfig = FilesystemConfig(
    workingDirectory: string,
    allowedDirectories: seq<string>,
    enablePathValidation: bool)

  datatype CoreConfig = CoreConfig(
    daytona: DaytonaConfig,
    security: SecurityConfig,
    mcp: MCPConfig,
    logging: LoggingConfig,
    filesystem: FilesystemConfig)

  const DefaultWorkingDirectory: string := "/home/daytona"
  const CoreSections: seq<string> := ["daytona", "security", "mcp", "logging", "filesystem"]

  /** A server entry that names only itself: every other field takes its default. */
  function DefaultServer(name: string): MCPServerConfig {
    MCPServerConfig(name, true, "", "", Stdio, None, [], map[], None, None)
  }

  // ---------------------------------------------------------------------------
  // Section readers (shared with the agent configuration, which reads the same sections)

  function DaytonaFromSection(d: Entries, apiKey: string): (r: Result<DaytonaConfig, Error>)
    ensures r.Ok? ==> r.value.apiKey == apiKey
    ensures r.Ok? && !HasKey(d, "snapshot_enabled") ==> r.value.snapshotEnabled
    ensures r.Ok? && !HasKey(d, "snapshot_name") ==> r.value.snapshotName == None
    ensures r.Ok? && !HasKey(d, "snapshot_auto_create") ==> r.value.snapshotAutoCreate
  {
    var baseUrl :- StrField(d, "base_url");
    var stop :- IntField(d, "auto_stop_interval");
    var archive :- IntField(d, "auto_archive_interval");
    var delete :- IntField(d, "auto_delete_interval");
    var python :- StrField(d, "python_version");
    var snapEnabled :- BoolFieldOr(d, "snapshot_enabled", true);
    var snapName :- OptStrField(d, "snapshot_name");
    var snapAuto :- BoolFieldOr(d, "snapshot_auto_create", true);
    Ok(DaytonaConfig(apiKey, baseUrl, stop, archive, delete, python, snapEnabled, snapName,
      snapAuto))
  }

  function SecurityFromSection(d: Entries): (r: Result<SecurityConfig, Error>)
    ensures r.Ok? ==> forall f :: f in SecurityRequiredFields ==> HasKey(d, f)
  {
    var maxTime :- IntField(d, "max_execution_time");
    var maxCode :- IntField(d, "max_code_length");
    var maxFile :- IntField(d, "max_file_size");
    var validate :- BoolField(d, "enable_code_validation");
    var imports :- StrListField(d, "allowed_imports");
    var blocked :- StrListField(d, "blocked_patterns");
    Ok(SecurityConfig(maxTime, maxCode, maxFile, validate, imports, blocked))
  }

  function TransportFrom(d: Entries): (r: Result<Transport, Error>)
    ensures !HasKey(d, "transport") ==> r == Ok(Stdio)
  {
    match Get<Value>(d, "transport")
    case None => Ok(Stdio)
    case Some(Str(t)) =>
      if t == "stdio" then Ok(Stdio)
      else if t == "sse" then Ok(Sse)
      else if t == "http" then Ok(Http)
      else Err(ValidationError("transport"))
    case Some(_) => Err(ValidationError("transport"))
  }

  function ModeFrom(v: Value, field: string): (r: Result<ExposureMode, Error>)
    ensures r.Ok? <==> v == Str("summary") || v == Str("detailed")
    ensures r.Ok? ==> v == Str(r.value.Name())
  {
    if v == Str("summary") then Ok(Summary)
    else if v == Str("detailed") then Ok(Detailed)
    else Err(ValidationError(field))
  }

  function StrMap(es: Entries, key: string): (r: Result<map<string, string>, Error>)
    ensures r.Ok? ==> forall k :: 0 <= k < |es| ==> es[k].0 in r.value
  {
    if es == [] then Ok(map[])
    else
      var last := es[|es| - 1];
      if !last.1.Str? then Err(ValidationError(key))
      else
        var m :- StrMap(es[..|es| - 1], key);
        assert forall k :: 0 <= k < |es| - 1 ==> es[k].0 == es[..|es| - 1][k].0;
        Ok(m[last.0 := last.1.s])
  }

  /** `d.get("tool_exposure_mode")` for a server: absent and `null` mean no override. */
  function OptModeFrom(d: Entries): (r: Result<Option<ExposureMode>, Error>)
    ensures !HasKey(d, "tool_exposure_mode") ==> r == Ok(None)
  {
    var v := Get(d, "tool_exposure_mode");
    if v.None? || v.value.Null? then Ok(None)
    else if v.value == Str("summary") then Ok(Some(Summary))
    else if v.value == Str("detailed") then Ok(Some(Detailed))
    else Err(ValidationError("tool_exposure_mode"))
  }

  /** `MCPServerConfig(**server)`: `name` is required; every other field has a default. */
  function ServerFromValue(v: Value): (r: Result<MCPServerConfig, Error>)
    ensures r.Ok? ==> v.Dict? && Get(v.entries, "name") == Some(Str(r.value.name))
    ensures !v.Dict? ==> r.Err? && r.error.TypeError?
    ensures v.Dict? && !HasKey(v.entries, "name") ==> r == Err(ValidationError("name"))
  {
    if !v.Dict? then Err(TypeError("argument after ** must be a mapping, not " + TypeName(v)))
    else
      var d := v.entries;
      var name :- RequiredStr(d, "name");
      var enabled :- BoolFieldOr(d, "enabled", true);
      var description :- StrFieldOr(d, "description", "");
      var instruction :- StrFieldOr(d, "instruction", "");
      var transport :- TransportFrom(d);
      var command :- OptStrField(d, "command");
      var args :- match Get<Value>(d, "args")
        case None => Ok([])
        case Some(List(vs)) => StrList(vs, "args")
        case Some(_) => Err(ValidationError("args"));
      var env :- match Get<Value>(d, "env")
        case None => Ok(map[])
        case Some(Dict(es)) => StrMap(es, "env")
        case Some(_) => Err(ValidationError("env"));
      var url :- OptStrField(d, "url");
      var mode :- OptModeFrom(d);
      Ok(MCPServerConfig(name, enabled, description, instruction, transport, command, args,
        env, url, mode))
  }

  /** `[MCPServerConfig(**s) for s in servers]`: one record per entry, in order. */
  function ServersFromValues(vs: seq<Value>): (r: Result<seq<MCPServerConfig>, Error>)
    ensures r.Ok? ==> |r.value| == |vs|
    ensures r.Ok? ==> forall k :: 0 <= k < |vs| ==> ServerFromValue(vs[k]) == Ok(r.value[k])
    ensures r.Err? ==> exists k :: 0 <= k < |vs| && ServerFromValue(vs[k]) == Err(r.error)
    ensures vs != [] && ServerFromValue(vs[0]).Err? ==> r == Err(ServerFromValue(vs[0]).error)
  {
    if vs == [] then Ok([])
    else
      var first :- ServerFromValue(vs[0]);
      var rest :- ServersFromValues(vs[1..]);
      Ok([first] + rest)
  }

  /** `[MCPServerConfig(**s) for s in servers]` on whatever value `servers` holds: a
      scalar is not iterable, and a non-empty mapping or string yields strings, which `**`
      rejects. */
  function ServersFrom(v: Value): (r: Result<seq<MCPServerConfig>, Error>)
    ensures NotIterable(v) ==> r.Err? && r.error.TypeError?
    ensures v.List? ==> r == ServersFromValues(v.items)
    ensures (v.Dict? || v.Str?) && !Truthy(v) ==> r == Ok([])
    ensures (v.Dict? || v.Str?) && Truthy(v) ==> r.Err? && r.error.TypeError?
  {
    var items :- Iterate(v);
    ServersFromValues(items)
  }

  function McpFromSection(d: Entries): (r: Result<MCPConfig, Error>)
    ensures r.Ok? ==> Get(d, "servers").Some? && ServersFrom(Get(d, "servers").value) == Ok(r.value.servers)
    ensures Get(d, "servers").Some? && ServersFrom(Get(d, "servers").value).Err? ==>
      r == Err(ServersFrom(Get(d, "servers").value).error)
    ensures r.Ok? && !HasKey(d, "lazy_load") ==> r.value.lazyLoad == Some(true)
    ensures r.Ok? && !HasKey(d, "cache_duration") ==> r.value.cacheDuration == None
    ensures r.Ok? && !HasKey(d, "tool_exposure_mode") ==> r.value.toolExposureMode == Summary
  {
    var servers :- match Get<Value>(d, "servers")
      case None => Err(KeyError("servers"))
      case Some(v) => ServersFrom(v);
    var discovery :- BoolField(d, "tool_discovery_enabled");
    var lazy :- match Get<Value>(d, "lazy_load")
      case None => Ok(Some(true))
      case Some(Null) => Ok(None)
      case Some(Bool(b)) => Ok(Some(b))
      case Some(_) => Err(ValidationError("lazy_load"));
    var cache :- match Get<Value>(d, "cache_duration")
      case None => Ok(None)
      case Some(Null) => Ok(None)
      case Some(Int(i)) => Ok(Some(i))
      case Some(_) => Err(ValidationError("cache_duration"));
    var mode :- match Get<Value>(d, "tool_exposure_mode")
      case None => Ok(Summary)
      case Some(m) => ModeFrom(m, "tool_exposure_mode");
    Ok(MCPConfig(servers, discovery, lazy, cache, mode))
  }

  function LoggingFromSection(d: Entries): (r: Result<LoggingConfig, Error>)
    ensures r.Ok? ==> forall f :: f in LoggingRequiredFields ==> HasKey(d, f)
  {
    var level :- StrField(d, "level");
    var format :- StrField(d, "format");
    var file :- StrField(d, "file");
    Ok(LoggingConfig(level, format, file))
  }

  /** Reads the filesystem section once its required field is known to be present. */
  function FilesystemFromSection(d: Entries): (r: Result<FilesystemConfig, Error>)
    ensures r.Ok? ==> r.value.workingDirectory == DefaultWorkingDirectory
    ensures r.Ok? && !HasKey(d, "enable_path_validation") ==> r.value.enablePathValidation
  {
    var dirs :- StrListField(d, "allowed_directories");
    var validation :- BoolFieldOr(d, "enable_path_validation", true);
    Ok(FilesystemConfig(DefaultWorkingDirectory, dirs, validation))
  }

  /** The filesystem check that `CoreConfig.load` writes out by hand. */
  function CheckFilesystemFields(d: Entries): (r: Result<(), Error>)
    ensures r.Ok? <==> HasKey(d, "allowed_directories")
  {
    var missing := MissingKeys(FilesystemRequiredFields, d);
    if missing != [] then Err(ValueError(FieldsMessage("filesystem", missing)))
    else
      assert "allowed_directories" !in missing;
      Ok(())
  }

  /** `CoreConfig.load`, with the environment as a map from variable names to values. */
  function Load(path: string, file: FileState, env: map<string, string>)
    : (r: Result<CoreConfig, Error>)
    ensures r.Ok? ==> file.Parsed? && file.doc.Dict?
    ensures r.Ok? ==> forall s :: s in CoreSections ==> HasKey(file.doc.entries, s)
    ensures r.Ok? ==> r.value.daytona.apiKey == EnvOr(env, "DAYTONA_API_KEY", "")
    ensures r.Ok? ==> r.value.filesystem.workingDirectory == DefaultWorkingDirectory
  {
    var top :- TopLevel(path, file);
    LoadSections(top, env)
  }

  /** The top-level mapping of the file, once it holds every section. */
  function TopLevel(path: string, file: FileState): (r: Result<Entries, Error>)
    ensures r.Ok? ==> file.Parsed? && file.doc.Dict? && r.value == file.doc.entries
    ensures r.Ok? ==> forall s :: s in CoreSections ==> HasKey(r.value, s)
    ensures file.Parsed? && Truthy(file.doc) ==> r == TopLevelSections(file.doc, CoreSections, "config.yaml")
  {
    var doc :- LoadYamlFile(path, file);
    TopLevelSections(doc, CoreSections, "config.yaml")
  }

  /** `os.getenv(name, default)`. */
  function EnvOr(env: map<string, string>, name: string, default: string): string {
    if name in env then env[name] else default
  }

  /** The section-by-section part of `CoreConfig.load`, once all sections are present. */
  function LoadSections(top: Entries, env: map<string, string>): (r: Result<CoreConfig, Error>)
    ensures r.Ok? ==> r.value.daytona.apiKey == EnvOr(env, "DAYTONA_API_KEY", "")
    ensures r.Ok? ==> r.value.filesystem.workingDirectory == DefaultWorkingDirectory
  {
    var daytonaData :- Section(top, "daytona");
    var _ :- ValidateSectionFields(daytonaData, DaytonaRequiredFields, "daytona");
    var daytona :- DaytonaFromSection(daytonaData, EnvOr(env, "DAYTONA_API_KEY", ""));
    var securityData :- Section(top, "security");
    var _ :- ValidateSectionFields(securityData, SecurityRequiredFields, "security");
    var security :- SecurityFromSection(securityData);
    var mcpData :- Section(top, "mcp");
    var _ :- ValidateSectionFields(mcpData, McpRequiredFields, "mcp");
    var mcp :- McpFromSection(mcpData);
    var loggingData :- Section(top, "logging");
    var _ :- ValidateSectionFields(loggingData, LoggingRequiredFields, "logging");
    var logging :- LoggingFromSection(loggingData);
    var filesystemData :- Section(top, "filesystem");
    var _ :- CheckFilesystemFields(filesystemData);
    var filesystem :- FilesystemFromSection(filesystemData);
    Ok(CoreConfig(daytona, security, mcp, logging, filesystem))
  }

  const CredentialsHeader: string := "Missing required credentials in .env file:"
  /** Written as two literals: the solver checks `'\n' !in` on each short literal, while a
      single literal of this length is beyond what it unfolds on its own. */
  const CredentialsFooter: string := "Please add these credentials " + "to your .env file."
  const Bullet: string := "  - "

  lemma HeaderHasNoNewline()
    ensures '\n' !in CredentialsHeader
  {
  }

  lemma FooterHasNoNewline()
    ensures '\n' !in CredentialsFooter
  {
  }

  lemma BulletHasNoNewline()
    ensures '\n' !in Bullet
  {
  }

  function Bulleted(keys: seq<string>): (lines: seq<string>)
    ensures |lines| == |keys|
    ensures forall k :: 0 <= k < |keys| ==> lines[k] == Bullet + keys[k]
  {
    seq(|keys|, k requires 0 <= k < |keys| => Bullet + keys[k])
  }

  /** The credentials error as the message evidently means it: a header, one bulleted line
      per missing variable, and a footer. */
  function CredentialsMessage(missing: seq<string>): string {
    Join([CredentialsHeader] + Bulleted(missing) + [CredentialsFooter], "\n")
  }

  /** The credentials error as both `validate_api_keys` methods build it: one bullet, then
      the names joined by bare newlines. */
  function AsWrittenCredentialsMessage(missing: seq<string>): (r: string)
    ensures r == CredentialsHeader + "\n" + Bullet + Join(missing, "\n") + "\n" + CredentialsFooter
    ensures |missing| == 1 ==> r == CredentialsMessage(missing)
  {
    var body := Bullet + Join(missing, "\n");
    JoinCons(CredentialsHeader, [body, CredentialsFooter], "\n");
    JoinCons(body, [CredentialsFooter], "\n");
    assert [CredentialsHeader, body, CredentialsFooter] == [CredentialsHeader] + [body, CredentialsFooter];
    assert [body, CredentialsFooter] == [body] + [CredentialsFooter];
    assert |missing| == 1 ==>
      [CredentialsHeader] + Bulleted(missing) + [CredentialsFooter] == [CredentialsHeader, body, CredentialsFooter];
    Join([CredentialsHeader, body, CredentialsFooter], "\n")
  }

  /** With a single missing variable the two messages coincide, so the core check, which
      can only miss one variable, is unaffected. */
  lemma SingleCredentialMessagesAgree(key: string)
    ensures AsWrittenCredentialsMessage([key]) == CredentialsMessage([key])
  {
    assert [CredentialsHeader] + Bulleted([key]) + [CredentialsFooter]
      == [CredentialsHeader, Bullet + Join([key], "\n"), CredentialsFooter];
  }

  /** `CoreConfig.validate_api_keys`: the only credential the core needs is Daytona's. */
  function ValidateApiKeys(c: CoreConfig): (r: Result<(), Error>)
    ensures r.Ok? <==> c.daytona.apiKey != ""
    ensures r.Err? ==> r.error == ValueError(CredentialsMessage(["DAYTONA_API_KEY"]))
  {
    if c.daytona.apiKey == "" then Err(ValueError(CredentialsMessage(["DAYTONA_API_KEY"])))
    else Ok(())
  }

  // ---------------------------------------------------------------------------
  // Properties

  /** The hand-written filesystem check says exactly what the shared field validator says. */
  lemma FilesystemCheckAgrees(d: Entries)
    ensures CheckFilesystemFields(d) == ValidateSectionFields(d, FilesystemRequiredFields, "filesystem")
  {
  }

  /** A config without one of the five sections is rejected, naming what is missing. */
  lemma LoadRejectsMissingSection(path: string, top: Entries, env: map<string, string>, i: nat)
    requires top != [] && i < |CoreSections| && !HasKey(top, CoreSections[i])
    ensures Load(path, Parsed(Dict(top)), env)
      == Err(ValueError(SectionsMessage("config.yaml", MissingKeys(CoreSections, top))))
  {
    TopLevelMissing(path, top, i);
  }

  lemma TopLevelMissing(path: string, top: Entries, i: nat)
    requires top != [] && i < |CoreSections| && !HasKey(top, CoreSections[i])
    ensures TopLevel(path, Parsed(Dict(top)))
      == Err(ValueError(SectionsMessage("config.yaml", MissingKeys(CoreSections, top))))
  {
    assert LoadYamlFile(path, Parsed(Dict(top))) == Ok(Dict(top));
    MissingSectionFails(top, i);
    assert TopLevelSections(Dict(top), CoreSections, "config.yaml")
      == Err(ValueError(SectionsMessage("config.yaml", MissingKeys(CoreSections, top))));
  }

  lemma MissingSectionFails(top: Entries, i: nat)
    requires i < |CoreSections| && !HasKey(top, CoreSections[i])
    ensures ValidateRequiredSections(top, CoreSections, "config.yaml")
      == Err(ValueError(SectionsMessage("config.yaml", MissingKeys(CoreSections, top))))
  {
    assert CoreSections[i] in CoreSections;
  }

  /** A filesystem section without `allowed_directories` is rejected by name. */
  lemma FilesystemWithoutDirectoriesRejected(d: Entries)
    requires !HasKey(d, "allowed_directories")
    ensures CheckFilesystemFields(d)
      == Err(ValueError(FieldsMessage("filesystem", ["allowed_directories"])))
  {
    assert MissingKeys([], d) == [];
    assert MissingKeys(FilesystemRequiredFields, d) == ["allowed_directories"];
  }

  /** A server entry holding only a name gets every documented default. */
  lemma ServerDefaults(name: string)
    ensures ServerFromValue(Dict([("name", Str(name))])) == Ok(DefaultServer(name))
  {
  }

  /** An MCP section with only its two required fields gets the documented defaults. */
  lemma McpDefaults(discovery: bool)
    ensures McpFromSection([("servers", List([])), ("tool_discovery_enabled", Bool(discovery))])
      == Ok(MCPConfig([], discovery, Some(true), None, Summary))
  {
    var d := [("servers", List([])), ("tool_discovery_enabled", Bool(discovery))];
    assert Get(d, "servers") == Some(List([]));
    assert Get(d, "tool_discovery_enabled") == Some(Bool(discovery));
    assert !HasKey(d, "lazy_load") && !HasKey(d, "cache_duration");
    assert !HasKey(d, "tool_exposure_mode");
  }
}

=== FILE: rendering.dfy ===
/** Display helpers of the CLI (`libs/ptc-cli/ptc_cli/display/rendering.py`): the one-line
    summary of a tool call, error truncation, and flattening of a tool message's content.
    The length limits come from the CLI's core constants, which are not part of this model,
    so they are parameters here; Python's `repr` is a parameter too. */
module Rendering {
  import opened Text

  /** `s` when it fits in `max` characters, else its first `max` characters and "...". */
  function Truncate(s: string, max: nat): (r: string)
    ensures |s| <= max ==> r == s
    ensures |s| > max ==> |r| == max + 3 && StartsWith(r, s[..max]) && EndsWith(r, "...")
    ensures |r| <= max + 3
  {
    if |s| <= max then s
    else
      var r := s[..max] + "...";
      assert r[..max] == s[..max] && r[max..] == "...";
      r
  }

  /** Truncating what was already truncated to the same limit changes nothing. */
  lemma TruncateIdempotent(s: string, max: nat)
    ensures Truncate(Truncate(s, max), max) == Truncate(s, max)
  {
    if |s| > max {
      var r := Truncate(s, max);
      assert r[..max] == s[..max];
    }
  }

  /** `truncate_error`. */
  function TruncateError(error: string, maxLength: nat): (r: string)
    ensures |error| <= maxLength ==> r == error
    ensures |error| > maxLength ==> r == error[..maxLength] + "..."
  {
    Truncate(error, maxLength)
  }

  // ---------------------------------------------------------------------------
  // format_tool_display

  /** An argument value: a string (shown through `repr`, truncated first) or anything else,
      given by the text `str()` renders for it. */
  datatype ArgValue = StrArg(s: string) | OtherArg(text: string)

  function ArgPart(key: string, value: ArgValue, maxArg: nat, repr: string -> string): (r: string)
    ensures value.StrArg? ==> r == key + "=" + repr(Truncate(value.s, maxArg))
    ensures value.OtherArg? ==> r == key + "=" + value.text
  {
    match value
    case StrArg(s) => key + "=" + repr(Truncate(s, maxArg))
    case OtherArg(t) => key + "=" + t
  }

  function ArgParts(args: seq<(string, ArgValue)>, maxArg: nat, repr: string -> string): (parts: seq<string>)
    ensures |parts| == |args|
    ensures forall k :: 0 <= k < |args| ==> parts[k] == ArgPart(args[k].0, args[k].1, maxArg, repr)
  {
    seq(|args|, k requires 0 <= k < |args| => ArgPart(args[k].0, args[k].1, maxArg, repr))
  }

  /** `format_tool_display`: the tool name, then the joined arguments in parentheses, cut
      to the limit. */
  function FormatToolDisplay(toolName: string, args: seq<(string, ArgValue)>, maxArg: nat,
                             repr: string -> string): (r: string)
    ensures |r| == |toolName| + 2 + |Truncate(Join(ArgParts(args, maxArg, repr), ", "), maxArg)|
    ensures StartsWith(r, toolName + "(") && EndsWith(r, ")")
    ensures r[|toolName| + 1..|r| - 1] == Truncate(Join(ArgParts(args, maxArg, repr), ", "), maxArg)
    ensures |r| <= |toolName| + maxArg + 5
  {
    var inner := Truncate(Join(ArgParts(args, maxArg, repr), ", "), maxArg);
    var r := toolName + "(" + inner + ")";
    assert r[..|toolName| + 1] == toolName + "(";
    assert r[|r| - 1..] == ")";
    assert r[|toolName| + 1..|r| - 1] == inner;
    r
  }

  /** When the joined arguments fit, they appear in full. */
  lemma ShortArgumentsShownInFull(toolName: string, args: seq<(string, ArgValue)>, maxArg: nat,
                                  repr: string -> string)
    requires |Join(ArgParts(args, maxArg, repr), ", ")| <= maxArg
    ensures FormatToolDisplay(toolName, args, maxArg, repr)
      == toolName + "(" + Join(ArgParts(args, maxArg, repr), ", ") + ")"
  {
    var inner := Join(ArgParts(args, maxArg, repr), ", ");
    var r := FormatToolDisplay(toolName, args, maxArg, repr);
    assert r[..|toolName| + 1] == toolName + "(";
    assert r == r[..|toolName| + 1] + r[|toolName| + 1..|r| - 1] + r[|r| - 1..];
  }

  // ---------------------------------------------------------------------------
  // format_tool_message_content

  /** An element of a list content: a dict (its "type" and "text" entries, `None` when
      missing), a bare string, or anything else. */
  datatype Block = DictBlock(blockType: Option<string>, text: Option<string>) | StrBlock(s: string) | OtherBlock

  datatype Content = TextContent(s: string) | ListContent(blocks: seq<Block>) | OtherContent

  predicate Contributes(b: Block) {
    (b.DictBlock? && b.blockType == Some("text")) || b.StrBlock?
  }

  function BlockText(b: Block): string
    requires Contributes(b)
  {
    if b.DictBlock? then b.text.GetOr("") else b.s
  }

  /** The `text_parts` list: the text of each contributing block, in order. */
  function TextParts(blocks: seq<Block>): (parts: seq<string>)
    ensures parts == [] <==> forall k :: 0 <= k < |blocks| ==> !Contributes(blocks[k])
    ensures |parts| <= |blocks|
  {
    if blocks == [] then []
    else
      var rest := TextParts(blocks[1..]);
      assert forall k :: 1 <= k < |blocks| ==> blocks[k] == blocks[1..][k - 1];
      if Contributes(blocks[0]) then [BlockText(blocks[0])] + rest else rest
  }

  /** The parts keep the blocks' order: collecting distributes over concatenation. */
  lemma {:induction false} TextPartsAppend(a: seq<Block>, b: seq<Block>)
    ensures TextParts(a + b) == TextParts(a) + TextParts(b)
    decreases |a|
  {
    if a == [] {
      assert a + b == b;
    } else {
      var ab := a + b;
      assert ab[0] == a[0] && ab[1..] == a[1..] + b;
      TextPartsAppend(a[1..], b);
    }
  }

  /** `format_tool_message_content`. */
  function FormatToolMessageContent(content: Content): (r: Option<string>)
    ensures content.TextContent? ==> r == Some(content.s)
    ensures content.OtherContent? ==> r == None
    ensures content.ListContent? ==>
      (r.None? <==> forall k :: 0 <= k < |content.blocks| ==> !Contributes(content.blocks[k]))
    ensures content.ListContent? && r.Some? ==> r.value == Join(TextParts(content.blocks), "\n")
  {
    match content
    case TextContent(s) => Some(s)
    case ListContent(blocks) =>
      var parts := TextParts(blocks);
      if parts != [] then Some(Join(parts, "\n")) else None
    case OtherContent => None
  }

  /** A dict block of type "text" contributes its "text" entry, or "" when it has none,
      at its own place in the list. */
  lemma TextDictContributes(before: seq<Block>, text: Option<string>, after: seq<Block>)
    ensures TextParts(before + [DictBlock(Some("text"), text)] + after)
      == TextParts(before) + [text.GetOr("")] + TextParts(after)
  {
    var b := DictBlock(Some("text"), text);
    TextPartsAppend(before + [b], after);
    TextPartsAppend(before, [b]);
    assert TextParts([b]) == [text.GetOr("")] by {
      assert [b][1..] == [];
    }
  }

  /** A dict block of any other type (or none) contributes nothing, and neither does a
      value that is neither a dict nor a string. */
  lemma OtherBlocksIgnored(before: seq<Block>, b: Block, after: seq<Block>)
    requires b.OtherBlock? || (b.DictBlock? && b.blockType != Some("text"))
    ensures TextParts(before + [b] + after) == TextParts(before) + TextParts(after)
  {
    assert TextParts([b]) == [] by {
      assert !Contributes(b) && [b][1..] == [];
    }
    calc {
      TextParts(before + [b] + after);
      { TextPartsAppend(before + [b], after); }
      TextParts(before + [b]) + TextParts(after);
      { TextPartsAppend(before, [b]); }
      TextParts(before) + TextParts([b]) + TextParts(after);
    }
  }

  /** A list of bare strings without newlines comes back as those strings, one per line. */
  lemma StringBlocksOnePerLine(strs: seq<string>)
    requires strs != [] && forall k :: 0 <= k < |strs| ==> '\n' !in strs[k]
    ensures var r := FormatToolMessageContent(ListContent(seq(|strs|, k requires 0 <= k < |strs| => StrBlock(strs[k]))));
      r.Some? && Split(r.value, '\n') == strs
  {
    var blocks := seq(|strs|, k requires 0 <= k < |strs| => StrBlock(strs[k]));
    StringBlockParts(strs);
    SplitJoin(strs, '\n');
  }

  lemma {:induction false} StringBlockParts(strs: seq<string>)
    ensures TextParts(seq(|strs|, k requires 0 <= k < |strs| => StrBlock(strs[k]))) == strs
    decreases |strs|
  {
    if strs != [] {
      var blocks := seq(|strs|, k requires 0 <= k < |strs| => StrBlock(strs[k]));
      assert blocks[1..] == seq(|strs[1..]|, k requires 0 <= k < |strs[1..]| => StrBlock(strs[1..][k]));
      StringBlockParts(strs[1..]);
      assert strs == [strs[0]] + strs[1..];
    }
  }
}

=== FILE: sandbox.dfy ===
/** The sandbox as the agent's file, search and shell tools see it. The sandbox itself is not
    part of this model: each of its methods is an oracle field of `Sandbox`, and a call that
    raises returns `Err` with the exception's text. */
module Sandbox {
  import opened Text

  /** The dict `edit_file` returns: `None` stands for a missing key. */
  datatype EditResult = EditResult(success: Option<bool>, error: Option<string>, message: Option<string>)

  datatype EditRequest = EditRequest(path: string, oldString: string, newString: string, replaceAll: bool)

  /** The keyword arguments `grep` passes to `grep_content`. */
  datatype GrepOptions = GrepOptions(
    pattern: string,
    path: string,
    outputMode: Option<string>,
    glob: Option<string>,
    fileType: Option<string>,
    caseInsensitive: Option<bool>,
    showLineNumbers: Option<bool>,
    linesAfter: Option<int>,
    linesBefore: Option<int>,
    linesContext: Option<int>,
    multiline: Option<bool>,
    headLimit: Option<int>,
    offset: int)

  /** One entry of a content-mode grep result: a string, or another value shown by `str()`. */
  datatype ContentEntry = StrEntry(s: string) | OtherEntry(text: string)

  /** The arguments `Bash` passes to `execute_bash_command`; the timeout is in seconds. */
  datatype BashRequest = BashRequest(command: string, workingDir: Option<string>, timeoutSeconds: real,
                                     background: Option<bool>)

  /** The dict `execute_bash_command` returns: `None` stands for a missing key. */
  datatype BashResult = BashResult(success: bool, stdout: Option<string>, stderr: Option<string>,
                                   exitCode: Option<int>)

  /** `grep_content` answers in the shape the output mode asks for, so it appears here once
      per shape: the matching files, the matching lines, the per-file counts, and for any
      other mode whether the answer is empty and the text `str()` gives for it. */
  datatype Sandbox = Sandbox(
    enablePathValidation: bool,
    normalizePath: string -> string,
    validatePath: string -> bool,
    virtualizePath: string -> string,
    readFile: string -> Result<Option<string>, string>,
    readFileRange: (string, int, int) -> Result<Option<string>, string>,
    writeFile: (string, string) -> Result<bool, string>,
    editFile: EditRequest -> Result<EditResult, string>,
    grepFiles: GrepOptions -> Result<seq<string>, string>,
    grepLines: GrepOptions -> Result<seq<ContentEntry>, string>,
    grepCounts: GrepOptions -> Result<seq<(string, int)>, string>,
    grepOther: GrepOptions -> Result<(bool, string), string>,
    globFiles: (string, string) -> Result<seq<string>, string>,
    executeBash: BashRequest -> Result<BashResult, string>)

  /** The sandbox call a tool made, with its arguments. */
  datatype Call =
    | ReadCall(path: string)
    | ReadRangeCall(path: string, start: int, count: int)
    | WriteCall(path: string, content: string)
    | EditCall(edit: EditRequest)
    | GrepCall(options: GrepOptions)
    | GlobCall(pattern: string, path: string)
    | BashCall(request: BashRequest)

  /** What a tool returns to the agent, and the one sandbox call it made, if any. */
  datatype ToolRun = ToolRun(output: string, call: Option<Call>)

  /** The message every path-taking tool returns when the path is outside the allowed
      directories. */
  function AccessDenied(path: string): string {
    "ERROR: Access denied: " + path + " is not in allowed directories"
  }

  /** The guard every path-taking tool runs first: the normalised path when access is
      allowed, else the access-denied message. Validation is consulted only when enabled. */
  function Guard(sb: Sandbox, path: string): (r: Result<string, string>)
    ensures r.Ok? <==> !sb.enablePathValidation || sb.validatePath(sb.normalizePath(path))
    ensures r.Ok? ==> r.value == sb.normalizePath(path)
    ensures r.Err? ==> r.error == AccessDenied(path)
  {
    var normalized := sb.normalizePath(path);
    if sb.enablePathValidation && !sb.validatePath(normalized) then Err(AccessDenied(path))
    else Ok(normalized)
  }

  /** With validation switched off every path passes the guard. */
  lemma GuardOffAllowsAll(sb: Sandbox, path: string)
    requires !sb.enablePathValidation
    ensures Guard(sb, path) == Ok(sb.normalizePath(path))
  {
  }

  /** `result += f"{x}\n"` over a list. */
  function Lines(xs: seq<string>): (r: string)
    ensures xs == [] ==> r == ""
  {
    if xs == [] then "" else Lines(xs[..|xs| - 1]) + xs[|xs| - 1] + "\n"
  }

  /** The first item's line comes first. */
  lemma {:induction false} LinesCons(x: string, rest: seq<string>)
    ensures Lines([x] + rest) == x + "\n" + Lines(rest)
    decreases |rest|
  {
    if rest != [] {
      var xs := [x] + rest;
      assert xs[..|xs| - 1] == [x] + rest[..|rest| - 1];
      LinesCons(x, rest[..|rest| - 1]);
    }
  }

  /** Each item on its own line, in order, with a final newline. */
  lemma {:induction false} LinesAsJoin(xs: seq<string>)
    requires xs != []
    ensures Lines(xs) == Join(xs, "\n") + "\n"
    decreases |xs|
  {
    if |xs| > 1 {
      var init := xs[..|xs| - 1];
      LinesAsJoin(init);
      JoinAppend(init, xs[|xs| - 1], "\n");
      assert init + [xs[|xs| - 1]] == xs;
    }
  }

  /** Each item shown by `show`, in order. */
  function MapSeq<T>(items: seq<T>, show: T -> string): (r: seq<string>)
    ensures |r| == |items|
    ensures forall k :: 0 <= k < |items| ==> r[k] == show(items[k])
  {
    seq(|items|, k requires 0 <= k < |items| => show(items[k]))
  }

  /** The `result += f"{show(item)}\n"` loop of the listing tools. */
  method AppendShown<T>(acc: string, items: seq<T>, show: T -> string) returns (result: string)
    ensures result == acc + Lines(MapSeq(items, show))
  {
    result := acc;
    for k := 0 to |items|
      invariant result == acc + Lines(MapSeq(items[..k], show))
    {
      var shown := MapSeq(items[..k + 1], show);
      assert shown[..k] == MapSeq(items[..k], show);
      result := result + show(items[k]) + "\n";
    }
    assert items[..|items|] == items;
  }

  /** A listing built as a header line followed by one line per item, then `rstrip`-ed, reads
      back as the header and the items, one per line, when the items hold no newline and the
      last one does not end blank. */
  lemma ListingLines(header: string, items: seq<string>)
    requires '\n' !in header && items != []
    requires forall k :: 0 <= k < |items| ==> '\n' !in items[k]
    requires var last := items[|items| - 1]; last != [] && !IsSpace(last[|last| - 1])
    ensures Split(RStrip(header + "\n" + Lines(items)), '\n') == [header] + items
  {
    var all := [header] + items;
    ListingAsJoin(header, items);
    JoinEndsLikeLast(all);
    RStripTrailing(Join(all, "\n"), "\n");
    forall k | 0 <= k < |all|
      ensures '\n' !in all[k]
    {
      if k > 0 { assert all[k] == items[k - 1]; }
    }
    SplitJoin(all, '\n');
  }

  lemma ListingAsJoin(header: string, items: seq<string>)
    requires items != []
    ensures header + "\n" + Lines(items) == Join([header] + items, "\n") + "\n"
  {
    LinesAsJoin(items);
    JoinCons(header, items, "\n");
  }

  /** Joined parts end with the last character of the last part, when it has one. */
  lemma JoinEndsLikeLast(all: seq<string>)
    requires all != [] && all[|all| - 1] != []
    ensures var j, last := Join(all, "\n"), all[|all| - 1];
      j != [] && j[|j| - 1] == last[|last| - 1]
  {
    var last := all[|all| - 1];
    JoinAppend(all[..|all| - 1], last, "\n");
    assert all[..|all| - 1] + [last] == all;
  }

  /** The same listing with a blank line after the header. */
  lemma BlankLineListing(header: string, items: seq<string>)
    requires '\n' !in header && items != []
    requires forall k :: 0 <= k < |items| ==> '\n' !in items[k]
    requires var last := items[|items| - 1]; last != [] && !IsSpace(last[|last| - 1])
    ensures Split(RStrip(header + "\n\n" + Lines(items)), '\n') == [header, ""] + items
  {
    var withBlank := [""] + items;
    BlankLineText(header, items);
    forall k | 0 <= k < |withBlank|
      ensures '\n' !in withBlank[k]
    {
      if k > 0 { assert withBlank[k] == items[k - 1]; }
    }
    assert withBlank[|withBlank| - 1] == items[|items| - 1];
    ListingLines(header, withBlank);
    PrependTwo(header, "", items);
  }

  lemma PrependTwo(a: string, b: string, items: seq<string>)
    ensures [a] + ([b] + items) == [a, b] + items
  {
    assert [a, b] == [a] + [b];
  }

  lemma BlankLineText(header: string, items: seq<string>)
    ensures header + "\n\n" + Lines(items) == header + "\n" + Lines([""] + items)
  {
    LinesCons("", items);
    var rest := Lines(items);
    assert "" + "\n" + rest == "\n" + rest;
    assert header + "\n\n" + rest == header + "\n" + ("\n" + rest);
  }
}

=== FILE: slash.dfy ===
/** The pure parts of the CLI's slash commands (`libs/ptc-cli/ptc_cli/commands/slash.py`):
    display paths, the `/files` filter and tree view, command routing with its argument
    splitting, and the arrow-key model picker. Terminal raw mode, the clipboard and local
    file writes are not modelled. */
module SlashCommands {
  import opened Text
  import opened Ordering

  // ---------------------------------------------------------------------------
  // Display paths and the `/files` filter

  const HomePrefix: string := "/home/daytona/"

  /** Directories hidden by `/files` unless `all` is asked for. */
  const ExcludedDirs: set<string> := {"code", "tools", "mcp_servers"}

  /** `_normalize_path`: drops one leading home prefix. */
  function NormalizePath(path: string): (r: string)
    ensures StartsWith(path, HomePrefix) ==> HomePrefix + r == path
    ensures !StartsWith(path, HomePrefix) ==> r == path
  {
    if StartsWith(path, HomePrefix) then
      assert path == path[..|HomePrefix|] + path[|HomePrefix|..];
      path[|HomePrefix|..]
    else path
  }

  /** Normalising is one-step: only the first prefix goes. */
  lemma NormalizeUnderHome(p: string)
    ensures NormalizePath(HomePrefix + p) == p
  {
    assert (HomePrefix + p)[..|HomePrefix|] == HomePrefix;
  }

  /** `f` is the directory `d` or lies under it. */
  predicate UnderDir(f: string, d: string) {
    StartsWith(f, d + "/") || f == d
  }

  predicate IsExcluded(f: string) {
    exists d :: d in ExcludedDirs && UnderDir(f, d)
  }

  /** The filter comprehension of `_handle_files_command`. */
  function KeepVisible(files: seq<string>): (r: seq<string>)
    ensures forall k :: 0 <= k < |r| ==> r[k] in files && !IsExcluded(r[k])
    ensures forall f :: f in files && !IsExcluded(f) ==> f in r
    ensures |r| <= |files|
  {
    if files == [] then []
    else
      var rest := KeepVisible(files[1..]);
      assert forall f :: f in files ==> f == files[0] || f in files[1..];
      if IsExcluded(files[0]) then rest else [files[0]] + rest
  }

  /** The filter keeps the order of what it keeps: it distributes over concatenation. */
  lemma {:induction false} KeepVisibleAppend(a: seq<string>, b: seq<string>)
    ensures KeepVisible(a + b) == KeepVisible(a) + KeepVisible(b)
    decreases |a|
  {
    if a != [] {
      var ab := a + b;
      assert ab[0] == a[0] && ab[1..] == a[1..] + b;
      KeepVisibleAppend(a[1..], b);
      if IsExcluded(a[0]) {
        assert KeepVisible(ab) == KeepVisible(a[1..] + b);
      } else {
        assert KeepVisible(ab) == [a[0]] + KeepVisible(a[1..] + b);
      }
    } else {
      assert a + b == b;
    }
  }

  /** The list `/files` shows: normalised paths, filtered unless `all` was asked for. */
  function FilesShown(files: seq<string>, showAll: bool): (r: seq<string>)
    ensures showAll ==> |r| == |files| && forall k :: 0 <= k < |r| ==> r[k] == NormalizePath(files[k])
    ensures !showAll ==> forall k :: 0 <= k < |r| ==> !IsExcluded(r[k])
    ensures !showAll ==> r == KeepVisible(seq(|files|, k requires 0 <= k < |files| => NormalizePath(files[k])))
  {
    var normalized := seq(|files|, k requires 0 <= k < |files| => NormalizePath(files[k]));
    if showAll then normalized else KeepVisible(normalized)
  }

  // ---------------------------------------------------------------------------
  // `_render_tree`

  /** The nested dict built by `_render_tree`: children in insertion order. */
  datatype Node = Node(children: seq<(string, Node)>)

  function FindChild(cs: seq<(string, Node)>, name: string): (r: Option<nat>)
    ensures r.Some? ==> r.value < |cs| && cs[r.value].0 == name
    ensures r.None? ==> forall k :: 0 <= k < |cs| ==> cs[k].0 != name
  {
    if cs == [] then None
    else if cs[0].0 == name then Some(0)
    else
      match FindChild(cs[1..], name)
      case None => None
      case Some(i) => Some(i + 1)
  }

  /** `q` names a chain of nested children from `n`; the empty chain names `n` itself. */
  predicate HasPath(n: Node, q: seq<string>)
    decreases |q|
  {
    q == [] || exists k :: 0 <= k < |n.children| && n.children[k].0 == q[0] && HasPath(n.children[k].1, q[1..])
  }

  /** `current = current.setdefault(part, {})` for each part: walks down the path, adding
      missing children at the end. */
  function Insert(n: Node, parts: seq<string>): (r: Node)
    ensures |r.children| >= |n.children|
    ensures parts != [] ==> exists k :: 0 <= k < |r.children| && r.children[k].0 == parts[0]
    ensures forall q :: HasPath(r, q) <==> HasPath(n, q) || q <= parts
    decreases |parts|
  {
    if parts == [] then n
    else
      match FindChild(n.children, parts[0])
      case Some(i) =>
        var child := Insert(n.children[i].1, parts[1..]);
        var cs := n.children[i := (parts[0], child)];
        ReplaceChildPaths(n.children, i, parts, child);
        assert cs[i].0 == parts[0];
        Node(cs)
      case None =>
        var child := Insert(Node([]), parts[1..]);
        var cs := n.children + [(parts[0], child)];
        AppendChildPaths(n.children, parts, child);
        assert cs[|n.children|].0 == parts[0];
        Node(cs)
  }

  /** A non-empty prefix of `parts` is its first part followed by a prefix of the rest. */
  lemma PrefixCons(q: seq<string>, parts: seq<string>)
    requires q != [] && parts != []
    ensures q <= parts <==> q[0] == parts[0] && q[1..] <= parts[1..]
  {
    if q <= parts {
      assert q[1..] == parts[1..][..|q| - 1];
    }
    if q[0] == parts[0] && q[1..] <= parts[1..] {
      assert q == [parts[0]] + q[1..];
      assert parts == [parts[0]] + parts[1..];
    }
  }

  /** Replacing the child named `parts[0]` by one that gained the paths below `parts[1..]`
      adds exactly the paths below `parts`. */
  lemma ReplaceChildPaths(cs: seq<(string, Node)>, i: nat, parts: seq<string>, child: Node)
    requires parts != [] && i < |cs| && cs[i].0 == parts[0]
    requires forall q :: HasPath(child, q) <==> HasPath(cs[i].1, q) || q <= parts[1..]
    ensures forall q :: HasPath(Node(cs[i := (parts[0], child)]), q) <==> HasPath(Node(cs), q) || q <= parts
  {
    var ds := cs[i := (parts[0], child)];
    forall q | q != []
      ensures HasPath(Node(ds), q) <==> HasPath(Node(cs), q) || q <= parts
    {
      PrefixCons(q, parts);
      if HasPath(Node(ds), q) {
        var k :| 0 <= k < |ds| && ds[k].0 == q[0] && HasPath(ds[k].1, q[1..]);
        if k != i {
          assert cs[k] == ds[k];
        }
      }
      if HasPath(Node(cs), q) {
        var k :| 0 <= k < |cs| && cs[k].0 == q[0] && HasPath(cs[k].1, q[1..]);
        assert ds[k].0 == q[0] && HasPath(ds[k].1, q[1..]);
      }
      if q <= parts {
        assert ds[i].0 == q[0] && HasPath(ds[i].1, q[1..]);
      }
    }
  }

  /** Appending a child named `parts[0]` that holds just the paths below `parts[1..]` adds
      exactly the paths below `parts`. */
  lemma AppendChildPaths(cs: seq<(string, Node)>, parts: seq<string>, child: Node)
    requires parts != [] && forall k :: 0 <= k < |cs| ==> cs[k].0 != parts[0]
    requires forall q :: HasPath(child, q) <==> HasPath(Node([]), q) || q <= parts[1..]
    ensures forall q :: HasPath(Node(cs + [(parts[0], child)]), q) <==> HasPath(Node(cs), q) || q <= parts
  {
    var ds := cs + [(parts[0], child)];
    forall q | q != []
      ensures HasPath(Node(ds), q) <==> HasPath(Node(cs), q) || q <= parts
    {
      PrefixCons(q, parts);
      if HasPath(Node(ds), q) {
        var k :| 0 <= k < |ds| && ds[k].0 == q[0] && HasPath(ds[k].1, q[1..]);
        if k < |cs| {
          assert cs[k] == ds[k];
        } else {
          assert HasPath(child, q[1..]);
          assert !HasPath(Node([]), q[1..]) || q[1..] == [];
        }
      }
      if HasPath(Node(cs), q) {
        var k :| 0 <= k < |cs| && cs[k].0 == q[0] && HasPath(cs[k].1, q[1..]);
        assert ds[k].0 == q[0] && HasPath(ds[k].1, q[1..]);
      }
      if q <= parts {
        assert ds[|cs|].0 == q[0] && HasPath(ds[|cs|].1, q[1..]);
      }
    }
  }

  /** A dict: no name twice among siblings, at every level. */
  predicate WellFormed(n: Node)
    decreases n
  {
    (forall i, j :: 0 <= i < j < |n.children| ==> n.children[i].0 != n.children[j].0)
    && forall k :: 0 <= k < |n.children| ==> WellFormed(n.children[k].1)
  }

  lemma {:induction false} InsertWellFormed(n: Node, parts: seq<string>)
    requires WellFormed(n)
    ensures WellFormed(Insert(n, parts))
    decreases |parts|
  {
    if parts != [] {
      match FindChild(n.children, parts[0])
      case Some(i) =>
        InsertWellFormed(n.children[i].1, parts[1..]);
      case None =>
        InsertWellFormed(Node([]), parts[1..]);
    }
  }

  /** Inserting a path that is already there changes nothing. */
  lemma {:induction false} InsertIdempotent(n: Node, parts: seq<string>)
    requires WellFormed(n)
    ensures Insert(Insert(n, parts), parts) == Insert(n, parts)
    decreases |parts|
  {
    if parts != [] {
      var m := Insert(n, parts);
      match FindChild(n.children, parts[0])
      case Some(i) =>
        var child := n.children[i].1;
        assert m.children == n.children[i := (parts[0], Insert(child, parts[1..]))];
        FindChildAt(m.children, parts[0], i);
        InsertIdempotent(child, parts[1..]);
        assert m.children[i := (parts[0], Insert(m.children[i].1, parts[1..]))] == m.children;
      case None =>
        var added := Insert(Node([]), parts[1..]);
        assert m.children == n.children + [(parts[0], added)];
        FindChildAt(m.children, parts[0], |n.children|);
        InsertIdempotent(Node([]), parts[1..]);
        assert m.children[|n.children| := (parts[0], Insert(added, parts[1..]))] == m.children;
    }
  }

  /** The first child with the name is found. */
  lemma {:induction false} FindChildAt(cs: seq<(string, Node)>, name: string, i: nat)
    requires i < |cs| && cs[i].0 == name
    requires forall k :: 0 <= k < i ==> cs[k].0 != name
    ensures FindChild(cs, name) == Some(i)
    decreases i
  {
    if i > 0 {
      assert forall k :: 0 <= k < i - 1 ==> cs[1..][k] == cs[k + 1];
      FindChildAt(cs[1..], name, i - 1);
    }
  }

  /** The tree of a list of paths inserted in order. */
  function TreeOf(paths: seq<string>): (t: Node)
    ensures WellFormed(t)
    ensures forall q :: HasPath(t, q) <==> q == [] || Listed(paths, q)
  {
    if paths == [] then Node([])
    else
      var t := TreeOf(paths[..|paths| - 1]);
      InsertWellFormed(t, Split(paths[|paths| - 1], '/'));
      ListedSnoc(paths);
      Insert(t, Split(paths[|paths| - 1], '/'))
  }

  /** `q` is a leading run of the `/`-separated parts of one of the paths. */
  predicate Listed(paths: seq<string>, q: seq<string>) {
    exists i :: 0 <= i < |paths| && q <= Split(paths[i], '/')
  }

  lemma ListedSnoc(paths: seq<string>)
    requires paths != []
    ensures forall q :: Listed(paths, q) <==>
      Listed(paths[..|paths| - 1], q) || q <= Split(paths[|paths| - 1], '/')
  {
    var init := paths[..|paths| - 1];
    forall q | Listed(init, q)
      ensures Listed(paths, q)
    {
      var i :| 0 <= i < |init| && q <= Split(init[i], '/');
      assert paths[i] == init[i];
    }
    forall q | Listed(paths, q) && !(q <= Split(paths[|paths| - 1], '/'))
      ensures Listed(init, q)
    {
      var i :| 0 <= i < |paths| && q <= Split(paths[i], '/');
      assert init[i] == paths[i];
    }
  }

  /** A path repeated straight after itself (as sorting leaves duplicates) adds nothing. */
  lemma RepeatedPathCollapses(paths: seq<string>, p: string)
    ensures TreeOf(paths + [p, p]) == TreeOf(paths + [p])
  {
    assert paths + [p, p] == (paths + [p]) + [p];
    TreeOfSnoc(paths + [p], p);
    TreeOfSnoc(paths, p);
    InsertIdempotent(TreeOf(paths), Split(p, '/'));
  }

  lemma TreeOfSnoc(paths: seq<string>, p: string)
    ensures TreeOf(paths + [p]) == Insert(TreeOf(paths), Split(p, '/'))
  {
    assert (paths + [p])[..|paths|] == paths;
  }

  const LastConnector: string := "└── "
  const MidConnector: string := "├── "

  /** The lines for the first `count` children of `n`, each followed by its subtree. */
  function RenderUpTo(n: Node, count: nat, prefix: string): seq<string>
    requires count <= |n.children|
    decreases n, count, 1
  {
    if count == 0 then []
    else RenderUpTo(n, count - 1, prefix) + RenderItem(n, count - 1, prefix)
  }

  /** Child `i` of `n`: its own line, with the last-sibling connector when it is the last,
      then its children one level deeper. */
  function RenderItem(n: Node, i: nat, prefix: string): seq<string>
    requires i < |n.children|
    decreases n, i + 1, 0
  {
    var (name, child) := n.children[i];
    var isLast := i == |n.children| - 1;
    var line := prefix + (if isLast then LastConnector else MidConnector) + name;
    assert child < n.children[i];
    if child.children == [] then [line]
    else [line] + RenderUpTo(child, |child.children|, prefix + (if isLast then "    " else "│   "))
  }

  function Render(n: Node, prefix: string): seq<string> {
    RenderUpTo(n, |n.children|, prefix)
  }

  /** The tree lines `_render_tree` produces. */
  function TreeLines(files: seq<string>): seq<string> {
    Render(TreeOf(SortBy(files, Identity)), "")
  }

  /** Number of nodes below `n` in its first `count` children's subtrees (the children
      included). */
  function NodesUpTo(n: Node, count: nat): nat
    requires count <= |n.children|
    decreases n, count
  {
    if count == 0 then 0
    else
      var child := n.children[count - 1].1;
      assert child < n.children[count - 1];
      NodesUpTo(n, count - 1) + 1 + NodesUpTo(child, |child.children|)
  }

  /** One line per node of the tree. */
  lemma {:induction false} RenderOneLinePerNode(n: Node, count: nat, prefix: string)
    requires count <= |n.children|
    ensures |RenderUpTo(n, count, prefix)| == NodesUpTo(n, count)
    decreases n, count
  {
    if count > 0 {
      RenderOneLinePerNode(n, count - 1, prefix);
      var child := n.children[count - 1].1;
      assert child < n.children[count - 1];
      var isLast := count - 1 == |n.children| - 1;
      RenderOneLinePerNode(child, |child.children|, prefix + (if isLast then "    " else "│   "));
    }
  }

  /** The order in which the files arrive does not matter. */
  lemma TreeLinesIgnoreOrder(a: seq<string>, b: seq<string>)
    requires multiset(a) == multiset(b)
    ensures TreeLines(a) == TreeLines(b)
  {
    SortPermutation(a, b, Identity);
  }

  /** `_render_tree` as written: sorts, inserts each path with a loop, then renders. */
  method RenderTree(files: seq<string>) returns (lines: seq<string>)
    ensures lines == TreeLines(files)
  {
    var sorted := SortBy(files, Identity);
    var tree := Node([]);
    for k := 0 to |sorted|
      invariant tree == TreeOf(sorted[..k])
    {
      assert sorted[..k + 1][..k] == sorted[..k];
      tree := Insert(tree, Split(sorted[k], '/'));
    }
    assert sorted[..|sorted|] == sorted;
    lines := RenderInto(tree, "", []);
  }

  /** `render_node`: appends the lines of `n`'s subtree to `acc`. */
  method RenderInto(n: Node, prefix: string, acc: seq<string>) returns (out: seq<string>)
    ensures out == acc + Render(n, prefix)
    decreases n
  {
    out := acc;
    var i := 0;
    while i < |n.children|
      invariant i <= |n.children|
      invariant out == acc + RenderUpTo(n, i, prefix)
    {
      var (name, child) := n.children[i];
      assert child < n.children[i];
      var isLast := i == |n.children| - 1;
      out := out + [prefix + (if isLast then LastConnector else MidConnector) + name];
      if child.children != [] {
        out := RenderInto(child, prefix + (if isLast then "    " else "│   "), out);
      }
      i := i + 1;
    }
  }

  // ---------------------------------------------------------------------------
  // `_prompt_model_selection`

  /** The entry the picker starts on: the current model, or the first entry. */
  method InitialSelection(names: seq<string>, current: string) returns (selected: nat)
    ensures current in names ==> selected < |names| && names[selected] == current && current !in names[..selected]
    ensures current !in names ==> selected == 0
  {
    selected := 0;
    var i := 0;
    while i < |names|
      invariant i <= |names|
      invariant current !in names[..i]
      invariant selected == 0
    {
      if names[i] == current {
        selected := i;
        return;
      }
      assert names[..i + 1] == names[..i] + [names[i]];
      i := i + 1;
    }
    assert names[..|names|] == names;
  }

  /** Where the picker ends up after reading `input`. */
  datatype Picked = Chosen(index: nat) | Cancelled | Interrupted | Reading(selected: nat)

  /** The picker's key loop over raw characters: ESC `[` `B` moves down, ESC `[` `A` up
      (both wrapping around), ESC followed by anything but `[` cancels, CR or LF selects,
      Ctrl+C interrupts, anything else is ignored. */
  function Pick(n: nat, selected: nat, input: string): (r: Picked)
    requires 0 < n && selected < n
    ensures r.Chosen? ==> r.index < n
    ensures r.Reading? ==> r.selected < n
    decreases |input|
  {
    if input == [] then Reading(selected)
    else if input[0] == '\U{1B}' then
      if |input| < 2 then Reading(selected)
      else if input[1] == '[' then
        if |input| < 3 then Reading(selected)
        else if input[2] == 'B' then Pick(n, (selected + 1) % n, input[3..])
        else if input[2] == 'A' then Pick(n, (selected - 1) % n, input[3..])
        else Pick(n, selected, input[3..])
      else Cancelled
    else if input[0] == '\r' || input[0] == '\n' then Chosen(selected)
    else if input[0] == '\U{3}' then Interrupted
    else Pick(n, selected, input[1..])
  }

  const DownKey: string := "\U{1B}[B"
  const UpKey: string := "\U{1B}[A"

  function Repeat(key: string, k: nat): string {
    if k == 0 then "" else key + Repeat(key, k - 1)
  }

  lemma MulAtLeast(a: int, n: int)
    requires a >= 1 && n > 0
    ensures a * n >= n
  {
  }

  lemma MulGap(q: int, q': int, n: int)
    requires q > q' && n > 0
    ensures q * n >= q' * n + n
  {
    MulAtLeast(q - q', n);
    assert (q - q') * n == q * n - q' * n;
  }

  /** Euclidean division has one quotient and one remainder. */
  lemma ModUnique(x: int, q: int, r: int, n: int)
    requires n > 0 && 0 <= r < n && x == q * n + r
    ensures x % n == r
  {
    var q' := x / n;
    assert x == q' * n + x % n;
    if q > q' {
      MulGap(q, q', n);
    } else if q < q' {
      MulGap(q', q, n);
    }
  }

  lemma ModShift(a: int, b: int, n: int)
    requires n > 0
    ensures (a % n + b) % n == (a + b) % n
  {
    var q := a / n;
    var r := (a % n + b) % n;
    var q2 := (a % n + b) / n;
    assert a % n + b == q2 * n + r;
    assert a + b == (q + q2) * n + r by {
      assert a == q * n + a % n;
      assert (q + q2) * n == q * n + q2 * n;
    }
    ModUnique(a + b, q + q2, r, n);
  }

  /** `k` presses of Down move the selection `k` places forward, modulo the list length. */
  lemma {:induction false} DownPresses(n: nat, selected: nat, k: nat, rest: string)
    requires 0 < n && selected < n
    ensures Pick(n, selected, Repeat(DownKey, k) + rest) == Pick(n, (selected + k) % n, rest)
    decreases k
  {
    if k > 0 {
      var s := Repeat(DownKey, k) + rest;
      assert s == DownKey + (Repeat(DownKey, k - 1) + rest);
      assert s[0] == '\U{1B}' && s[1] == '[' && s[2] == 'B';
      assert s[3..] == Repeat(DownKey, k - 1) + rest;
      DownPresses(n, (selected + 1) % n, k - 1, rest);
      ModShift(selected + 1, k - 1, n);
    } else {
      assert Repeat(DownKey, k) + rest == rest;
      ModUnique(selected, 0, selected, n);
    }
  }

  /** `k` presses of Up move it `k` places back, modulo the list length. */
  lemma {:induction false} UpPresses(n: nat, selected: nat, k: nat, rest: string)
    requires 0 < n && selected < n
    ensures Pick(n, selected, Repeat(UpKey, k) + rest) == Pick(n, (selected - k) % n, rest)
    decreases k
  {
    if k > 0 {
      var s := Repeat(UpKey, k) + rest;
      assert s == UpKey + (Repeat(UpKey, k - 1) + rest);
      assert s[0] == '\U{1B}' && s[1] == '[' && s[2] == 'A';
      assert s[3..] == Repeat(UpKey, k - 1) + rest;
      UpPresses(n, (selected - 1) % n, k - 1, rest);
      ModShift(selected - 1, -(k - 1), n);
    } else {
      assert Repeat(UpKey, k) + rest == rest;
      ModUnique(selected, 0, selected, n);
    }
  }

  /** Going round the whole list with Down comes back to where it started. */
  lemma FullCircle(n: nat, selected: nat, rest: string)
    requires 0 < n && selected < n
    ensures Pick(n, selected, Repeat(DownKey, n) + rest) == Pick(n, selected, rest)
  {
    DownPresses(n, selected, n, rest);
    ModUnique(selected + n, 1, selected, n);
  }

  /** The picker's outcome in the source's terms: a model name, `None` (cancelled),
      `KeyboardInterrupt`, or still waiting for keys. */
  datatype Selection = Selected(name: string) | NoSelection | KeyboardInterrupt | AwaitingKeys

  /** What `_prompt_model_selection` returns after reading `input`. */
  function SelectionOf(names: seq<string>, start: nat, input: string): (r: Selection)
    requires start < |names|
    ensures r.Selected? ==> r.name in names
  {
    match Pick(|names|, start, input)
    case Chosen(i) => Selected(names[i])
    case Cancelled => NoSelection
    case Interrupted => KeyboardInterrupt
    case Reading(_) => AwaitingKeys
  }

  /** `_prompt_model_selection` on the raw-terminal path, reading `input` one key at a time. */
  method PromptModelSelection(names: seq<string>, current: string, input: string) returns (r: Selection)
    ensures names == [] ==> r == NoSelection
    ensures names != [] ==>
      exists start :: 0 <= start < |names|
        && (current in names ==> names[start] == current)
        && (current !in names ==> start == 0)
        && r == SelectionOf(names, start, input)
  {
    if names == [] {
      return NoSelection;
    }
    var start := InitialSelection(names, current);
    var n: nat := |names|;
    var selected: nat := start;
    var pos := 0;
    while pos < |input|
      invariant pos <= |input| && selected < n
      invariant Pick(n, selected, input[pos..]) == Pick(n, start, input)
      decreases |input| - pos
    {
      var rest := input[pos..];
      var ch := input[pos];
      if ch == '\U{1B}' {
        if pos + 1 >= |input| {
          break;
        }
        if input[pos + 1] == '[' {
          if pos + 2 >= |input| {
            break;
          }
          var next2 := input[pos + 2];
          if next2 == 'B' {
            selected := (selected + 1) % n;
          } else if next2 == 'A' {
            selected := (selected - 1) % n;
          }
          assert rest[3..] == input[pos + 3..];
          pos := pos + 3;
        } else {
          assert SelectionOf(names, start, input) == NoSelection;
          return NoSelection;
        }
      } else if ch == '\r' || ch == '\n' {
        assert SelectionOf(names, start, input) == Selected(names[selected]);
        return Selected(names[selected]);
      } else if ch == '\U{3}' {
        assert SelectionOf(names, start, input) == KeyboardInterrupt;
        return KeyboardInterrupt;
      } else {
        assert rest[1..] == input[pos + 1..];
        pos := pos + 1;
      }
    }
    assert SelectionOf(names, start, input) == AwaitingKeys;
    return AwaitingKeys;
  }

  // ---------------------------------------------------------------------------
  // `_handle_model_command`

  datatype ModelOutcome = ModelHandled | ModelSwitched {
    function Name(): string {
      match this
      case ModelHandled => "handled"
      case ModelSwitched => "model_switched"
    }
  }

  /** The decisions of `_handle_model_command`. `catalog` is the list of model names, or
      `None` when `llms.json` is missing or invalid; `conversationActive` is whether the
      checkpoint saver holds state for the thread (a failing query counts as no); `picked` is
      what the picker returned; `switchSucceeds` whether building the new client and
      recreating the agent went through. */
  function ModelCommand(contextAvailable: bool, conversationActive: bool, catalog: Option<seq<string>>,
                        current: string, picked: Selection, switchSucceeds: bool): (r: ModelOutcome)
    ensures r == ModelSwitched <==>
      contextAvailable && !conversationActive && catalog.Some? && catalog.value != []
      && picked.Selected? && picked.name != current && switchSucceeds
  {
    if !contextAvailable then ModelHandled
    else if conversationActive then ModelHandled
    else if catalog.None? then ModelHandled
    else if catalog.value == [] then ModelHandled
    else if !picked.Selected? then ModelHandled
    else if picked.name == current then ModelHandled
    else if switchSucceeds then ModelSwitched
    else ModelHandled
  }

  // ---------------------------------------------------------------------------
  // `handle_command`

  /** Index of the first whitespace character. */
  function FirstSpace(s: string): (r: Option<nat>)
    ensures r.None? ==> forall k :: 0 <= k < |s| ==> !IsSpace(s[k])
    ensures r.Some? ==> r.value < |s| && IsSpace(s[r.value]) && forall k :: 0 <= k < r.value ==> !IsSpace(s[k])
  {
    if s == [] then None
    else if IsSpace(s[0]) then Some(0)
    else
      match FirstSpace(s[1..])
      case None => None
      case Some(i) => Some(i + 1)
  }

  predicate NoSpace(s: string) {
    forall k :: 0 <= k < |s| ==> !IsSpace(s[k])
  }

  /** Before the first whitespace of a left-stripped text lies a non-empty token; what
      follows it, left-stripped, ends the original text. */
  lemma FirstTokenParts(s: string, i: nat)
    requires FirstSpace(LStrip(s)) == Some(i)
    ensures var t := LStrip(s);
      && t[..i] != "" && NoSpace(t[..i]) && StartsWith(t, t[..i]) && EndsWith(s, LStrip(t[i..]))
  {
    var t := LStrip(s);
    assert t[..i][..i] == t[..i];
    EndsWithTransitive(t, t[i..], LStrip(t[i..]));
    EndsWithTransitive(s, t, LStrip(t[i..]));
  }

  /** `s.split(maxsplit=1)`: the first whitespace-free token and the rest with its leading
      whitespace removed. */
  function SplitFirst(s: string): (parts: seq<string>)
    ensures |parts| <= 2
    ensures parts == [] <==> AllSpace(s)
    ensures |parts| >= 1 ==>
      parts[0] != "" && NoSpace(parts[0]) && StartsWith(LStrip(s), parts[0])
    ensures |parts| == 2 ==> EndsWith(s, parts[1])
    ensures |parts| >= 1 ==> |parts[0]| <= |LStrip(s)| && parts[0] == LStrip(s)[..|parts[0]|]
    ensures |parts| >= 1 ==> |parts[0]| == |LStrip(s)| || IsSpace(LStrip(s)[|parts[0]|])
    ensures |parts| == 1 ==> AllSpace(LStrip(s)[|parts[0]|..])
    ensures |parts| == 2 ==> parts[1] != "" && parts[1] == LStrip(LStrip(s)[|parts[0]|..])
  {
    var t := LStrip(s);
    LStripBlank(s);
    if t == [] then []
    else
      match FirstSpace(t)
      case None => [t]
      case Some(i) =>
        FirstTokenParts(s, i);
        var rest := LStrip(t[i..]);
        LStripBlank(t[i..]);
        if rest == [] then [t[..i]] else [t[..i], rest]
  }

  /** Python's `Path(p).name`: the last component, ignoring empty and `.` components. */
  function Basename(p: string): (r: string)
    ensures '/' !in r
  {
    LastComponent(Split(p, '/'))
  }

  function LastComponent(parts: seq<string>): (r: string)
    requires forall k :: 0 <= k < |parts| ==> '/' !in parts[k]
    ensures '/' !in r
  {
    if parts == [] then ""
    else if parts[|parts| - 1] != "" && parts[|parts| - 1] != "." then parts[|parts| - 1]
    else LastComponent(parts[..|parts| - 1])
  }

  /** What `handle_command` dispatches to. */
  datatype Action =
    | Quit
    | Help
    | Clear
    | Tokens
    | Files(showAll: bool)
    | View(path: string)
    | Copy(path: string)
    | Download(userPath: string, localPath: string)
    | ChooseModel
    | Unknown(command: string)

  /** `/download` arguments: the sandbox path, then the local path, which defaults to the
      sandbox path's last component. */
  function DownloadArgs(args: string): (a: Action)
    ensures a.Download?
    ensures a.userPath == "" <==> AllSpace(Strip(args))
    ensures a.userPath != "" ==>
      && NoSpace(a.userPath) && |a.userPath| <= |Strip(args)| && Strip(args)[..|a.userPath|] == a.userPath
      && (|a.userPath| == |Strip(args)| || IsSpace(Strip(args)[|a.userPath|]))
    ensures a.userPath != "" ==>
      var rest := Strip(args)[|a.userPath|..];
      a.localPath == if AllSpace(rest) then Basename(a.userPath) else LStrip(rest)
    ensures a.userPath == "" ==> a.localPath == Basename("")
  {
    StrippedStartsSolid(args);
    var parts := SplitFirst(Strip(args));
    if parts == [] then Download("", Basename(""))
    else if |parts| == 1 then Download(parts[0], Basename(parts[0]))
    else Download(parts[0], parts[1])
  }

  /** A stripped text has nothing left for `LStrip` to remove. */
  lemma StrippedStartsSolid(args: string)
    ensures LStrip(Strip(args)) == Strip(args)
  {
  }

  /** The command as compared: stripped and lowered. */
  function Normalized(command: string): string {
    Lower(Strip(command))
  }

  /** The branches of `handle_command`, on the stripped command and its lowered form; an
      unknown command is reported as it was typed. */
  function Dispatch(command: string, cmd: string, low: string): (a: Action)
    requires |low| == |cmd|
    ensures a == Quit <==> low == "/exit" || low == "/q"
    ensures a == ChooseModel <==> low == "/model"
    ensures low == "/files" || StartsWith(low, "/files ") ==> a == Files(Contains(low, "all"))
  {
    if low == "/exit" || low == "/q" then Quit
    else if low == "/help" then Help
    else if low == "/clear" then Clear
    else if low == "/tokens" then (assert low[1] != "/files "[1]; Tokens)
    else if low == "/files" || StartsWith(low, "/files ") then Files(Contains(low, "all"))
    else if StartsWith(low, "/view ") then (assert low[1] != "/model"[1]; View(Strip(cmd[6..])))
    else if StartsWith(low, "/copy ") then (assert low[1] != "/model"[1]; Copy(Strip(cmd[6..])))
    else if StartsWith(low, "/download ") then DownloadArgs(cmd[10..])
    else if low == "/model" then ChooseModel
    else Unknown(command)
  }

  /** The routing of `handle_command`: the stripped command, compared case-insensitively.
      Only the exit commands quit, only `/model` reaches the model handler, and `/files`
      shows everything as soon as "all" occurs anywhere in the lowered command. */
  function Route(command: string): (a: Action)
    ensures a == Quit <==> Normalized(command) == "/exit" || Normalized(command) == "/q"
    ensures a == ChooseModel <==> Normalized(command) == "/model"
    ensures Normalized(command) == "/files" || StartsWith(Normalized(command), "/files ") ==>
      a == Files(Contains(Normalized(command), "all"))
  {
    Dispatch(command, Strip(command), Normalized(command))
  }

  /** The string `handle_command` returns: "exit" only for the exit commands, the model
      handler's answer for `/model`, and "handled" for everything else. */
  function HandleCommand(command: string, model: ModelOutcome): (r: string)
    ensures r == "exit" <==> Normalized(command) == "/exit" || Normalized(command) == "/q"
    ensures Normalized(command) == "/model" ==> r == model.Name()
    ensures Normalized(command) != "/exit" && Normalized(command) != "/q" && Normalized(command) != "/model"
      ==> r == "handled"
  {
    match Route(command)
    case Quit => "exit"
    case ChooseModel => model.Name()
    case _ => "handled"
  }

  /** Every command that starts with "/download " (in any case) is routed to the download
      handler with the text after those ten characters as its arguments. */
  lemma DownloadRoute(command: string)
    requires StartsWith(Normalized(command), "/download ")
    ensures Route(command) == DownloadArgs(Strip(command)[10..])
  {
    DispatchDownload(command, Strip(command), Normalized(command));
  }

  lemma DispatchDownload(command: string, cmd: string, low: string)
    requires |low| == |cmd| && StartsWith(low, "/download ")
    ensures Dispatch(command, cmd, low) == DownloadArgs(cmd[10..])
  {
    DownloadMatchesNoEarlierBranch(low);
  }

  /** A command starting with "/download " is none of the commands tested before it. */
  lemma DownloadMatchesNoEarlierBranch(low: string)
    requires StartsWith(low, "/download ")
    ensures low != "/exit" && low != "/q" && low != "/help" && low != "/clear" && low != "/tokens"
    ensures low != "/files" && !StartsWith(low, "/files ")
    ensures !StartsWith(low, "/view ") && !StartsWith(low, "/copy ")
  {
    assert |low| >= 10 && low[1] == 'd';
  }

  /** A single argument downloads to a local file named after the sandbox path. */
  lemma DownloadSingleArgument(args: string)
    requires Strip(args) != "" && forall k :: 0 <= k < |Strip(args)| ==> !IsSpace(Strip(args)[k])
    ensures DownloadArgs(args) == Download(Strip(args), Basename(Strip(args)))
  {
    var s := Strip(args);
    assert LStrip(s) == s;
    var parts := SplitFirst(s);
    assert FirstSpace(s).None?;
  }
}

=== FILE: streaming.dfy ===
/** The state of one streamed answer in the CLI (`libs/ptc-cli/ptc_cli/streaming/state.py`):
    the spinner, the text not yet shown, and whether the agent has answered yet. What reaches
    the console is kept as a log of events. */
module Streaming {
  import opened Text

  /** What the state does to the console: the spinner's status line, the "●" marker that
      starts the agent's answer, and a block of Markdown. */
  datatype Event = StatusStart | StatusStop | StatusUpdate(message: string) | Marker | Markdown(text: string)

  class StreamingState {
    var hasResponded: bool
    var pendingText: string
    var spinnerActive: bool
    var statusMessage: string
    var events: seq<Event>

    /** The marker has been printed once if the agent has responded, and never otherwise. */
    ghost predicate Valid()
      reads this
    {
      multiset(events)[Marker] == if hasResponded then 1 else 0
    }

    /** The spinner starts running; nothing has been said yet. */
    constructor(statusMessage: string)
      ensures Valid()
      ensures spinnerActive && !hasResponded && pendingText == ""
      ensures events == [StatusStart] && this.statusMessage == statusMessage
    {
      hasResponded := false;
      pendingText := "";
      this.statusMessage := statusMessage;
      events := [StatusStart];
      spinnerActive := true;
    }

    /** `stop_spinner`: the spinner is off afterwards; it is stopped only if it was running. */
    method StopSpinner()
      modifies this
      ensures !spinnerActive
      ensures events == old(events) + (if old(spinnerActive) then [StatusStop] else [])
      ensures hasResponded == old(hasResponded) && pendingText == old(pendingText) && statusMessage == old(statusMessage)
    {
      if spinnerActive {
        events := events + [StatusStop];
        spinnerActive := false;
      }
    }

    /** `start_spinner`: the spinner is on afterwards; it is started only if it was off. */
    method StartSpinner()
      modifies this
      ensures spinnerActive
      ensures events == old(events) + (if old(spinnerActive) then [] else [StatusStart])
      ensures hasResponded == old(hasResponded) && pendingText == old(pendingText) && statusMessage == old(statusMessage)
    {
      if !spinnerActive {
        events := events + [StatusStart];
        spinnerActive := true;
      }
    }

    /** `update_spinner`: a new status message, whether or not the spinner is running. */
    method UpdateSpinner(message: string)
      modifies this
      ensures statusMessage == message && events == old(events) + [StatusUpdate(message)]
      ensures spinnerActive == old(spinnerActive) && hasResponded == old(hasResponded) && pendingText == old(pendingText)
    {
      statusMessage := message;
      events := events + [StatusUpdate(message)];
    }

    /** `append_text`. */
    method AppendText(text: string)
      modifies this
      ensures pendingText == old(pendingText) + text
      ensures spinnerActive == old(spinnerActive) && hasResponded == old(hasResponded) && events == old(events)
      ensures statusMessage == old(statusMessage)
    {
      pendingText := pendingText + text;
    }

    /** `flush_text`: only a final flush of text that is not blank shows anything. It stops
        the spinner, starts the answer with the marker if this is the first one, shows the
        text without its trailing blanks, and empties the buffer. */
    method FlushText(final: bool)
      requires Valid()
      modifies this
      ensures Valid()
      ensures old(hasResponded) ==> hasResponded
      ensures statusMessage == old(statusMessage)
      ensures !final || Strip(old(pendingText)) == "" ==>
        && pendingText == old(pendingText) && events == old(events)
        && hasResponded == old(hasResponded) && spinnerActive == old(spinnerActive)
      ensures final && Strip(old(pendingText)) != "" ==>
        && pendingText == "" && hasResponded && !spinnerActive
        && events == Flushed(old(events), old(spinnerActive), old(hasResponded), RStrip(old(pendingText)))
    {
      if !final || Strip(pendingText) == "" {
        return;
      }
      ShowText(RStrip(pendingText));
    }

    /** The part of `flush_text` that shows `text`: the spinner stops, the marker comes
        first if the agent had not answered yet, then the text; the buffer is emptied. */
    method ShowText(text: string)
      requires Valid()
      modifies this
      ensures Valid() && hasResponded && !spinnerActive && pendingText == ""
      ensures statusMessage == old(statusMessage)
      ensures events == Flushed(old(events), old(spinnerActive), old(hasResponded), text)
    {
      ghost var after := Flushed(events, spinnerActive, hasResponded, text);
      FlushedMarkedOnce(events, spinnerActive, hasResponded, text);
      StopSpinner();
      var mark: seq<Event> := if hasResponded then [] else [Marker];
      events := events + mark + [Markdown(text)];
      hasResponded := true;
      pendingText := "";
      assert events == after;
    }
  }

  /** The events a final flush appends: the spinner's stop if it was running, the marker if
      the agent had not answered yet, then the text. */
  ghost function Flushed(es: seq<Event>, spinning: bool, responded: bool, text: string): seq<Event> {
    es + (if spinning then [StatusStop] else []) + (if responded then [] else [Marker]) + [Markdown(text)]
  }

  /** After a final flush the marker has been printed exactly once. */
  lemma FlushedMarkedOnce(es: seq<Event>, spinning: bool, responded: bool, text: string)
    requires multiset(es)[Marker] == if responded then 1 else 0
    ensures multiset(Flushed(es, spinning, responded, text))[Marker] == 1
  {
    var stop: seq<Event> := if spinning then [StatusStop] else [];
    var mark: seq<Event> := if responded then [] else [Marker];
    assert Flushed(es, spinning, responded, text) == es + stop + mark + [Markdown(text)];
    assert multiset(es + stop + mark + [Markdown(text)])
        == multiset(es) + multiset(stop) + multiset(mark) + multiset([Markdown(text)]);
  }

  /** However many times the answer is flushed, the marker is printed at most once. */
  method FlushTwice(s: StreamingState, more: string)
    requires s.Valid()
    modifies s
    ensures s.Valid() && multiset(s.events)[Marker] <= 1
    ensures old(s.hasResponded) ==> multiset(s.events)[Marker] == multiset(old(s.events))[Marker]
  {
    s.FlushText(true);
    s.AppendText(more);
    s.FlushText(true);
  }
}

=== FILE: subagents.dfy ===
/** The sub-agent registry (`src/agent/subagents/__init__.py`): sub-agents are created by
    name, each receiving only the keyword arguments it accepts, and the stateful one only
    when the sandbox and the MCP registry are both at hand. The factories themselves are not
    part of this model: a creation is described by the call made to the factory. */
module Subagents {
  import opened Text

  /** `SUBAGENT_REGISTRY`'s names, in its order. */
  const RegistryNames: seq<string> := ["research", "general"]

  /** `STATEFUL_SUBAGENTS`. */
  const StatefulNames: set<string> := {"general"}

  /** The "accepted" list of `SUBAGENT_PARAMS` for `name`, empty for a name it lacks. */
  function Accepted(name: string): seq<string> {
    if name == "research" then ["max_researcher_iterations", "mcp_tools"]
    else if name == "general" then ["max_iterations", "additional_tools", "include_mcp_docs", "tool_exposure_mode"]
    else []
  }

  /** The call made to a sub-agent factory: which factory, whether the sandbox and the MCP
      registry were passed, and the keyword arguments forwarded, in order. */
  datatype Creation<V> = Creation(factory: string, withDependencies: bool, kwargs: seq<(string, V)>)

  /** `{k: v for k, v in kwargs.items() if k in accepted}`. */
  function FilterKwargs<V(!new)>(kwargs: seq<(string, V)>, accepted: seq<string>): (r: seq<(string, V)>)
    ensures forall e :: e in r <==> e in kwargs && e.0 in accepted
    ensures |r| <= |kwargs|
  {
    if kwargs == [] then []
    else
      var rest := FilterKwargs(kwargs[1..], accepted);
      assert forall e :: e in kwargs <==> e == kwargs[0] || e in kwargs[1..];
      if kwargs[0].0 in accepted then [kwargs[0]] + rest else rest
  }

  /** Filtering keeps the order of the arguments it keeps: it distributes over
      concatenation. */
  lemma {:induction false} FilterKwargsAppend<V(!new)>(a: seq<(string, V)>, b: seq<(string, V)>, accepted: seq<string>)
    ensures FilterKwargs(a + b, accepted) == FilterKwargs(a, accepted) + FilterKwargs(b, accepted)
    decreases |a|
  {
    if a == [] {
      assert a + b == b;
    } else {
      assert (a + b)[0] == a[0] && (a + b)[1..] == a[1..] + b;
      FilterKwargsAppend(a[1..], b, accepted);
    }
  }

  function UnknownSubagent(name: string): string {
    "Unknown subagent: '" + name + "'. Available: " + Join(RegistryNames, ", ")
  }

  function MissingDependencies(name: string): string {
    "Subagent '" + name + "' requires sandbox and mcp_registry"
  }

  /** `create_subagent_by_name`: `Err` carries the `ValueError`'s message. */
  function CreateSubagentByName<V(!new)>(name: string, hasSandbox: bool, hasRegistry: bool,
                                   kwargs: seq<(string, V)>): (r: Result<Creation<V>, string>)
    ensures r.Err? <==> name !in RegistryNames || (name in StatefulNames && !(hasSandbox && hasRegistry))
    ensures name !in RegistryNames ==> r == Err(UnknownSubagent(name))
    ensures r.Ok? ==> r.value.factory == name
    ensures r.Ok? ==> (r.value.withDependencies <==> name in StatefulNames)
    ensures r.Ok? ==> forall e :: e in r.value.kwargs <==> e in kwargs && e.0 in Accepted(name)
  {
    if name !in RegistryNames then Err(UnknownSubagent(name))
    else
      var filtered := FilterKwargs(kwargs, Accepted(name));
      if name in StatefulNames then
        if !hasSandbox || !hasRegistry then Err(MissingDependencies(name))
        else Ok(Creation(name, true, filtered))
      else Ok(Creation(name, false, filtered))
  }

  /** The unknown-name error names every registered sub-agent. */
  lemma UnknownNameListsRegistry<V(!new)>(name: string, hasSandbox: bool, hasRegistry: bool, kwargs: seq<(string, V)>)
    requires name !in RegistryNames
    ensures var r := CreateSubagentByName(name, hasSandbox, hasRegistry, kwargs);
      r.Err? && forall k :: 0 <= k < |RegistryNames| ==> Contains(r.error, RegistryNames[k])
  {
    var msg := UnknownSubagent(name);
    var prefix := "Unknown subagent: '" + name + "'. Available: ";
    assert Join(RegistryNames, ", ") == "research" + ", " + "general";
    ContainsConcatRight(prefix, Join(RegistryNames, ", "), "research" + ", " + "general");
    ContainsOfPrefix("research" + ", " + "general", "research");
    ContainsConcatRight("research" + ", ", "general", "general");
    assert Contains(Join(RegistryNames, ", "), "research") by {
      ContainsOfPrefix(Join(RegistryNames, ", "), "research");
    }
    assert Contains(Join(RegistryNames, ", "), "general");
    ContainsConcatRight(prefix, Join(RegistryNames, ", "), "research");
    ContainsConcatRight(prefix, Join(RegistryNames, ", "), "general");
  }

  /** `names[k]` is the first name whose creation fails. */
  predicate FirstFailure<V(!new)>(names: seq<string>, hasSandbox: bool, hasRegistry: bool, kwargs: seq<(string, V)>, k: nat)
    requires k < |names|
  {
    && CreateSubagentByName(names[k], hasSandbox, hasRegistry, kwargs).Err?
    && forall j :: 0 <= j < k ==> CreateSubagentByName(names[j], hasSandbox, hasRegistry, kwargs).Ok?
  }

  /** `create_subagents_from_names`: one creation per name, in order; the first name that
      fails stops the list with its error. */
  function CreateSubagentsFromNames<V(!new)>(names: seq<string>, hasSandbox: bool, hasRegistry: bool,
                                       kwargs: seq<(string, V)>): (r: Result<seq<Creation<V>>, string>)
    ensures r.Ok? <==> forall k :: 0 <= k < |names| ==> CreateSubagentByName(names[k], hasSandbox, hasRegistry, kwargs).Ok?
    ensures r.Ok? ==> |r.value| == |names|
    ensures r.Ok? ==>
      forall k :: 0 <= k < |names| ==> r.value[k] == CreateSubagentByName(names[k], hasSandbox, hasRegistry, kwargs).value
    ensures r.Err? ==>
      exists k :: 0 <= k < |names| && FirstFailure(names, hasSandbox, hasRegistry, kwargs, k)
        && r.error == CreateSubagentByName(names[k], hasSandbox, hasRegistry, kwargs).error
  {
    if names == [] then Ok([])
    else
      var first := CreateSubagentByName(names[0], hasSandbox, hasRegistry, kwargs);
      if first.Err? then
        assert FirstFailure(names, hasSandbox, hasRegistry, kwargs, 0);
        Err(first.error)
      else
        var rest := CreateSubagentsFromNames(names[1..], hasSandbox, hasRegistry, kwargs);
        assert forall k :: 1 <= k < |names| ==> names[k] == names[1..][k - 1];
        if rest.Err? then
          var k :| 0 <= k < |names[1..]| && FirstFailure(names[1..], hasSandbox, hasRegistry, kwargs, k)
            && rest.error == CreateSubagentByName(names[1..][k], hasSandbox, hasRegistry, kwargs).error;
          FirstFailureShift(names, hasSandbox, hasRegistry, kwargs, k);
          Err(rest.error)
        else Ok([first.value] + rest.value)
  }

  /** A first failure among the names after a successful first one is the first failure of
      the whole list, one place later. */
  lemma FirstFailureShift<V(!new)>(names: seq<string>, hasSandbox: bool, hasRegistry: bool,
                                   kwargs: seq<(string, V)>, k: nat)
    requires names != [] && CreateSubagentByName(names[0], hasSandbox, hasRegistry, kwargs).Ok?
    requires k < |names| - 1 && FirstFailure(names[1..], hasSandbox, hasRegistry, kwargs, k)
    ensures names[1..][k] == names[k + 1]
    ensures FirstFailure(names, hasSandbox, hasRegistry, kwargs, k + 1)
  {
    forall j | 0 <= j < k + 1
      ensures CreateSubagentByName(names[j], hasSandbox, hasRegistry, kwargs).Ok?
    {
      if j > 0 {
        assert names[j] == names[1..][j - 1];
      }
    }
  }

  /** Without a sandbox or an MCP registry, only stateless sub-agents can be created, and
      they are created without either. */
  lemma StatelessWithoutDependencies<V(!new)>(names: seq<string>, kwargs: seq<(string, V)>)
    requires forall k :: 0 <= k < |names| ==> names[k] == "research"
    ensures var r := CreateSubagentsFromNames(names, false, false, kwargs);
      r.Ok? && forall k :: 0 <= k < |names| ==> !r.value[k].withDependencies && r.value[k].factory == "research"
  {
  }

  /** Asking for "general" without both dependencies fails, whatever else is asked for. */
  lemma GeneralNeedsDependencies<V(!new)>(names: seq<string>, hasSandbox: bool, hasRegistry: bool, kwargs: seq<(string, V)>)
    requires "general" in names && !(hasSandbox && hasRegistry)
    ensures CreateSubagentsFromNames(names, hasSandbox, hasRegistry, kwargs).Err?
  {
    var k :| 0 <= k < |names| && names[k] == "general";
    assert CreateSubagentByName(names[k], hasSandbox, hasRegistry, kwargs).Err?;
  }
}

=== FILE: text.dfy ===
/** Python string operations that the CLI and the agent tools rely on, over `string`
    (= `seq<char>`, one element per Unicode scalar value), plus the Option/Result
    wrappers used for the source's `None` and its raised exceptions. */
module Text {

  datatype Option<+T> = None | Some(value: T) {
    function GetOr(default: T): T {
      match this
      case Some(v) => v
      case None => default
    }
  }

  datatype Result<+T, +E> = Ok(value: T) | Err(error: E) {
    predicate IsFailure() {
      Err?
    }

    function PropagateFailure<U>(): Result<U, E>
      requires Err?
    {
      Err(error)
    }

    function Extract(): T
      requires Ok?
    {
      value
    }
  }

  // ---------------------------------------------------------------------------
  // Prefixes, suffixes, substrings (`str.startswith`, `str.endswith`, `in`)

  predicate StartsWith(s: string, prefix: string) {
    |prefix| <= |s| && s[..|prefix|] == prefix
  }

  predicate EndsWith(s: string, suffix: string) {
    |suffix| <= |s| && s[|s| - |suffix|..] == suffix
  }

  /** Python's `sub in s`. */
  predicate Contains(s: string, sub: string)
    decreases |s|
  {
    StartsWith(s, sub) || (|s| > 0 && Contains(s[1..], sub))
  }

  lemma {:induction false} ContainsAt(s: string, sub: string, i: nat)
    requires i + |sub| <= |s| && s[i..i + |sub|] == sub
    ensures Contains(s, sub)
    decreases i
  {
    if i > 0 {
      assert s[1..][i - 1..i - 1 + |sub|] == sub;
      ContainsAt(s[1..], sub, i - 1);
    }
  }

  lemma {:induction false} ContainsWitness(s: string, sub: string) returns (i: nat)
    requires Contains(s, sub)
    ensures i + |sub| <= |s| && s[i..i + |sub|] == sub
    decreases |s|
  {
    if StartsWith(s, sub) {
      i := 0;
    } else {
      var j := ContainsWitness(s[1..], sub);
      i := j + 1;
      assert s[i..i + |sub|] == s[1..][j..j + |sub|];
    }
  }

  lemma ContainsOfPrefix(s: string, p: string)
    requires StartsWith(s, p)
    ensures Contains(s, p)
  {
  }

  lemma {:induction false} ContainsConcatRight(a: string, b: string, sub: string)
    requires Contains(b, sub)
    ensures Contains(a + b, sub)
  {
    var i := ContainsWitness(b, sub);
    assert (a + b)[|a| + i..|a| + i + |sub|] == b[i..i + |sub|];
    ContainsAt(a + b, sub, |a| + i);
  }

  // ---------------------------------------------------------------------------
  // `sep.join(parts)`

  function Join(parts: seq<string>, sep: string): (r: string)
    ensures parts == [] ==> r == ""
    ensures |parts| == 1 ==> r == parts[0]
  {
    if parts == [] then ""
    else if |parts| == 1 then parts[0]
    else parts[0] + sep + Join(parts[1..], sep)
  }

  /** A join begins with its first part. */
  lemma JoinHead(parts: seq<string>, sep: string)
    requires parts != []
    ensures StartsWith(Join(parts, sep), parts[0])
  {
    if |parts| > 1 {
      var tail := Join(parts[1..], sep);
      assert (parts[0] + sep + tail)[..|parts[0]|] == parts[0];
    }
  }

  lemma JoinCons(x: string, rest: seq<string>, sep: string)
    requires rest != []
    ensures Join([x] + rest, sep) == x + sep + Join(rest, sep)
  {
    assert ([x] + rest)[1..] == rest;
  }

  lemma {:induction false} JoinAppend(parts: seq<string>, x: string, sep: string)
    ensures Join(parts + [x], sep) == if parts == [] then x else Join(parts, sep) + sep + x
    decreases |parts|
  {
    if |parts| > 1 {
      assert (parts + [x])[1..] == parts[1..] + [x];
      JoinAppend(parts[1..], x, sep);
    } else if |parts| == 1 {
      assert parts + [x] == [parts[0], x];
    }
  }

  // ---------------------------------------------------------------------------
  // `str.split(c)` for a one-character separator

  function IndexOf(s: string, c: char): (r: Option<nat>)
    ensures r.None? ==> forall k :: 0 <= k < |s| ==> s[k] != c
    ensures r.Some? ==> r.value < |s| && s[r.value] == c && forall k :: 0 <= k < r.value ==> s[k] != c
  {
    if |s| == 0 then None
    else if s[0] == c then Some(0)
    else
      match IndexOf(s[1..], c)
      case None => None
      case Some(k) => (assert s[..k + 1] == [s[0]] + s[1..][..k]; Some(k + 1))
  }

  /** Position of the last occurrence of `c`, as `str.rfind`. */
  function LastIndexOf(s: string, c: char): (r: Option<nat>)
    ensures r.None? <==> c !in s
    ensures r.Some? ==> r.value < |s| && s[r.value] == c && c !in s[r.value + 1..]
  {
    if |s| == 0 then None
    else if s[|s| - 1] == c then Some(|s| - 1)
    else
      var r := LastIndexOf(s[..|s| - 1], c);
      assert s == s[..|s| - 1] + [s[|s| - 1]];
      assert r.Some? ==> s[r.value + 1..] == s[..|s| - 1][r.value + 1..] + [s[|s| - 1]];
      r
  }

  /** `s.rsplit(c, 1)`: the text before and after the last `c`, if there is one. */
  function RSplitOnce(s: string, c: char): (r: Option<(string, string)>)
    ensures r.None? <==> c !in s
    ensures r.Some? ==> r.value.0 + [c] + r.value.1 == s && c !in r.value.1
  {
    match LastIndexOf(s, c)
    case None => None
    case Some(i) =>
      assert s == s[..i] + [c] + s[i + 1..];
      Some((s[..i], s[i + 1..]))
  }

  /** Python's `s.split(c)`: always at least one part; no part contains `c`. */
  function Split(s: string, c: char): (parts: seq<string>)
    ensures |parts| >= 1
    ensures forall k :: 0 <= k < |parts| ==> c !in parts[k]
    decreases |s|
  {
    match IndexOf(s, c)
    case None => [s]
    case Some(i) => [s[..i]] + Split(s[i + 1..], c)
  }

  /** Splitting and re-joining with the same separator gives back the text. */
  lemma {:induction false} JoinSplit(s: string, c: char)
    ensures Join(Split(s, c), [c]) == s
    decreases |s|
  {
    match IndexOf(s, c)
    case None =>
    case Some(i) =>
      var rest := Split(s[i + 1..], c);
      var parts := [s[..i]] + rest;
      assert Split(s, c) == parts;
      assert parts[1..] == rest;
      assert Join(parts, [c]) == s[..i] + [c] + Join(rest, [c]);
      JoinSplit(s[i + 1..], c);
      assert s == s[..i] + [c] + s[i + 1..];
  }

  /** Python's `s.split(c, maxsplit)`: at most `maxsplit` splits, from the left. */
  function SplitAtMost(s: string, c: char, maxsplit: nat): (parts: seq<string>)
    ensures |parts| >= 1
    ensures IndexOf(s, c).Some? && maxsplit >= 1 ==> |parts| >= 2
    decreases maxsplit
  {
    match IndexOf(s, c)
    case None => [s]
    case Some(i) => if maxsplit == 0 then [s] else [s[..i]] + SplitAtMost(s[i + 1..], c, maxsplit - 1)
  }

  /** Re-joining the parts with the separator gives back the text. */
  lemma {:induction false} JoinSplitAtMost(s: string, c: char, maxsplit: nat)
    ensures Join(SplitAtMost(s, c, maxsplit), [c]) == s
    decreases maxsplit
  {
    if maxsplit > 0 && IndexOf(s, c).Some? {
      var i := IndexOf(s, c).value;
      JoinSplitAtMost(s[i + 1..], c, maxsplit - 1);
      JoinSplitAtMostStep(s, c, maxsplit, i);
    } else {
      SplitAtMostWhole(s, c, maxsplit);
    }
  }

  lemma SplitAtMostWhole(s: string, c: char, maxsplit: nat)
    requires maxsplit == 0 || IndexOf(s, c).None?
    ensures Join(SplitAtMost(s, c, maxsplit), [c]) == s
  {
    assert SplitAtMost(s, c, maxsplit) == [s];
  }

  lemma JoinSplitAtMostStep(s: string, c: char, maxsplit: nat, i: nat)
    requires IndexOf(s, c) == Some(i) && maxsplit > 0
    requires Join(SplitAtMost(s[i + 1..], c, maxsplit - 1), [c]) == s[i + 1..]
    ensures Join(SplitAtMost(s, c, maxsplit), [c]) == s
  {
    var rest := SplitAtMost(s[i + 1..], c, maxsplit - 1);
    assert SplitAtMost(s, c, maxsplit) == [s[..i]] + rest;
    JoinCons(s[..i], rest, [c]);
    assert s == s[..i] + [c] + s[i + 1..];
  }

  lemma IndexOfSeparator(a: string, c: char, b: string)
    requires c !in a
    ensures IndexOf(a + [c] + b, c) == Some(|a|)
  {
    var s := a + [c] + b;
    assert s[|a|] == c;
  }

  /** Joining parts that do not contain the separator and splitting again gives back the
      parts. */
  lemma {:induction false} SplitJoin(parts: seq<string>, c: char)
    requires |parts| >= 1 && forall k :: 0 <= k < |parts| ==> c !in parts[k]
    ensures Split(Join(parts, [c]), c) == parts
    decreases |parts|
  {
    if |parts| > 1 {
      var tail := parts[1..];
      assert forall k :: 0 <= k < |tail| ==> tail[k] == parts[k + 1];
      SplitJoin(tail, c);
      SplitJoinStep(parts, c);
    } else {
      assert Join(parts, [c]) == parts[0];
      assert IndexOf(parts[0], c).None?;
    }
  }

  lemma SplitJoinStep(parts: seq<string>, c: char)
    requires |parts| > 1 && c !in parts[0]
    requires Split(Join(parts[1..], [c]), c) == parts[1..]
    ensures Split(Join(parts, [c]), c) == parts
  {
    assert parts == [parts[0]] + parts[1..];
    SplitJoinCons(parts[0], parts[1..], c);
  }

  lemma SplitJoinCons(head: string, tail: seq<string>, c: char)
    requires tail != [] && c !in head
    requires Split(Join(tail, [c]), c) == tail
    ensures Split(Join([head] + tail, [c]), c) == [head] + tail
  {
    JoinCons(head, tail, [c]);
    SplitAround(head, c, Join(tail, [c]));
  }

  /** The first separator ends the first part. */
  lemma SplitAround(a: string, c: char, b: string)
    requires c !in a
    ensures Split(a + [c] + b, c) == [a] + Split(b, c)
  {
    var s := a + [c] + b;
    IndexOfSeparator(a, c, b);
    assert s[..|a|] == a;
    assert s[|a| + 1..] == b;
  }

  // ---------------------------------------------------------------------------
  // Whitespace (`str.strip`, `str.rstrip`), ASCII part of `str.isspace`

  predicate IsSpace(ch: char) {
    ch == ' ' || ('\U{9}' <= ch <= '\U{D}') || ('\U{1C}' <= ch <= '\U{1F}')
  }

  predicate AllSpace(s: string) {
    forall k :: 0 <= k < |s| ==> IsSpace(s[k])
  }

  lemma AllSpaceSnoc(a: string, ch: char)
    requires AllSpace(a) && IsSpace(ch)
    ensures AllSpace(a + [ch])
  {
    assert forall k :: 0 <= k < |a| ==> (a + [ch])[k] == a[k];
  }

  lemma AllSpaceCons(ch: char, a: string)
    requires IsSpace(ch) && AllSpace(a)
    ensures AllSpace([ch] + a)
  {
    assert forall k :: 0 < k <= |a| ==> ([ch] + a)[k] == a[k - 1];
  }

  function RStrip(s: string): (r: string)
    ensures StartsWith(s, r) && AllSpace(s[|r|..])
    ensures r == [] || !IsSpace(r[|r| - 1])
  {
    if |s| > 0 && IsSpace(s[|s| - 1]) then
      var init := s[..|s| - 1];
      var r := RStrip(init);
      assert s[..|r|] == init[..|r|];
      assert s[|r|..] == init[|r|..] + [s[|s| - 1]];
      AllSpaceSnoc(init[|r|..], s[|s| - 1]);
      r
    else s
  }

  /** A text has one prefix that leaves only blanks after it and does not itself end
      blank. */
  lemma BlankTailUnique(s: string, r: string, t: string)
    requires StartsWith(s, r) && AllSpace(s[|r|..]) && (r == [] || !IsSpace(r[|r| - 1]))
    requires StartsWith(s, t) && AllSpace(s[|t|..]) && (t == [] || !IsSpace(t[|t| - 1]))
    ensures r == t
  {
    assert r == s[..|r|] && t == s[..|t|];
  }

  /** `rstrip` removes exactly the trailing blank part, when what precedes it does not end
      blank. */
  lemma RStripTrailing(t: string, w: string)
    requires AllSpace(w) && (t == [] || !IsSpace(t[|t| - 1]))
    ensures RStrip(t + w) == t
  {
    var s := t + w;
    assert s[..|t|] == t && s[|t|..] == w;
    BlankTailUnique(s, RStrip(s), t);
  }

  function LStrip(s: string): (r: string)
    ensures EndsWith(s, r) && AllSpace(s[..|s| - |r|])
    ensures r == [] || !IsSpace(r[0])
  {
    if |s| > 0 && IsSpace(s[0]) then
      var tail := s[1..];
      var r := LStrip(tail);
      assert s[|s| - |r|..] == tail[|tail| - |r|..];
      assert s[..|s| - |r|] == [s[0]] + tail[..|tail| - |r|];
      AllSpaceCons(s[0], tail[..|tail| - |r|]);
      r
    else s
  }

  /** Python's `s.strip()`. */
  function Strip(s: string): (r: string)
    ensures r == [] || (!IsSpace(r[0]) && !IsSpace(r[|r| - 1]))
    ensures |r| <= |s|
  {
    LStrip(RStrip(s))
  }

  lemma {:induction false} StripBlank(s: string)
    ensures Strip(s) == "" <==> AllSpace(s)
  {
    var t := RStrip(s);
    if !AllSpace(s) {
      var k :| 0 <= k < |s| && !IsSpace(s[k]);
      assert k < |t|;
    }
  }

  lemma LStripBlank(s: string)
    ensures LStrip(s) == "" <==> AllSpace(s)
  {
    var t := LStrip(s);
    if t == "" {
      assert s[..|s| - |t|] == s;
    } else {
      assert s[|s| - |t|..][0] == t[0];
      assert !IsSpace(s[|s| - |t|]);
    }
  }

  lemma EndsWithTransitive(a: string, b: string, c: string)
    requires EndsWith(a, b) && EndsWith(b, c)
    ensures EndsWith(a, c)
  {
    assert a[|a| - |c|..] == a[|a| - |b|..][|b| - |c|..];
  }

  // ---------------------------------------------------------------------------
  // ASCII case folding (`str.lower` on ASCII text)

  function LowerChar(ch: char): char {
    if 'A' <= ch <= 'Z' then (ch as int + 32) as char else ch
  }

  function Lower(s: string): (r: string)
    ensures |r| == |s|
    ensures forall k :: 0 <= k < |s| ==> r[k] == LowerChar(s[k])
  {
    seq(|s|, k requires 0 <= k < |s| => LowerChar(s[k]))
  }

  // ---------------------------------------------------------------------------
  // `s.replace(pattern, "")` for a non-empty pattern: left-to-right,
  // non-overlapping removal of every occurrence.

  function RemoveAll(s: string, pattern: string): (r: string)
    requires pattern != ""
    ensures |r| <= |s|
    decreases |s|
  {
    if |s| == 0 then ""
    else if StartsWith(s, pattern) then RemoveAll(s[|pattern|..], pattern)
    else [s[0]] + RemoveAll(s[1..], pattern)
  }

  /** Removing a pattern that does not occur changes nothing. */
  lemma {:induction false} RemoveAbsent(s: string, pattern: string)
    requires pattern != "" && !Contains(s, pattern)
    ensures RemoveAll(s, pattern) == s
    decreases |s|
  {
    if |s| > 0 {
      RemoveAbsent(s[1..], pattern);
    }
  }

  // ---------------------------------------------------------------------------
  // Decimal rendering (`str(n)`, `f"{n}"`) and right alignment (`f"{x:>w}"`)

  function DigitChar(d: nat): char
    requires d < 10
  {
    ('0' as int + d) as char
  }

  predicate IsDigit(ch: char) {
    '0' <= ch <= '9'
  }

  function NatToString(n: nat): (r: string)
    ensures |r| >= 1
    ensures forall k :: 0 <= k < |r| ==> IsDigit(r[k])
  {
    if n < 10 then [DigitChar(n)] else NatToString(n / 10) + [DigitChar(n % 10)]
  }

  function IntToString(i: int): (r: string)
    ensures i >= 0 ==> r == NatToString(i)
    ensures i < 0 ==> r == "-" + NatToString(-i)
  {
    if i < 0 then "-" + NatToString(-i) else NatToString(i)
  }

  function Spaces(n: nat): (r: string)
    ensures |r| == n && forall k :: 0 <= k < n ==> r[k] == ' '
  {
    seq(n, k => ' ')
  }

  /** `f"{s:>width}"`: right-aligned in a field of `width` characters. */
  function PadLeft(s: string, width: nat): string {
    if |s| >= width then s else Spaces(width - |s|) + s
  }

  /** The padded text ends with `s`, is `width` characters long unless `s` is longer, and
      is blank before `s`. */
  lemma PadLeftShape(s: string, width: nat)
    ensures EndsWith(PadLeft(s, width), s)
    ensures |PadLeft(s, width)| == if |s| >= width then |s| else width
    ensures forall k :: 0 <= k < |PadLeft(s, width)| - |s| ==> PadLeft(s, width)[k] == ' '
  {
  }
}
